=== FILE: README.md ===
# btfdump core, modelled in Dafny

btfdump reads the BPF Type Format (BTF): the `.BTF` section of an ELF object
holds a header, a type section of variable-length type records and a string
table. Around that table the program offers four pieces of pure logic, and
this project models all four:

- **The loaders.** `Btf::load` of src/types.rs and the two earlier copies in
  src/btf.rs and src/lib.rs check the header and walk the type section. Each
  record is decoded by its kind (`load_type` and its `load_*` arms, with the
  `info`, int-info and member-offset words split into fields). The walk
  advances by the record length `type_size` and builds a table whose id 0 is
  Void.
- **The type queries.** These are `skip_mods`, `skip_mods_and_typedefs`,
  `get_size_of`, `get_align_of`, `BtfKind::from_str` and the name index of
  src/btf_index.rs.
- **The CO-RE relocator (src/relocator.rs).** A local access spec such as
  `0:1:2` is turned into accessors (`transform_access`). Its byte offset is
  computed (`calc_off`). For each target candidate with the same name, the
  spec is re-resolved through anonymous members (`calc_targ_spec`,
  `targ_member_spec`). `relocate` then picks the first match and rejects
  candidates that disagree on the offset. Its `type_map` cache is part of
  the model: a local type seen before is tried only against the target ids
  it matched the first time, which can change the outcome. The textual
  spec is printed by `spec_to_str` and parsed by `parse_reloc_access_spec`.
- **The C dumper's emission order (src/c_dumper.rs).** A per-type state
  machine (`NotEmitted`, `Emitting`, `FwdEmitted`, `Emitted`) decides when a
  definition is printed and when only a forward declaration is. The model
  also covers the declarator chain that `emit_type_decl` builds and the
  modifier popping of `emit_non_ptr_mods`. Printed text is abstracted to a
  trace of events. Like the file it models, the dumper works on the type
  table of src/btf.rs.

Types are immutable datatypes and tables are sequences indexed by type id.
Every `u32` sum and product the program computes is written out with its
wrap-around. Errors are `Result` values: one constructor per error message
of the source, and `Panic` where Rust would panic on an index: a relocation record's type id, an empty spec, a member index. A dangling type id held by a record of the table, on which `type_by_id` would also panic, is excluded by the `Valid` precondition instead (see "## Left out").

Layout, one module per file:

- Wrappers, Words: results and `u32` arithmetic.
- Records, Kinds, Types: the table of src/types.rs and its queries.
- Wire: byte and word decoding shared by all loaders.
- SectionWalk: the generic section walk.
- TypesLoader: the src/types.rs loader.
- Legacy: the src/btf.rs and src/lib.rs loaders, with a `Style` parameter selecting the file.
- AccessSpec: the textual access spec.
- NameIndex: the name index.
- Relocator and Relocate: the relocator and its candidate loop.
- CDumper: the dumper's emission order.

## Model

| member | source | states |
|---|---|---|
| Wire.ReadU32 | src/types.rs:1247 | A `u32` read at an offset succeeds exactly when four bytes remain there; otherwise it fails with a truncation error at that offset |
| Wire.EncodeReadU32 | src/types.rs:1247 | Writing back the word read at an offset gives exactly the four bytes read, in either byte order, so distinct bytes never read as the same word |
| Wire.ReadEncodedU32 | src/types.rs:1247 | Reading back the bytes written for a word gives that word |
| Wire.GetBtfStr | src/types.rs:1610-1613 | A name is the bytes from its offset up to the next NUL, and it contains no NUL; an offset past the table or a string with no terminator is an error naming which |
| Wire.StrTableRoundTrip | src/types.rs:1610-1613 | A NUL-free name stored at an offset and followed by a NUL is read back exactly, whatever surrounds it |
| Wire.GetKind | src/types.rs:1448-1450 | The kind field of the info word is below 32 (five bits) |
| Wire.InfoRoundTrip | src/types.rs:1444-1454 | `get_vlen`, `get_kind` and `get_kind_flag` (`Wire.GetVlen`, `Wire.GetKind`, `Wire.GetKindFlag`) recover the vlen, kind and flag an info word was built from, and the unused bits of such a word are zero |
| Wire.InfoDecomposes | src/types.rs:1444-1454 | Every info word equals the encoding of its three decoded fields plus the bits no decoder reads |
| Wire.DecodeMemberOffset | src/types.rs:1302-1311 | With the kind flag clear a member has bit size 0 and the whole word as bit offset; with it set, the bit offset is below 2^24 and size×2^24 + offset is the word |
| Wire.MemberOffsetRoundTrip | src/types.rs:1302-1311 | With the kind flag set, decoding and encoding of the member offset word are inverse both ways |
| Wire.DecodeIntInfo | src/types.rs:1247-1250 | The encoding, bit offset and bit count of an int are taken from 4, 8 and 8 bits of the word |
| Wire.IntInfoRoundTrip | src/types.rs:1247-1250 | Decoding the word built from encoding, offset and bits gives them back |
| Wire.IntInfoDecomposes | src/types.rs:1247-1250 | An int word is determined by its three fields up to the bits `load_int` ignores |
| Wire.IntEncodingOf | src/types.rs:1255-1263 | An int encoding is accepted exactly when it is 0, 1, 2 or 4; any other value is the unknown-encoding error carrying that value |
| Wire.IntEncodingRoundTrip | src/types.rs:1255-1263 | The accepted encodings and their codes are inverse |
| Wire.Enum64RoundTrip | src/types.rs:1336-1353 | The intended decoding of the two 32-bit halves recovers every `i64` enumerator value |
| Wire.Enum64AsWrittenDiffers | src/types.rs:1344 | The value the program computes for halves (1, 0) is 2^32 although the encoded value is 1 |
| Wire.LoadEntries | src/types.rs:1294-1316 | The `for _ in 0..vlen` loops yield exactly vlen entries, packed from offset 0 and inside the bytes given |
| Wire.LoadEntriesSpec | src/types.rs:1294-1316 | The loop succeeds exactly when every entry decodes on its own and then returns those entries in order; otherwise its error is that of the first entry that fails |
| Wire.LoadEntriesPrefix | src/types.rs:1294-1316 | The loop reads nothing past its vlen entries: cutting the bytes after them leaves the result unchanged |
| Wire.ReadHeader | src/types.rs:1110 | The 24-byte header is read exactly when 24 bytes are present |
| Wire.HeaderRoundTrip | src/types.rs:55-64 | A header is read back from its encoding, whatever follows it |
| Wire.CheckHeader | src/types.rs:1111-1119 | The header passes exactly when the magic is 0xeB9F and the version is 1; a bad magic is reported before a bad version |
| Wire.Slice | src/types.rs:1121-1125 | Cutting a section succeeds exactly when it lies inside the data, and then yields exactly those bytes |
| Wrappers.CollectSpec | src/types.rs:1602-1608 | Collecting results in order succeeds exactly when all succeed, keeps every value in place, and otherwise reports the first error |
| Kinds.FromStr | src/types.rs:818-845 | A string is accepted only as one of the spellings of the kind returned; a rejected string is carried in the error |
| Kinds.FromStrComplete | src/types.rs:818-845 | Every listed spelling of every kind parses to that kind |
| Kinds.FromStrRejects | src/types.rs:818-845 | A string is rejected exactly when it is no kind's spelling |
| Kinds.CanonicalRoundTrip | src/types.rs:818-845 | The long name of every kind parses back to that kind |
| Kinds.CodeRoundTrip | src/types.rs:18-39 | The `BTF_KIND_*` numbers are a bijection between the 20 kinds and 0..19; every number from 20 up names no kind |
| Types.SkipMods | src/types.rs:1062-1072 | `skip_mods` ends on a record that is not Volatile, Const, Restrict or TypeTag, and returns a non-modifier unchanged |
| Types.SkipModsAndTypedefs | src/types.rs:1074-1085 | `skip_mods_and_typedefs` ends on a record that is neither a modifier nor a typedef, and returns such a record unchanged |
| Types.SkipIdempotent | src/types.rs:1062-1085 | Both walks are idempotent |
| Types.SkipThroughLink | src/types.rs:1062-1085 | Following one modifier or typedef link first does not change where either walk ends |
| Types.SkipModsThenTypedefs | src/types.rs:1062-1085 | Stripping modifiers first and then modifiers and typedefs ends where stripping both at once does |
| Types.ModsWalkEnds | src/types.rs:1062-1085 | Whenever the walk through modifiers and typedefs ends within some number of links, the modifier-only walk ends within as many |
| Types.SkipModsToComposite | src/types.rs:1062-1085 | When the modifier-only walk reaches a struct or union, the walk that also strips typedefs reaches the same record |
| Types.GetSizeOf | src/types.rs:1000-1023 | An int's size is (bits+7)/8 in `u32`, a pointer's is the pointer size, Void, Fwd, FuncProto, Func and Var are 0, and struct, union, enum, datasec, float and enum64 report their size field |
| Types.SizeOfStep | src/types.rs:1000-1023 | Modifiers, typedefs and both tags are transparent to the size, and an array's size is its element count times its element size, wrapping at 2^32 |
| Types.SizeSeesThrough | src/types.rs:1000-1023 | The size of a type equals the size of the record `skip_mods_and_typedefs` reaches from it |
| Types.GetAlignOf | src/types.rs:1025-1060 | An int is aligned to min(pointer size, byte size), enum, float and enum64 to min(pointer size, size), a pointer to the pointer size, Void and the other unsized kinds to 0, and a struct or union to at least 1 |
| Types.MembersAlignSpec | src/types.rs:1035-1048 | The member loop is defined exactly when every member's alignment is; the result is at least every member's alignment and is 1 or one of them |
| Types.AlignOfComposite | src/types.rs:1035-1048 | A struct or union is aligned to the largest member alignment, or to 1 when that is larger |
| Types.AlignOfStep | src/types.rs:1025-1060 | Modifiers, typedefs and type tags are transparent to the alignment, and an array is aligned like its element |
| Types.ScalarAlignBelowSize | src/types.rs:1025-1060 | For int, enum, float and enum64 the alignment never exceeds the size or the pointer size |
| TypesLoader.VarKindOf | src/types.rs:1389-1403 | A variable's linkage is accepted exactly when it is 0, 1 or 2 |
| TypesLoader.TypeSize | src/types.rs:1176-1198 | A record's length is 0 exactly for Void and otherwise at least the 12 common bytes |
| TypesLoader.LoadType | src/types.rs:1200-1244 | Fewer than 12 bytes is a truncation error at 0; a decoded record is never Void and its length fits in the bytes given |
| TypesLoader.LoadTypeDispatch | src/types.rs:1200-1244 | A decoded record has the kind its info word names; a kind number naming no kind, or naming Void, is the unknown-kind error; a Fwd is a union exactly when the kind flag is set |
| TypesLoader.LoadInt | src/types.rs:1246-1265 | A decoded int carries the bits, offset and encoding of its extra word |
| TypesLoader.LoadArray | src/types.rs:1267-1274 | An array decodes exactly when 12 extra bytes are present, as element type, index type and count in that order |
| TypesLoader.LoadComposite | src/types.rs:1276-1292 | A struct or union carries its size word and vlen members, decoded in order by the member loop, and its length is 12 plus the members' bytes |
| TypesLoader.LoadEnum | src/types.rs:1317-1334 | An enum carries its size word and its vlen values, in order |
| TypesLoader.LoadEnum64 | src/types.rs:1336-1353 | An enum64 carries its size word and its vlen values as the program decodes them, in order |
| TypesLoader.LoadFuncProto | src/types.rs:1366-1387 | A prototype carries its result type and vlen parameters, in order |
| TypesLoader.LoadVar | src/types.rs:1389-1403 | A decoded variable carries its type, and its linkage word is at most 2 |
| TypesLoader.LoadDatasec | src/types.rs:1405-1428 | A datasec carries its size word and vlen variables, in order |
| TypesLoader.LoadDeclTag | src/types.rs:1430-1442 | A decl tag carries its type and the component index of its extra word |
| TypesLoader.LoadTypeReadsOwnBytes | src/types.rs:1127-1131 | A record is decoded from exactly its `type_size` bytes: cutting the input after them does not change it, which is why the walk may advance by `type_size` |
| TypesLoader.LoadTypeAdvances | src/types.rs:1127-1131 | Every decoded record consumes at least 12 bytes and no more than it is given, so the section walk terminates |
| SectionWalk.WalkFrom | src/types.rs:1126-1131 | A successful walk yields records that cover the section exactly, each decoded where the previous one ends; a failing walk reports the error of a record decoded inside the section |
| SectionWalk.WalkFromUnique | src/types.rs:1126-1131 | The walk is the only parse: any run of records decoded back to back up to the end of the section is what the walk returns |
| SectionWalk.RecordsFromAt | src/types.rs:1126-1131 | Record i of a parse is the one decoded at the sum of the lengths of records 0..i-1 |
| TypesLoader.LoadBtf | src/types.rs:1087-1131 | Data shorter than a header is a truncation error at 0; a header with the wrong magic or version fails with that error; past a checked header the load is exactly the load of the sections cut at `hdr_len` + offset, a `u32` sum |
| TypesLoader.LoadSections | src/types.rs:1121-1131 | A string section out of range is the first error, a type section out of range the second; with both in range, the table is Void followed by whatever the type section decodes to, or that decoding's error; the pointer size follows the ELF class |
| TypesLoader.LoadTypes | src/types.rs:1126-1131 | The records cover the type section exactly, none is Void, and each is what `load_type` decodes where the previous one ends; the walk succeeds exactly when such a split exists, and then returns it |
| TypesLoader.LoadBtfLoads | src/types.rs:1087-1131 | A well-formed `.BTF` section (header checks, both sections in range, type section splitting into records) loads as Void followed by those records, with the pointer size of the ELF class |
| TypesLoader.LoadBtfOk | src/types.rs:1087-1131 | `Btf::load` succeeds exactly on a well-formed `.BTF` section, and the records after Void are then its type section's split |
| TypesLoader.SectionsFollowHeader | src/types.rs:1121-1125 | With a `hdr_len`-byte header, each section is cut from the bytes after the header at its offset |
| Legacy.KindCode | src/btf.rs:565 | The earlier loaders read the kind through a 4-bit mask, so it is below 16 |
| Legacy.KindCodeMasks | src/btf.rs:565 | The 4-bit kind is the 5-bit kind of src/types.rs modulo 16: equal below 16, kinds 16..31 alias 0..15 |
| Legacy.GetKindReadsFlag | src/btf.rs:740-746 | On an encoded info word, `get_kind` (`Legacy.GetKind`) yields the stored flag bit, not the kind |
| Legacy.TypeSize | src/btf.rs:541-560 | A record's length is 0 exactly for Void and otherwise at least 12 bytes |
| Legacy.FwdKindOf | src/lib.rs:573-580 | In src/btf.rs a forward declaration is a union exactly when the flag is set; in src/lib.rs exactly when it is clear |
| Legacy.VarKindOf | src/btf.rs:700-713 | Only linkage 0 and 1 are accepted; external linkage and anything else are the unknown-var-kind error with that value |
| Legacy.LoadType | src/btf.rs:562-597 | Fewer than 12 bytes is a truncation error at 0; a decoded record is never Void and fits in the bytes given |
| Legacy.LoadTypeDispatch | src/btf.rs:562-597 | A decoded record has the kind the 4-bit field names; a field of 0 is the unknown-kind error; a Fwd's kind follows the file's flag mapping |
| Legacy.LoadInt | src/btf.rs:599-618 | A decoded int carries the fields of its extra word; once word and name are read, it fails exactly when the encoding is not 0, 1, 2 or 4 |
| Legacy.LoadArray | src/btf.rs:620-627 | An array decodes exactly when 12 extra bytes are present, as element type, index type and count in that order |
| Legacy.LoadComposite | src/btf.rs:629-661 | A struct or union carries its size word and vlen members split by the flag bit, in order, and its length is 12 plus the members' bytes |
| Legacy.LoadEnum | src/btf.rs:663-680 | An enum carries its size word and vlen values, in order |
| Legacy.LoadFuncProto | src/btf.rs:682-698 | A prototype carries its result type and vlen parameters, in order |
| Legacy.LoadVar | src/btf.rs:700-713 | A decoded variable has linkage 0 or 1; once word and name are read, a linkage above 1 is the error naming it |
| Legacy.LoadDatasec | src/btf.rs:715-733 | A datasec carries its size word and vlen variables, in order |
| Legacy.StylesAgree | src/lib.rs:562-597 | src/btf.rs and src/lib.rs decode every record alike and fail alike, except that the kind of a forward declaration is swapped |
| Legacy.LoadTypeAdvances | src/btf.rs:524-536 | Every decoded record consumes at least 12 bytes and no more than it is given |
| Legacy.Load | src/btf.rs:492-539 | Data shorter than a header is a truncation error at 0; a header with the wrong magic or version fails with that error; past a checked header the load is exactly the load of the sections cut 24 bytes + offset in |
| Legacy.LoadSections | src/btf.rs:524-536 | A type section out of range is the first error, a string section out of range the second; with both in range, the table is Void followed by whatever the type section decodes to, or that decoding's error |
| Legacy.LoadTypes | src/btf.rs:530-536 | The records cover the type section exactly, none is Void, and each is decoded where the previous one ends; a failure is the error of a record decoded inside the section; the walk succeeds exactly when such a split exists, and then returns it |
| Legacy.LoadLoads | src/btf.rs:492-539 | A well-formed `.BTF` section (header checks, both sections in range, type section splitting into records) loads as Void followed by those records |
| Legacy.LoadOk | src/btf.rs:492-539 | The loader succeeds exactly on a well-formed `.BTF` section, and the records after Void are then its type section's split |
| Legacy.SectionStartIgnoresHdrLen | src/btf.rs:527-530 | The earlier loaders find the type section where src/types.rs does exactly when `hdr_len` is 24; with a longer header they start inside it |
| Legacy.SectionReadsHeaderPadding | src/btf.rs:527-530 | With a header longer than 24 bytes and a small type offset, the earlier loaders' type section starts with header bytes |
| Legacy.FwdFlagBtfRs | src/btf.rs:573-580 | src/btf.rs reads a nameless forward declaration with the flag set as a union |
| Legacy.FwdFlagLibRs | src/lib.rs:573-580 | src/lib.rs reads the same record as a struct |
| Legacy.FwdFlagTypesRs | src/types.rs:1355-1364 | src/types.rs reads the same record as a union, as src/btf.rs does |
| AccessSpec.JoinSplit | src/types.rs:1604 | Joining the pieces of a split on `:` gives the string back |
| AccessSpec.SplitJoin | src/relocator.rs:469-474 | Splitting a join of colon-free pieces gives the pieces back |
| AccessSpec.ParseUsize | src/types.rs:1605 | A piece parses exactly when it is an optional `+` and at least one digit whose value fits in `usize`; the empty piece is the empty-input error |
| AccessSpec.ParseDigits | src/types.rs:1605 | The digit loop succeeds exactly on all-digit strings whose value fits in `usize`, and returns that value |
| AccessSpec.DecimalString | src/relocator.rs:471 | The printed form of an index is non-empty, all digits and free of `:` and `+` |
| AccessSpec.DecimalValue | src/relocator.rs:471 | The printed form of an index denotes that index |
| AccessSpec.ParsePrinted | src/relocator.rs:471 | Parsing a printed index gives it back |
| AccessSpec.ParseSpec | src/types.rs:1602-1608 | A spec parses exactly when every `:`-piece does, giving one index per piece in order; otherwise the error is that of the first failing piece; the empty string is an error |
| AccessSpec.SpecToStr | src/relocator.rs:469-474 | The printed form is empty exactly for the empty spec; otherwise it starts with a digit |
| AccessSpec.SpecRoundTrip | src/relocator.rs:469-474 | Parsing the printed form (`spec_to_str`, modelled by `AccessSpec.SpecToStr`) of every non-empty spec gives the spec back |
| NameIndex.New | src/btf_index.rs:14-27 | The built index has exactly the table's names as keys, each mapped to the ids of that name in id order |
| NameIndex.GetByName | src/btf_index.rs:29-34 | A name not in the index gives the empty list |
| NameIndex.GetByNameSpec | src/btf_index.rs:19-34 | Looking up a name gives every id of that name and no other, strictly ascending; a name no type carries gives nothing |
| NameIndex.NamelessShareEmptyBucket | src/btf_index.rs:19-24 | Void and every other kind without a name field are listed under the empty name |
| Relocator.KindsCompatOrder | src/relocator.rs:389-393 | Kind compatibility (`are_kinds_compat`, modelled by `Relocator.KindsCompat`) is reflexive, transitive and antisymmetric; its only pair of distinct kinds is struct to union, so it is not symmetric |
| Relocator.TypeSizeWithin | src/relocator.rs:395-410 | The relocator's size is defined only for an int with offset 0 and whole bytes, an enum, struct, union, array or pointer (after stripping modifiers and typedefs); any other kind is an error, size unknown or divergence |
| Relocator.TypeSizeAgrees | src/relocator.rs:395-410 | Wherever the relocator's size (`Relocator::type_size`, modelled by `Relocator.TypeSize`, which runs `TypeSizeWithin` with enough fuel for any acyclic table) is defined it equals `get_size_of` |
| Relocator.TransformSteps | src/relocator.rs:200-242 | Each later spec entry adds at most one accessor: an array accessor holding that entry, or a field accessor holding that entry as an index of an existing named member; the only errors are a panic and the must-be-struct/union/array error |
| Relocator.TransformAccess | src/relocator.rs:188-244 | An unknown type id or empty spec panics; otherwise the first accessor is an array accessor on the stripped root holding `spec[0]`, there is at most one accessor per spec entry, and every accessor is well formed |
| Relocator.TransformStepsWalk | src/relocator.rs:200-242 | Along a walk through the table that takes every later step (a struct or union member that exists, or an array element), the loop succeeds and outputs, step by step, a field accessor for each named member on the stripped record and an array accessor on the stripped element type for each array step |
| Relocator.TransformStepsStuck | src/relocator.rs:200-242 | A walk that reaches a record where the next step cannot be taken makes the loop fail there: a panic when the member index is out of range of a struct or union, and the must-be-struct/union/array error at that spec position otherwise |
| Relocator.PathExists | src/relocator.rs:200-242 | From any record every spec has a walk that either takes all later steps or stops at the first step it cannot take |
| Relocator.TransformAccessWalk | src/relocator.rs:188-244 | For a known type and a spec that walks through all steps, the accessors are the root array accessor holding `spec[0]` followed by exactly what the walk contributes |
| Relocator.TransformAccessStuck | src/relocator.rs:188-244 | For a known type and a spec whose walk stops early, the error is that of the step where it stops |
| Relocator.TransformAccessOk | src/relocator.rs:188-244 | `transform_access` succeeds exactly when the type id is known, the spec is non-empty and the spec walks from the root through every later step |
| Relocator.CalcOff | src/relocator.rs:246-277 | An unknown type id or empty spec panics; every other error is an offset error; otherwise it succeeds exactly when the root has a relocator size and every later step has an offset term, and the offset is `spec[0]` (truncated to `u32`) times the root size plus every member `bit_offset/8` and every index times element size, modulo 2^32 |
| Relocator.CalcOffFromSum | src/relocator.rs:249-277 | The wrapping loop succeeds exactly when the unbounded offset terms are defined, and then gives their sum modulo 2^32 |
| Relocator.TransformErrImpliesCalcOffErr | src/relocator.rs:246-277 | A spec that `transform_access` rejects is rejected by `calc_off` too |
| Relocator.CalcOffOkImpliesTransformOk | src/relocator.rs:93-95 | Whenever `calc_off` succeeds on a spec, so does `transform_access`, so the relocator never fails in between |
| Relocator.GetCompositeMembers | src/relocator.rs:380-387 | Members are returned exactly when the type, stripped of modifiers only, is a struct or union; they are that record's members |
| Relocator.ScanMembers | src/relocator.rs:339-378 | A found path names a member with the local member's name, starts at or after the current index, reaches it through anonymous struct/union members, and has a compatible kind; `targ_member_spec` is `Relocator.TargMemberSpec`, the scan from index 0 with enough fuel for any acyclic table |
| Relocator.ScanMembersSpec | src/relocator.rs:339-378 | None means no path with that name exists from the index on; a found path is the least in declaration order; the incompatibility error means the least such path ends in an incompatible kind |
| Relocator.PathThroughAnon | src/relocator.rs:364-377 | A member path that does not stop at its first member continues inside that anonymous struct or union |
| Relocator.TargStep | src/relocator.rs:293-333 | An array accessor succeeds exactly on a target array; a field accessor fails when the local or the target is not a struct or union; no step panics |
| Relocator.CalcTargPieces | src/relocator.rs:291-336 | The loop gives one piece per remaining accessor, and its error is that of the first failing step |
| Relocator.CalcTargPiecesFit | src/relocator.rs:291-336 | Each piece fits its accessor, and each piece applies to the target record its predecessor led to |
| Relocator.CalcTargSpec | src/relocator.rs:279-337 | A first field accessor is an error; otherwise the target spec starts with the first index and has at least one entry per accessor; nothing panics |
| Relocator.TargSpecArrayEntries | src/relocator.rs:292-300 | The target spec holds each array accessor's own index, at the position after the entries of the accessors before it |
| Relocate.ScanSpec | src/relocator.rs:115-168 | The candidate loop succeeds exactly when no candidate is fatal and all matches agree on the offset; it then reports the first match and the ids of all matches in order |
| Relocate.HitsMembers | src/relocator.rs:128-155 | An id is among the matched ids exactly when one of its candidate positions matched |
| Relocate.NoHitNoFirst | src/relocator.rs:128-155 | There is no first match exactly when no candidate matched |
| Relocate.CandidateOutcome | src/relocator.rs:119-164 | A candidate matches exactly when its target spec and target offset are both computed, with those values; a failing target spec skips it unless it diverged; what is fatal is an offset error or divergence |
| Relocate.CandidatesNamed | src/relocator.rs:109-114 | Every candidate, cached or looked up, is a target type named like the local type |
| Relocate.Named | src/btf_index.rs:19-34 | The ids the index holds for a name are target types of that name, and every target type of that name is among them |
| Relocate.Targets | src/relocator.rs:110-115 | The candidates are target types named like the local type; with no cache entry, every target type of that name is a candidate |
| Relocate.CandidatesAreTargets | src/relocator.rs:110-115 | The candidates read through the name index equal those computed from the target table and the cache alone |
| Relocate.ResolveFound | src/relocator.rs:149-153 | The reported candidate's spec and offset are the ones computed against the target |
| Relocate.ResolveAgrees | src/relocator.rs:115-168 | After a successful resolution every candidate with a target spec has the reported offset, and the matched ids are exactly those candidates |
| Relocate.ResolveNone | src/relocator.rs:115-168 | The no-candidate error arises exactly when every candidate's target spec fails without diverging |
| Relocate.HitsAreMatching | src/relocator.rs:116-168 | When no candidate is fatal, the matched ids are exactly the candidates whose target spec succeeds, in order, and the first match is the first of them |
| Relocate.ResolveMatching | src/relocator.rs:115-172 | A resolved record reports the first candidate whose target spec succeeds, and its matched ids are all such candidates in candidate order |
| Relocate.RelocateOne | src/relocator.rs:92-183 | A bad type id or empty spec panics; otherwise one record succeeds exactly when `calc_off`, `transform_access` and the candidate loop all succeed, a failure is the error of the first stage that fails, and a success reports the first candidate whose target spec succeeds, is sound, and caches exactly those candidates for the local type |
| Relocate.RelocateRecord | src/relocator.rs:92-183 | The loop body equals the pure one-record relation on the tables and the cache, so the name index used is immaterial; an unknown type or empty spec panics; a result names its section, record, local type and spec, and the cache gains the local type and keeps every other entry |
| Relocate.JobsCover | src/relocator.rs:91-92 | Every record of every section appears in the job list with its section and record index |
| Relocate.CoversRecords | src/relocator.rs:91-92 | Results that follow the numbered records one to one cover every record of every section |
| Relocate.RelocateAll | src/relocator.rs:89-186 | A successful record loop gives one relocation per job, the first being the first job's with the starting cache; a failure needs at least one job |
| Relocate.CacheAfterFails | src/relocator.rs:89-186 | A failed run of the first n jobs fails with the error of some job that fails after every job before it succeeded |
| Relocate.RelocateAllJobByJob | src/relocator.rs:89-186 | The record loop succeeds exactly when every job succeeds with the cache the jobs before it left, its k-th relocation is then the k-th job's, and a failure carries the error of the first failing job |
| Relocate.RelocateAllSound | src/relocator.rs:89-186 | Every relocation of a successful loop comes from its job's record and is sound |
| Relocate.Relocate | src/relocator.rs:79-187 | The method equals the record loop, threading the cache, over every record of every section from an empty cache; a successful run reports one sound relocation per record of every section, in section and record order |
| CDumper.New | src/c_dumper.rs:28-35 | Every type starts not emitted |
| CDumper.EmitType | src/c_dumper.rs:41-124 | No type's state goes down, and the visited type is no longer not emitted |
| CDumper.VisitRules | src/c_dumper.rs:44-65 | A visit to an emitted or forward-declared type, or to the container being emitted, changes nothing; a visit to another type being emitted forward-declares it exactly when it is a struct, union or enum; a first visit ends emitted |
| CDumper.EmitTypeFacts | src/c_dumper.rs:41-124 | Every visit prints each event at most once, each about a type of the right kind, and keeps the trace in agreement with the states |
| CDumper.EmitList | src/c_dumper.rs:74-92 | Visiting a list of ids leaves every one of them visited and lowers no state |
| CDumper.EmitListFacts | src/c_dumper.rs:74-92 | Visits in a row keep the trace and the states in agreement |
| CDumper.DumpType | src/c_dumper.rs:37-39 | Dumping a type lowers no state and leaves the type no longer not emitted |
| CDumper.DumpAll | src/c_dumper.rs:37-39 | Dumping roots on one dumper lowers no state |
| CDumper.DumpAllFacts | src/c_dumper.rs:37-39 | From any dumper state, every definition, declaration and forward declaration is printed at most once and about a type of the right kind, and every root ends visited |
| CDumper.MembersDeclaredFirst | src/c_dumper.rs:80-97 | A struct or union is defined last and only when named; by then every member type that is a named struct, union or enum is defined or forward-declared, unless it is being emitted |
| CDumper.NoSelfDefinition | src/c_dumper.rs:80-97 | A type's own definition is not printed while its members are visited |
| CDumper.DeclChain | src/c_dumper.rs:167-209 | The chain starts at the given id, follows pointer, modifier, array and prototype links, and ends at the first other kind; an abort names a Var, Datasec or Func |
| CDumper.DeclChainComplete | src/c_dumper.rs:167-209 | Any link path from the id to a non-link is what the chain builder finds: the path itself, or an abort at its end |
| CDumper.DeclChainUnique | src/c_dumper.rs:167-209 | Two declarator chains from the same id are equal |
| CDumper.EmitNonPtrMods | src/c_dumper.rs:331-349 | The chain is split into a rest that does not end in Const, Volatile or Restrict and the run of such modifiers popped from its end |
| CDumper.NonPtrModsSplit | src/c_dumper.rs:331-349 | Any split into a part not ending in a modifier and a run of modifiers is the one made: exactly the trailing run is popped, the rest untouched |
| CDumper.Sep | src/c_dumper.rs:370-376 | The separator is empty exactly for an empty name and otherwise one space |
| CDumper.PfxIsTabs | src/c_dumper.rs:378-384 | The prefix of level l (`pfx`, modelled by `CDumper.Pfx`) is min(l, 12) tabs |

## Left out

- I/O: ELF section lookup, `pread_with` from the `scroll` crate and the command line of src/main.rs. The loaders take the bytes of the `.BTF` section, the byte order and the ELF class as parameters.
- The `.BTF.ext` section: func info, line info and CO-RE relocation records, and their header. `relocate` reads its records through `field_reloc_secs` and `BtfExtFieldReloc`, which src/types.rs does not define. The model therefore takes the relocation sections as lists of (type id, access spec) records.
- All `Display` text, the `print!` output of the dumper and the relocator's verbose tracing. The dumper's output is a trace of events (forward declaration, definition, declaration); the rendering in `emit_type_chain`, `emit_name`, `emit_struct_def`, `emit_union_def` and `emit_enum_def` is not modelled.
- `pretty_print_access_spec`: it only formats.
- UTF-8 validation of names (`CStr::to_str`): names are byte strings. A string with no NUL before the end of the table is reported as an error; the program would read past the table.
- Float values and the meaning of float types: only the size field is read.
- Debug-build overflow panics: every `u32` sum and product is modelled with release-build wrap-around. `Relocate.RelocateRecord` keeps the `u32` offsets as computed; the `as usize` conversion in the result is exact.
- NameIndex.New: ids are unbounded naturals; `i as u32` cannot wrap for a table that fits in memory.
- AccessSpec.ParseUsize: `usize` is fixed at 64 bits (`USIZE_MAX` is 2^64 - 1); on a 32-bit target `from_str` overflows above 2^32 - 1.
- Types.SkipMods: the source loops forever on a cyclic modifier chain. The model requires every modifier and typedef chain to end within the table's length (`Types.Valid`); `get_size_of` and `get_align_of` likewise require the recursion to end (`SizeDefined`, `AlignDefined`).
- Types.Valid: every type id a record refers to is required to exist (`RefsInRange`), instead of modelling the panic of `type_by_id` on a dangling id; no loader checks for such ids, and every query and relocator member requires `Valid` (the dumper requires the same of its table through `CDumper.Linked`).
- Relocator.TypeSizeWithin: array nesting is bounded by fuel; exhausting it is reported as `Diverges`, which `relocate` treats as fatal. The source would recurse without end on a cyclic table. `targ_member_spec` descends into anonymous members under the same kind of fuel.
- CDumper.DeclChain: the links followed are bounded by fuel; the source loops forever on a cyclic chain.
- CDumper.EmitType: `emit_type` never returns an error in the source, so the model returns only the new states and the trace. The tables it reads are required to be linked (every referenced id exists) instead of modelling the index panic.
- CDumper.DumpAll: the dumper's users call `dump_type` on ids in turn; `DumpAll` is that sequence on one dumper.
- Relocate.Relocate: an error reports its cause, not which record it came from.

## Findings

| source | as written | input that shows it | evidently intended | confidence | as-written member | corrected member |
|---|---|---|---|---|---|---|
| src/types.rs:1344 | `i64::from(lo) + i64::from(hi) << 32` parses as `(lo + hi) << 32` | halves lo = 1, hi = 0 (enumerator value 1) give 2^32 | `lo \| hi << 32` read as `i64` | not executed | Wire.Enum64AsWrittenDiffers | Wire.Enum64RoundTrip |
| src/lib.rs:573-580 | a forward declaration with the kind flag set is read as a struct | a nameless Fwd record with info word 0x8700_0000 loads as struct in src/lib.rs and as union in src/btf.rs and src/types.rs | flag set means union, as in src/btf.rs and src/types.rs | not executed | Legacy.FwdFlagLibRs | Legacy.FwdFlagBtfRs |
| src/btf.rs:527-530 | sections are located at `size_of::<btf_header>()` + offset, ignoring `hdr_len` | a 32-byte header with type offset 0: the type section is read from byte 24, inside the header | sections start at `hdr_len` + offset, as in src/types.rs | not executed | Legacy.SectionReadsHeaderPadding | TypesLoader.SectionsFollowHeader |

=== FILE: access_spec.dfy ===
/**
 * The textual form of a CO-RE access spec: `usize` indices joined by `:`
 * (`0:1:2`). Printing is `spec_to_str` in src/relocator.rs; parsing is
 * `parse_reloc_access_spec` in src/types.rs, which splits on `:` and parses
 * every piece with Rust's `usize::from_str`.
 */
module AccessSpec {
  import opened Wrappers
  import opened Words

  /** Why `usize::from_str` rejects a string (`IntErrorKind`). */
  datatype ParseError = Empty | InvalidDigit | PosOverflow

  const USIZE_MAX: nat := TWO_64 - 1

  // ---------------------------------------------------------------------------
  // Splitting and joining on a separator
  // ---------------------------------------------------------------------------

  /** `str::split(c)`: the pieces between separators, empty ones included; never no piece. */
  function Split(s: string, c: char): (r: seq<string>)
    ensures |r| >= 1
    ensures forall k | 0 <= k < |r| :: c !in r[k]
    decreases |s|
  {
    if |s| == 0 then [[]]
    else if s[0] == c then [[]] + Split(s[1..], c)
    else
      var rest := Split(s[1..], c);
      [[s[0]] + rest[0]] + rest[1..]
  }

  /** `join(c)` over a non-empty list of pieces. */
  function Join(ps: seq<string>, c: char): string
    requires |ps| >= 1
    decreases |ps|
  {
    if |ps| == 1 then ps[0] else ps[0] + [c] + Join(ps[1..], c)
  }

  /** Joining the pieces of a split gives the string back. */
  lemma {:induction false} JoinSplit(s: string, c: char)
    ensures Join(Split(s, c), c) == s
    decreases |s|
  {
    if |s| > 0 {
      JoinSplit(s[1..], c);
      var rest := Split(s[1..], c);
      if s[0] == c {
        assert Split(s, c)[1..] == rest;
        assert s == [c] + s[1..];
      } else {
        var r := Split(s, c);
        if |rest| == 1 {
          assert r == [[s[0]] + rest[0]];
          assert s == [s[0]] + s[1..];
        } else {
          assert r[1..] == rest[1..];
          assert Join(rest, c) == rest[0] + [c] + Join(rest[1..], c);
          assert s == [s[0]] + s[1..];
        }
      }
    }
  }

  /** A character other than the separator joins the first piece of what follows it. */
  lemma SplitCons(x: char, s: string, c: char)
    requires x != c
    ensures Split([x] + s, c) == [[x] + Split(s, c)[0]] + Split(s, c)[1..]
  {
    assert ([x] + s)[1..] == s;
  }

  /** A separator-free prefix stays glued to the first piece of what follows it. */
  lemma {:induction false} SplitPrefix(p: string, tail: string, c: char)
    requires c !in p
    ensures Split(p + tail, c) == [p + Split(tail, c)[0]] + Split(tail, c)[1..]
    decreases |p|
  {
    var sp := Split(tail, c);
    if |p| > 0 {
      var q := p[1..];
      SplitPrefix(q, tail, c);
      var r := Split(q + tail, c);
      assert r[0] == q + sp[0] && r[1..] == sp[1..];
      assert p + tail == [p[0]] + (q + tail);
      SplitCons(p[0], q + tail, c);
      assert [p[0]] + (q + sp[0]) == p + sp[0];
    } else {
      assert p + tail == tail && p + sp[0] == sp[0];
      assert sp == [sp[0]] + sp[1..];
    }
  }

  /** Splitting a join of separator-free pieces gives the pieces back. */
  lemma {:induction false} SplitJoin(ps: seq<string>, c: char)
    requires |ps| >= 1
    requires forall k | 0 <= k < |ps| :: c !in ps[k]
    ensures Split(Join(ps, c), c) == ps
    decreases |ps|
  {
    if |ps| == 1 {
      SplitPrefix(ps[0], [], c);
      assert ps[0] + [] == ps[0];
    } else {
      SplitJoin(ps[1..], c);
      var tail := [c] + Join(ps[1..], c);
      assert ps[0] + [c] + Join(ps[1..], c) == ps[0] + tail;
      SplitPrefix(ps[0], tail, c);
      assert tail[1..] == Join(ps[1..], c);
      assert Split(tail, c) == [[]] + ps[1..];
      assert ps[0] + [] == ps[0];
      assert ps == [ps[0]] + ps[1..];
    }
  }

  // ---------------------------------------------------------------------------
  // Decimal numbers
  // ---------------------------------------------------------------------------

  predicate IsDigit(ch: char) {
    '0' <= ch <= '9'
  }

  function DigitValue(ch: char): nat
    requires IsDigit(ch)
  {
    (ch - '0') as nat
  }

  function DigitChar(d: nat): (ch: char)
    requires d < 10
    ensures IsDigit(ch) && DigitValue(ch) == d
  {
    '0' + d as char
  }

  predicate AllDigits(s: string) {
    forall k | 0 <= k < |s| :: IsDigit(s[k])
  }

  /** The number a string of decimal digits denotes. */
  function Value(s: string): nat
    requires AllDigits(s)
    decreases |s|
  {
    if |s| == 0 then 0 else 10 * Value(s[..|s| - 1]) + DigitValue(s[|s| - 1])
  }

  /**
   * The digit loop of `from_str_radix`: digits left to right, the first
   * non-digit or the first step past `usize::MAX` decides the error.
   */
  function ParseDigits(s: string): (r: Result<nat, ParseError>)
    ensures r.Ok? <==> AllDigits(s) && Value(s) <= USIZE_MAX
    ensures r.Ok? ==> r.value == Value(s)
    ensures r.Err? ==> r.error != Empty
    decreases |s|
  {
    if |s| == 0 then Ok(0)
    else
      var init := s[..|s| - 1];
      var last := s[|s| - 1];
      match ParseDigits(init)
      case Err(err) =>
        assert !AllDigits(s) || Value(s) > USIZE_MAX by {
          if AllDigits(s) {
            assert AllDigits(init) by {
              forall k | 0 <= k < |init| ensures IsDigit(init[k]) { assert init[k] == s[k]; }
            }
          }
        }
        Err(err)
      case Ok(v) =>
        assert AllDigits(init) by {
          forall k | 0 <= k < |init| ensures IsDigit(init[k]) { assert init[k] == s[k]; }
        }
        if !IsDigit(last) then Err(InvalidDigit)
        else if 10 * v + DigitValue(last) > USIZE_MAX then Err(PosOverflow)
        else Ok(10 * v + DigitValue(last))
  }

  /** `usize::from_str`: an optional leading `+`, then at least one digit. */
  function ParseUsize(s: string): (r: Result<usize, ParseError>)
    ensures r.Ok? <==> (|s| > 0 && var ds := if s[0] == '+' then s[1..] else s;
                        |ds| > 0 && AllDigits(ds) && Value(ds) <= USIZE_MAX)
    ensures |s| == 0 <==> r == Err(Empty)
  {
    if |s| == 0 then Err(Empty)
    else
      var ds := if s[0] == '+' then s[1..] else s;
      if |ds| == 0 then Err(InvalidDigit)
      else
        match ParseDigits(ds)
        case Err(err) => Err(err)
        case Ok(v) => Ok(v)
  }

  /** `usize::to_string`: the shortest decimal form, no sign. */
  function DecimalString(n: nat): (s: string)
    ensures |s| >= 1 && AllDigits(s) && ':' !in s && '+' !in s
    decreases n
  {
    if n < 10 then [DigitChar(n)] else DecimalString(n / 10) + [DigitChar(n % 10)]
  }

  /** The decimal form denotes the number. */
  lemma {:induction false} DecimalValue(n: nat)
    ensures Value(DecimalString(n)) == n
    decreases n
  {
    var s := DecimalString(n);
    if n < 10 {
      assert s[..0] == [];
    } else {
      DecimalValue(n / 10);
      assert s[..|s| - 1] == DecimalString(n / 10);
    }
  }

  /** Parsing a printed index gives it back. */
  lemma ParsePrinted(n: usize)
    ensures ParseUsize(DecimalString(n)) == Ok(n)
  {
    DecimalValue(n);
  }

  // ---------------------------------------------------------------------------
  // Access specs
  // ---------------------------------------------------------------------------

  /** The result of parsing each piece, in order. */
  function ParsePieces(ps: seq<string>): (r: seq<Result<usize, ParseError>>)
    ensures |r| == |ps| && forall k | 0 <= k < |ps| :: r[k] == ParseUsize(ps[k])
  {
    seq(|ps|, k requires 0 <= k < |ps| => ParseUsize(ps[k]))
  }

  /** Every piece parses exactly when every parsed piece is a success. */
  lemma PiecesOk(ps: seq<string>)
    ensures (forall k | 0 <= k < |ps| :: ParsePieces(ps)[k].Ok?) <==> forall k | 0 <= k < |ps| :: ParseUsize(ps[k]).Ok?
  {
    var rs := ParsePieces(ps);
    assert forall k | 0 <= k < |ps| :: rs[k] == ParseUsize(ps[k]);
  }

  /** The pieces of a string all parse exactly when their collected result is a success. */
  lemma PiecesOkSplit(str: string)
    ensures Collect(ParsePieces(Split(str, ':'))).Ok? <==>
      forall k | 0 <= k < |Split(str, ':')| :: ParseUsize(Split(str, ':')[k]).Ok?
  {
    var ps := Split(str, ':');
    CollectSpec(ParsePieces(ps));
    PiecesOk(ps);
  }

  /**
   * `parse_reloc_access_spec`: split on `:` and parse each piece; the first
   * piece that fails decides the error. An empty string is one empty piece,
   * so it is an error.
   */
  function ParseSpec(str: string): (r: Result<seq<usize>, ParseError>)
    ensures r.Ok? ==> |r.value| == |Split(str, ':')| >= 1
    ensures r.Ok? <==> forall k | 0 <= k < |Split(str, ':')| :: ParseUsize(Split(str, ':')[k]).Ok?
    ensures r.Ok? ==> forall k | 0 <= k < |r.value| :: ParseUsize(Split(str, ':')[k]) == Ok(r.value[k])
    ensures r.Err? ==> exists k | 0 <= k < |Split(str, ':')| ::
      (forall j | 0 <= j < k :: ParseUsize(Split(str, ':')[j]).Ok?) && ParseUsize(Split(str, ':')[k]) == Err(r.error)
    ensures str == [] ==> r == Err(Empty)
  {
    var ps := Split(str, ':');
    var rs := ParsePieces(ps);
    CollectSpec(rs);
    PiecesOk(ps);
    PiecesOkSplit(str);
    Collect(rs)
  }

  /** `spec_to_str`: the indices in decimal, joined by `:`; the empty spec prints as the empty string. */
  function SpecToStr(spec: seq<usize>): (s: string)
    ensures s == [] <==> spec == []
    ensures spec != [] ==> IsDigit(s[0])
  {
    if |spec| == 0 then []
    else
      var ps := seq(|spec|, k requires 0 <= k < |spec| => DecimalString(spec[k]));
      assert |ps[0]| >= 1 && IsDigit(ps[0][0]);
      Join(ps, ':')
  }

  /** Printing a non-empty spec and parsing the text gives the spec back. */
  lemma SpecRoundTrip(spec: seq<usize>)
    requires |spec| >= 1
    ensures ParseSpec(SpecToStr(spec)) == Ok(spec)
  {
    var ps := seq(|spec|, k requires 0 <= k < |spec| => DecimalString(spec[k]));
    SplitJoin(ps, ':');
    forall k | 0 <= k < |spec|
      ensures ParseUsize(ps[k]) == Ok(spec[k])
    {
      ParsePrinted(spec[k]);
    }
    var r := ParseSpec(SpecToStr(spec));
    assert r.Ok?;
    assert r.value == spec;
  }
}

=== FILE: c_dumper.dfy ===
/**
 * The C dumper of src/c_dumper.rs, over the type table of the earlier loader
 * (src/btf.rs). Printed text is abstracted to a trace of events: a forward
 * declaration, a full definition, or a declaration line (fwd, typedef or
 * function). What is modelled is the order in which these are emitted, which
 * the per-type `EmitState` machine decides, and the declarator chain that a
 * declaration line is rendered from.
 */
module CDumper {
  import opened Wrappers
  import opened Records
  import opened Legacy

  // ---------------------------------------------------------------------------
  // Emission state and output trace
  // ---------------------------------------------------------------------------

  datatype EmitState = NotEmitted | Emitting | FwdEmitted | Emitted

  /** The order in which a type's state can advance; no transition goes down. */
  function Rank(s: EmitState): nat {
    match s
    case NotEmitted => 0
    case Emitting => 1
    case FwdEmitted => 2
    case Emitted => 3
  }

  /** What the dumper prints, without the text. */
  datatype Event =
    | FwdDecl(id: nat)                    // `struct X;`, `union X;` or `enum X;`
    | Definition(id: nat)                 // the body of a named struct, union or enum
    | Declaration(id: nat, declared: nat) // a fwd, typedef or function line: `declared`'s declarator

  datatype Out = Out(state: seq<EmitState>, trace: seq<Event>)

  /** Only struct, union and enum can be forward-declared. */
  predicate Forwardable(t: LegacyType) {
    t.Struct? || t.Union? || t.Enum?
  }

  /** The kinds that get a definition of their own: named structs, unions and enums. */
  predicate Definable(t: LegacyType) {
    Forwardable(t) && t.name != []
  }

  /**
   * The ids `emit_type` visits from a type being emitted, in visiting order:
   * the pointee, the element, the result and then the parameters, the members,
   * the aliased type or the prototype.
   */
  function Deps(t: LegacyType): seq<nat> {
    match t
    case Ptr(x) => [x]
    case Volatile(x) => [x]
    case Const(x) => [x]
    case Restrict(x) => [x]
    case Array(_, _, v) => [v]
    case FuncProto(res, ps) => [res as nat] + seq(|ps|, k requires 0 <= k < |ps| => ps[k].typeId as nat)
    case Struct(_, _, ms) => seq(|ms|, k requires 0 <= k < |ms| => ms[k].typeId as nat)
    case Union(_, _, ms) => seq(|ms|, k requires 0 <= k < |ms| => ms[k].typeId as nat)
    case Typedef(_, x) => [x]
    case Func(_, p) => [p]
    case _ => []
  }

  /** Every id the dumper follows from a type names a type of the table (`type_by_id` panics otherwise). */
  predicate Linked(types: seq<LegacyType>) {
    forall i | 0 <= i < |types| :: forall j | j in Deps(types[i]) :: j < |types|
  }

  /** The ids followed from a type of a linked table are ids of the table. */
  lemma DepsInRange(types: seq<LegacyType>, id: nat)
    requires Linked(types) && id < |types|
    ensures forall k | 0 <= k < |Deps(types[id])| :: Deps(types[id])[k] < |types|
  {
    forall k | 0 <= k < |Deps(types[id])| ensures Deps(types[id])[k] < |types| {
      assert Deps(types[id])[k] in Deps(types[id]);
    }
  }

  /** What a type prints after its dependencies, once it is first emitted. */
  function Closing(id: nat, t: LegacyType): seq<Event> {
    if Definable(t) then [Definition(id)]
    else if t.Fwd? then [Declaration(id, id)]
    else if t.Typedef? then [Declaration(id, t.typeId)]
    else if t.Func? then [Declaration(id, t.protoTypeId)]
    else []
  }

  /** The ids still in state `NotEmitted`; its size is the termination measure. */
  function NotEmittedSet(st: seq<EmitState>): set<nat> {
    set j | 0 <= j < |st| && st[j] == NotEmitted
  }

  /** No id's state went down from `st` to `st2`. */
  predicate Advanced(st: seq<EmitState>, st2: seq<EmitState>) {
    |st2| == |st| && forall j | 0 <= j < |st| :: Rank(st[j]) <= Rank(st2[j])
  }

  /** States that never go down never add to the ids left to emit. */
  lemma AdvancedShrinks(st: seq<EmitState>, st2: seq<EmitState>)
    requires Advanced(st, st2)
    ensures NotEmittedSet(st2) <= NotEmittedSet(st)
  {
    forall j | j in NotEmittedSet(st2) ensures j in NotEmittedSet(st) {
      assert Rank(st[j]) <= Rank(st2[j]) == 0;
    }
  }

  /** Marking a not-yet-emitted id as in progress leaves strictly fewer ids to emit. */
  lemma MarkShrinks(st: seq<EmitState>, id: nat)
    requires id < |st| && st[id] == NotEmitted
    ensures NotEmittedSet(st[id := Emitting]) < NotEmittedSet(st)
  {
    assert Advanced(st, st[id := Emitting]);
    AdvancedShrinks(st, st[id := Emitting]);
    assert id in NotEmittedSet(st) && id !in NotEmittedSet(st[id := Emitting]);
  }

  /** `CDumper::new`: every type starts as not emitted. */
  function New(types: seq<LegacyType>): (r: seq<EmitState>)
    ensures |r| == |types| && forall j | 0 <= j < |r| :: r[j] == NotEmitted
  {
    seq(|types|, j => NotEmitted)
  }

  // ---------------------------------------------------------------------------
  // emit_type
  // ---------------------------------------------------------------------------

  /**
   * `emit_type(id, container_id)`. Every path of the source returns `Ok`, so
   * the model returns the new states and the events printed.
   */
  function EmitType(types: seq<LegacyType>, st: seq<EmitState>, id: nat, container: nat): (r: Out)
    requires Linked(types) && |st| == |types| && id < |types|
    ensures Advanced(st, r.state)
    ensures r.state[id] != NotEmitted
    decreases NotEmittedSet(st), 0, 0
  {
    match st[id]
    case Emitted => Out(st, [])
    case FwdEmitted => Out(st, [])
    case Emitting =>
      if id == container then Out(st, [])
      else if Forwardable(types[id]) then Out(st[id := FwdEmitted], [FwdDecl(id)])
      else Out(st, [])
    case NotEmitted =>
      var t := types[id];
      var st1 := st[id := Emitting];
      MarkShrinks(st, id);
      DepsInRange(types, id);
      var o := EmitList(types, st1, Deps(t), if t.Struct? || t.Union? then id else container);
      Out(o.state[id := Emitted], o.trace + Closing(id, t))
  }

  /** `emit_type` on each id in turn with the same container, stopping at nothing (no call fails). */
  function EmitList(types: seq<LegacyType>, st: seq<EmitState>, ids: seq<nat>, container: nat): (r: Out)
    requires Linked(types) && |st| == |types|
    requires forall k | 0 <= k < |ids| :: ids[k] < |types|
    ensures Advanced(st, r.state)
    ensures forall k | 0 <= k < |ids| :: r.state[ids[k]] != NotEmitted
    decreases NotEmittedSet(st), 1, |ids|
  {
    if |ids| == 0 then Out(st, [])
    else
      var o1 := EmitType(types, st, ids[0], container);
      AdvancedShrinks(st, o1.state);
      var o2 := EmitList(types, o1.state, ids[1..], container);
      assert forall k | 1 <= k < |ids| :: ids[k] == ids[1..][k - 1];
      Out(o2.state, o1.trace + o2.trace)
  }

  /** `dump_type(id)`: emit the type as its own container. */
  function DumpType(types: seq<LegacyType>, st: seq<EmitState>, id: nat): (r: Out)
    requires Linked(types) && |st| == |types| && id < |types|
    ensures Advanced(st, r.state) && r.state[id] != NotEmitted
  {
    EmitType(types, st, id, id)
  }

  /** `dump_type` on each root in turn, on one dumper. */
  function DumpAll(types: seq<LegacyType>, st: seq<EmitState>, roots: seq<nat>): (r: Out)
    requires Linked(types) && |st| == |types|
    requires forall k | 0 <= k < |roots| :: roots[k] < |types|
    ensures Advanced(st, r.state)
    decreases |roots|
  {
    if |roots| == 0 then Out(st, [])
    else
      var o1 := DumpType(types, st, roots[0]);
      var o2 := DumpAll(types, o1.state, roots[1..]);
      Out(o2.state, o1.trace + o2.trace)
  }

  // ---------------------------------------------------------------------------
  // The transitions of one visit
  // ---------------------------------------------------------------------------

  /**
   * A visit to a type already emitted or forward-declared, or to the container
   * being emitted, prints nothing and changes nothing; a visit to any other type
   * in progress forward-declares it when it is a struct, union or enum, and is
   * otherwise a no-op; a first visit leaves the type emitted.
   */
  lemma VisitRules(types: seq<LegacyType>, st: seq<EmitState>, id: nat, container: nat)
    requires Linked(types) && |st| == |types| && id < |types|
    ensures var r := EmitType(types, st, id, container);
      && (st[id] == Emitted || st[id] == FwdEmitted ==> r == Out(st, []))
      && (st[id] == Emitting && id == container ==> r == Out(st, []))
      && (st[id] == Emitting && id != container && Forwardable(types[id]) ==>
            r == Out(st[id := FwdEmitted], [FwdDecl(id)]))
      && (st[id] == Emitting && id != container && !Forwardable(types[id]) ==> r == Out(st, []))
      && (st[id] == NotEmitted ==> r.state[id] == Emitted)
  {
  }

  // ---------------------------------------------------------------------------
  // What a trace says about the states
  // ---------------------------------------------------------------------------

  /** An event printed by a call that went from states `st` to `st2`, and the type it is about. */
  predicate EventFact(types: seq<LegacyType>, st: seq<EmitState>, st2: seq<EmitState>, e: Event)
    requires |st| == |types| && |st2| == |types|
  {
    e.id < |types| &&
    match e
    case FwdDecl(j) => Forwardable(types[j]) && Rank(st[j]) <= 1 && Rank(st2[j]) >= 2
    case Definition(j) => Definable(types[j]) && st[j] == NotEmitted && st2[j] == Emitted
    case Declaration(j, _) => Closing(j, types[j]) == [e] && st[j] == NotEmitted && st2[j] == Emitted
  }

  predicate NoDuplicates(trace: seq<Event>) {
    forall a, b | 0 <= a < b < |trace| :: trace[a] != trace[b]
  }

  /**
   * The trace and the states agree: no event is printed twice; every event is
   * about a type that changed state accordingly; a type that became emitted
   * printed its closing event and one that became forward-declared printed its
   * forward declaration; only a first visit ends in `Emitted`, and a first
   * visit always does.
   */
  predicate TraceFacts(types: seq<LegacyType>, st: seq<EmitState>, r: Out)
    requires |st| == |types| && |r.state| == |types|
  {
    && NoDuplicates(r.trace)
    && EventsAgree(types, st, r)
    && ClosedPrinted(types, st, r)
    && FwdPrinted(st, r)
    && (forall j | 0 <= j < |st| && r.state[j] == Emitted :: st[j] == Emitted || st[j] == NotEmitted)
    && (forall j | 0 <= j < |st| && st[j] == NotEmitted :: r.state[j] == NotEmitted || r.state[j] == Emitted)
  }

  predicate EventsAgree(types: seq<LegacyType>, st: seq<EmitState>, r: Out)
    requires |st| == |types| && |r.state| == |types|
  {
    forall k | 0 <= k < |r.trace| :: EventFact(types, st, r.state, r.trace[k])
  }

  predicate ClosedPrinted(types: seq<LegacyType>, st: seq<EmitState>, r: Out)
    requires |st| == |types| && |r.state| == |types|
  {
    forall j | 0 <= j < |st| && st[j] == NotEmitted && r.state[j] == Emitted ::
      Closing(j, types[j]) == [] || Closing(j, types[j])[0] in r.trace
  }

  predicate FwdPrinted(st: seq<EmitState>, r: Out)
    requires |r.state| == |st|
  {
    forall j | 0 <= j < |st| && Rank(st[j]) <= 1 && r.state[j] == FwdEmitted :: FwdDecl(j) in r.trace
  }

  /** Facts of two calls in a row give the facts of both together. */
  lemma ComposeFacts(types: seq<LegacyType>, st: seq<EmitState>, o1: Out, o2: Out)
    requires |st| == |types| && Advanced(st, o1.state) && Advanced(o1.state, o2.state)
    requires TraceFacts(types, st, o1) && TraceFacts(types, o1.state, o2)
    ensures TraceFacts(types, st, Out(o2.state, o1.trace + o2.trace))
  {
    ComposeEvents(types, st, o1, o2);
    ComposeUnique(types, st, o1, o2);
    ComposeClosed(types, st, o1, o2);
    ComposeFwd(types, st, o1, o2);
  }

  lemma ComposeEvents(types: seq<LegacyType>, st: seq<EmitState>, o1: Out, o2: Out)
    requires |st| == |types| && Advanced(st, o1.state) && Advanced(o1.state, o2.state)
    requires EventsAgree(types, st, o1) && EventsAgree(types, o1.state, o2)
    ensures EventsAgree(types, st, Out(o2.state, o1.trace + o2.trace))
  {
    var r := Out(o2.state, o1.trace + o2.trace);
    forall k | 0 <= k < |r.trace| ensures EventFact(types, st, r.state, r.trace[k]) {
      if k < |o1.trace| {
        assert r.trace[k] == o1.trace[k];
        assert EventFact(types, st, o1.state, o1.trace[k]);
      } else {
        assert r.trace[k] == o2.trace[k - |o1.trace|];
        assert EventFact(types, o1.state, o2.state, o2.trace[k - |o1.trace|]);
      }
    }
  }

  lemma ComposeUnique(types: seq<LegacyType>, st: seq<EmitState>, o1: Out, o2: Out)
    requires |st| == |types| && Advanced(st, o1.state) && Advanced(o1.state, o2.state)
    requires EventsAgree(types, st, o1) && EventsAgree(types, o1.state, o2)
    requires NoDuplicates(o1.trace) && NoDuplicates(o2.trace)
    ensures NoDuplicates(o1.trace + o2.trace)
  {
    var t := o1.trace + o2.trace;
    forall a, b | 0 <= a < b < |t| ensures t[a] != t[b] {
      if b < |o1.trace| {
        assert t[a] == o1.trace[a] && t[b] == o1.trace[b];
      } else if a >= |o1.trace| {
        assert t[a] == o2.trace[a - |o1.trace|] && t[b] == o2.trace[b - |o1.trace|];
      } else {
        var e1, e2 := o1.trace[a], o2.trace[b - |o1.trace|];
        assert t[a] == e1 && t[b] == e2;
        assert EventFact(types, st, o1.state, e1) && EventFact(types, o1.state, o2.state, e2);
      }
    }
  }

  lemma ComposeClosed(types: seq<LegacyType>, st: seq<EmitState>, o1: Out, o2: Out)
    requires |st| == |types| && Advanced(st, o1.state) && Advanced(o1.state, o2.state)
    requires TraceFacts(types, st, o1) && TraceFacts(types, o1.state, o2)
    ensures ClosedPrinted(types, st, Out(o2.state, o1.trace + o2.trace))
  {
    var r := Out(o2.state, o1.trace + o2.trace);
    forall j | 0 <= j < |st| && st[j] == NotEmitted && r.state[j] == Emitted
      ensures Closing(j, types[j]) == [] || Closing(j, types[j])[0] in r.trace
    {
      if o1.state[j] == NotEmitted {
        assert Closing(j, types[j]) == [] || Closing(j, types[j])[0] in o2.trace;
      } else {
        assert o1.state[j] == Emitted;
        assert Closing(j, types[j]) == [] || Closing(j, types[j])[0] in o1.trace;
      }
    }
  }

  lemma ComposeFwd(types: seq<LegacyType>, st: seq<EmitState>, o1: Out, o2: Out)
    requires |st| == |types| && Advanced(st, o1.state) && Advanced(o1.state, o2.state)
    requires TraceFacts(types, st, o1) && TraceFacts(types, o1.state, o2)
    ensures FwdPrinted(st, Out(o2.state, o1.trace + o2.trace))
  {
    var r := Out(o2.state, o1.trace + o2.trace);
    forall j | 0 <= j < |st| && Rank(st[j]) <= 1 && r.state[j] == FwdEmitted
      ensures FwdDecl(j) in r.trace
    {
      if Rank(o1.state[j]) <= 1 {
        assert FwdDecl(j) in o2.trace;
      } else {
        assert o1.state[j] == FwdEmitted;
        assert FwdDecl(j) in o1.trace;
      }
    }
  }

  /** A closing event is about the type closed, and is a definition only of a definable type. */
  lemma ClosingShape(id: nat, t: LegacyType)
    ensures ClosingOk(id, t, Closing(id, t))
  {
  }

  predicate ClosingOk(id: nat, t: LegacyType, c: seq<Event>) {
    |c| <= 1
    && (|c| == 1 ==> c[0].id == id && !c[0].FwdDecl?)
    && (|c| == 1 && c[0].Definition? ==> Definable(t))
  }

  /** Closing a first visit keeps the facts of its dependencies' visits. */
  lemma CloseFacts(types: seq<LegacyType>, st: seq<EmitState>, id: nat, o: Out)
    requires |st| == |types| && id < |types| && st[id] == NotEmitted
    requires Advanced(st[id := Emitting], o.state)
    requires TraceFacts(types, st[id := Emitting], o)
    ensures TraceFacts(types, st, Out(o.state[id := Emitted], o.trace + Closing(id, types[id])))
  {
    var c := Closing(id, types[id]);
    ClosingShape(id, types[id]);
    var r := Out(o.state[id := Emitted], o.trace + c);
    CloseEvents(types, st, id, o, c);
    CloseUnique(types, st, id, o, c);
    CloseClosed(types, st, id, o, c);
    CloseFwd(types, st, id, o, c);
  }

  lemma CloseEvents(types: seq<LegacyType>, st: seq<EmitState>, id: nat, o: Out, c: seq<Event>)
    requires |st| == |types| && id < |types| && st[id] == NotEmitted
    requires Advanced(st[id := Emitting], o.state)
    requires EventsAgree(types, st[id := Emitting], o)
    requires c == Closing(id, types[id]) && ClosingOk(id, types[id], c)
    ensures EventsAgree(types, st, Out(o.state[id := Emitted], o.trace + c))
  {
    var st1 := st[id := Emitting];
    var r := Out(o.state[id := Emitted], o.trace + c);
    forall k | 0 <= k < |r.trace| ensures EventFact(types, st, r.state, r.trace[k]) {
      if k < |o.trace| {
        var e := o.trace[k];
        assert r.trace[k] == e;
        assert EventFact(types, st1, o.state, e);
        if e.id != id {
          assert st1[e.id] == st[e.id] && r.state[e.id] == o.state[e.id];
        }
      } else {
        assert r.trace[k] == c[0];
      }
    }
  }

  lemma CloseUnique(types: seq<LegacyType>, st: seq<EmitState>, id: nat, o: Out, c: seq<Event>)
    requires |st| == |types| && id < |types| && st[id] == NotEmitted
    requires |o.state| == |types|
    requires EventsAgree(types, st[id := Emitting], o) && NoDuplicates(o.trace)
    requires ClosingOk(id, types[id], c)
    ensures NoDuplicates(o.trace + c)
  {
    var t := o.trace + c;
    forall a, b | 0 <= a < b < |t| ensures t[a] != t[b] {
      if b < |o.trace| {
        assert t[a] == o.trace[a] && t[b] == o.trace[b];
      } else {
        assert t[a] == o.trace[a] && t[b] == c[0];
        assert EventFact(types, st[id := Emitting], o.state, o.trace[a]);
      }
    }
  }

  lemma CloseClosed(types: seq<LegacyType>, st: seq<EmitState>, id: nat, o: Out, c: seq<Event>)
    requires |st| == |types| && id < |types| && st[id] == NotEmitted
    requires Advanced(st[id := Emitting], o.state)
    requires TraceFacts(types, st[id := Emitting], o)
    requires c == Closing(id, types[id])
    ensures ClosedPrinted(types, st, Out(o.state[id := Emitted], o.trace + c))
  {
    var st1 := st[id := Emitting];
    var r := Out(o.state[id := Emitted], o.trace + c);
    forall j | 0 <= j < |st| && st[j] == NotEmitted && r.state[j] == Emitted
      ensures Closing(j, types[j]) == [] || Closing(j, types[j])[0] in r.trace
    {
      if j == id {
        assert c == [] || c[0] == r.trace[|r.trace| - 1];
      } else {
        assert st1[j] == st[j] && r.state[j] == o.state[j];
        assert Closing(j, types[j]) == [] || Closing(j, types[j])[0] in o.trace;
      }
    }
  }

  lemma CloseFwd(types: seq<LegacyType>, st: seq<EmitState>, id: nat, o: Out, c: seq<Event>)
    requires |st| == |types| && id < |types| && st[id] == NotEmitted
    requires Advanced(st[id := Emitting], o.state)
    requires TraceFacts(types, st[id := Emitting], o)
    ensures FwdPrinted(st, Out(o.state[id := Emitted], o.trace + c))
    ensures var r := Out(o.state[id := Emitted], o.trace + c);
      forall j | 0 <= j < |st| && r.state[j] == Emitted :: st[j] == Emitted || st[j] == NotEmitted
    ensures var r := Out(o.state[id := Emitted], o.trace + c);
      forall j | 0 <= j < |st| && st[j] == NotEmitted :: r.state[j] == NotEmitted || r.state[j] == Emitted
  {
    var st1 := st[id := Emitting];
    var r := Out(o.state[id := Emitted], o.trace + c);
    forall j | 0 <= j < |st| && Rank(st[j]) <= 1 && r.state[j] == FwdEmitted
      ensures FwdDecl(j) in r.trace
    {
      assert j != id && st1[j] == st[j];
      assert FwdDecl(j) in o.trace;
    }
    forall j | 0 <= j < |st| && j != id ensures st1[j] == st[j] && r.state[j] == o.state[j] {
    }
  }

  /** Every visit keeps trace and states in agreement. */
  lemma {:induction false} EmitTypeFacts(types: seq<LegacyType>, st: seq<EmitState>, id: nat, container: nat)
    requires Linked(types) && |st| == |types| && id < |types|
    ensures TraceFacts(types, st, EmitType(types, st, id, container))
    decreases NotEmittedSet(st), 0, 0
  {
    var r := EmitType(types, st, id, container);
    if st[id] == NotEmitted {
      var t := types[id];
      var st1 := st[id := Emitting];
      MarkShrinks(st, id);
      DepsInRange(types, id);
      var cont := if t.Struct? || t.Union? then id else container;
      EmitListFacts(types, st1, Deps(t), cont);
      CloseFacts(types, st, id, EmitList(types, st1, Deps(t), cont));
    } else if st[id] == Emitting && id != container && Forwardable(types[id]) {
      assert r.trace == [FwdDecl(id)];
    }
  }

  /** Visits in a row keep trace and states in agreement. */
  lemma {:induction false} EmitListFacts(types: seq<LegacyType>, st: seq<EmitState>, ids: seq<nat>, container: nat)
    requires Linked(types) && |st| == |types|
    requires forall k | 0 <= k < |ids| :: ids[k] < |types|
    ensures TraceFacts(types, st, EmitList(types, st, ids, container))
    decreases NotEmittedSet(st), 1, |ids|
  {
    if |ids| > 0 {
      var o1 := EmitType(types, st, ids[0], container);
      EmitTypeFacts(types, st, ids[0], container);
      AdvancedShrinks(st, o1.state);
      EmitListFacts(types, o1.state, ids[1..], container);
      ComposeFacts(types, st, o1, EmitList(types, o1.state, ids[1..], container));
    }
  }

  /**
   * Dumping any list of roots with a fresh dumper prints every definition,
   * declaration and forward declaration at most once, each about a type of the
   * right kind, and leaves every root emitted or in a forward-declared state.
   */
  lemma {:induction false} DumpAllFacts(types: seq<LegacyType>, st: seq<EmitState>, roots: seq<nat>)
    requires Linked(types) && |st| == |types|
    requires forall k | 0 <= k < |roots| :: roots[k] < |types|
    ensures TraceFacts(types, st, DumpAll(types, st, roots))
    ensures forall k | 0 <= k < |roots| :: DumpAll(types, st, roots).state[roots[k]] != NotEmitted
    decreases |roots|
  {
    if |roots| > 0 {
      var o1 := DumpType(types, st, roots[0]);
      EmitTypeFacts(types, st, roots[0], roots[0]);
      DumpAllFacts(types, o1.state, roots[1..]);
      var o2 := DumpAll(types, o1.state, roots[1..]);
      ComposeFacts(types, st, o1, o2);
      forall k | 0 <= k < |roots| ensures o2.state[roots[k]] != NotEmitted {
        if k == 0 {
          assert Rank(o1.state[roots[0]]) <= Rank(o2.state[roots[0]]);
        } else {
          assert roots[k] == roots[1..][k - 1];
        }
      }
    }
  }

  /** Type j is declared for C by the states or the trace: defined or forward-declared. */
  predicate DeclaredBy(st: seq<EmitState>, trace: seq<Event>, j: nat)
    requires j < |st|
  {
    st[j] == FwdEmitted || st[j] == Emitted || Definition(j) in trace || FwdDecl(j) in trace
  }

  /**
   * Emitting a struct or union first visits its members' types: when its
   * definition is printed (last, and only if it is named), every member whose
   * type is a named struct, union or enum is already defined or forward-declared,
   * unless that type is the struct itself or an enclosing definition in progress.
   */
  lemma MembersDeclaredFirst(types: seq<LegacyType>, st: seq<EmitState>, id: nat, container: nat)
    requires Linked(types) && |st| == |types| && id < |types|
    requires st[id] == NotEmitted && (types[id].Struct? || types[id].Union?)
    ensures var r := EmitType(types, st, id, container);
      var pre := if Definable(types[id]) then r.trace[..|r.trace| - 1] else r.trace;
      && (Definable(types[id]) ==> |r.trace| > 0 && r.trace[|r.trace| - 1] == Definition(id))
      && Definition(id) !in pre
      && forall k | 0 <= k < |types[id].members| ::
           var j := types[id].members[k].typeId as nat;
           j < |types| && (Definable(types[j]) ==> j == id || st[j] == Emitting || DeclaredBy(st, pre, j))
  {
    var t := types[id];
    var st1 := st[id := Emitting];
    MarkShrinks(st, id);
    DepsInRange(types, id);
    var o := EmitList(types, st1, Deps(t), id);
    EmitListFacts(types, st1, Deps(t), id);
    var r := EmitType(types, st, id, container);
    assert r == Out(o.state[id := Emitted], o.trace + Closing(id, t));
    var pre := if Definable(t) then r.trace[..|r.trace| - 1] else r.trace;
    assert pre == o.trace;
    NoSelfDefinition(types, st, id, o);
    AllMembersDeclared(types, st, id, o);
  }

  /** A type's own definition is not printed while its dependencies are visited. */
  lemma NoSelfDefinition(types: seq<LegacyType>, st: seq<EmitState>, id: nat, o: Out)
    requires |st| == |types| && id < |types| && |o.state| == |types|
    requires EventsAgree(types, st[id := Emitting], o)
    ensures Definition(id) !in o.trace
  {
    forall k | 0 <= k < |o.trace| ensures o.trace[k] != Definition(id) {
      assert EventFact(types, st[id := Emitting], o.state, o.trace[k]);
    }
  }

  /** The members part of `MembersDeclaredFirst`, given the members' visits. */
  lemma AllMembersDeclared(types: seq<LegacyType>, st: seq<EmitState>, id: nat, o: Out)
    requires Linked(types) && |st| == |types| && id < |types| && st[id] == NotEmitted
    requires types[id].Struct? || types[id].Union?
    requires Advanced(st[id := Emitting], o.state) && TraceFacts(types, st[id := Emitting], o)
    requires forall k | 0 <= k < |Deps(types[id])| ::
      Deps(types[id])[k] < |o.state| && o.state[Deps(types[id])[k]] != NotEmitted
    ensures forall k | 0 <= k < |types[id].members| ::
      var j := types[id].members[k].typeId as nat;
      j < |types| && (Definable(types[j]) ==> j == id || st[j] == Emitting || DeclaredBy(st, o.trace, j))
  {
    var t := types[id];
    DepsInRange(types, id);
    forall k | 0 <= k < |t.members|
      ensures var j := t.members[k].typeId as nat;
        j < |types| && (Definable(types[j]) ==> j == id || st[j] == Emitting || DeclaredBy(st, o.trace, j))
    {
      var j := t.members[k].typeId as nat;
      assert Deps(t)[k] == j;
      MemberDeclared(types, st, id, o, j);
    }
  }

  /** One member of `MembersDeclaredFirst`, by the state its type ends the members' visits in. */
  lemma MemberDeclared(types: seq<LegacyType>, st: seq<EmitState>, id: nat, o: Out, j: nat)
    requires |st| == |types| && id < |types| && j < |types| && st[id] == NotEmitted
    requires Advanced(st[id := Emitting], o.state) && TraceFacts(types, st[id := Emitting], o)
    requires o.state[j] != NotEmitted
    ensures Definable(types[j]) ==> j == id || st[j] == Emitting || DeclaredBy(st, o.trace, j)
  {
    var st1 := st[id := Emitting];
    if Definable(types[j]) && j != id {
      assert st1[j] == st[j];
      if o.state[j] == Emitted && st[j] == NotEmitted {
        assert Closing(j, types[j])[0] in o.trace;
      } else if o.state[j] == FwdEmitted && Rank(st[j]) <= 1 {
        assert FwdDecl(j) in o.trace;
      }
    }
  }

  // ---------------------------------------------------------------------------
  // emit_type_decl: the declarator chain
  // ---------------------------------------------------------------------------

  /** The kinds `emit_type_decl` pushes and then follows. */
  predicate IsLink(t: LegacyType) {
    t.Ptr? || t.Const? || t.Volatile? || t.Restrict? || t.Array? || t.FuncProto?
  }

  /** The kinds that abort a declarator chain (printed as an unexpected chain). */
  predicate Aborts(t: LegacyType) {
    t.Var? || t.Datasec? || t.Func?
  }

  /** The id a link kind points to: the pointee, the element or the result type. */
  function Next(t: LegacyType): (r: nat)
    requires IsLink(t)
    ensures Deps(t) != [] && r == Deps(t)[0]
  {
    match t
    case Ptr(x) => x
    case Const(x) => x
    case Volatile(x) => x
    case Restrict(x) => x
    case Array(_, _, v) => v
    case FuncProto(res, _) => res
  }

  /** Consecutive ids of `c` follow links of the table. */
  predicate LinkPath(types: seq<LegacyType>, c: seq<nat>) {
    && (forall k | 0 <= k < |c| :: c[k] < |types|)
    && (forall k {:trigger types[c[k]]} | 0 <= k < |c| - 1 :: IsLink(types[c[k]]) && c[k + 1] == Next(types[c[k]]))
  }

  /**
   * Reference definition of a declarator chain from `id`: the links from `id`
   * up to and including the first id that is not a link, which must not abort.
   */
  predicate IsDeclChain(types: seq<LegacyType>, id: nat, c: seq<nat>) {
    && |c| >= 1 && c[0] == id && LinkPath(types, c)
    && !IsLink(types[c[|c| - 1]]) && !Aborts(types[c[|c| - 1]])
  }

  datatype ChainError = Unexpected(at: nat) | OutOfFuel

  /**
   * The chain `emit_type_decl` builds before rendering, outermost type first;
   * a Var, Datasec or Func on the way is reported instead. `fuel` bounds the
   * number of links followed.
   */
  function DeclChain(types: seq<LegacyType>, id: nat, fuel: nat): (r: Result<seq<nat>, ChainError>)
    requires Linked(types) && id < |types|
    ensures r.Ok? ==> IsDeclChain(types, id, r.value) && |r.value| <= fuel + 1
    ensures r.Err? && r.error.Unexpected? ==> r.error.at < |types| && Aborts(types[r.error.at])
    decreases fuel
  {
    var t := types[id];
    if IsLink(t) then
      if fuel == 0 then Err(OutOfFuel)
      else
        DepsInRange(types, id);
        match DeclChain(types, Next(t), fuel - 1)
        case Err(e) => Err(e)
        case Ok(c) =>
          assert ([id] + c)[1..] == c;
          Ok([id] + c)
    else if Aborts(t) then Err(Unexpected(id))
    else Ok([id])
  }

  /**
   * Any link path from `id` to a non-link within the fuel is what `DeclChain`
   * finds: the chain itself, or the aborting id at its end.
   */
  lemma {:induction false} DeclChainComplete(types: seq<LegacyType>, id: nat, c: seq<nat>, fuel: nat)
    requires Linked(types) && id < |types|
    requires |c| >= 1 && c[0] == id && LinkPath(types, c) && !IsLink(types[c[|c| - 1]])
    requires |c| <= fuel + 1
    ensures DeclChain(types, id, fuel)
         == if Aborts(types[c[|c| - 1]]) then Err(Unexpected(c[|c| - 1])) else Ok(c)
    decreases |c|
  {
    var t := types[id];
    if |c| > 1 {
      var tail := c[1..];
      TailIsPath(types, c);
      assert tail[|tail| - 1] == c[|c| - 1] && c[1] < |types|;
      DeclChainComplete(types, c[1], tail, fuel - 1);
      ChainStep(types, id, c, fuel);
    } else {
      assert c == [id] && !IsLink(t);
    }
  }

  /** A link in front of a path whose chain is known: the chain gains the link, or keeps its error. */
  lemma ChainStep(types: seq<LegacyType>, id: nat, c: seq<nat>, fuel: nat)
    requires Linked(types) && id < |types| && IsLink(types[id]) && fuel >= 1
    requires |c| > 1 && c[0] == id && c[1] == Next(types[id]) && c[1] < |types| && c[|c| - 1] < |types|
    requires DeclChain(types, c[1], fuel - 1)
          == if Aborts(types[c[|c| - 1]]) then Err(Unexpected(c[|c| - 1])) else Ok(c[1..])
    ensures DeclChain(types, id, fuel)
         == if Aborts(types[c[|c| - 1]]) then Err(Unexpected(c[|c| - 1])) else Ok(c)
  {
    ConsChain(types, id, fuel);
    assert c == [id] + c[1..];
  }

  /** The rest of a link path is a link path from the id the first link leads to. */
  lemma TailIsPath(types: seq<LegacyType>, c: seq<nat>)
    requires |c| > 1 && LinkPath(types, c)
    ensures IsLink(types[c[0]]) && c[1] == Next(types[c[0]]) && LinkPath(types, c[1..])
  {
    var tail := c[1..];
    forall k | 0 <= k < |tail| - 1 ensures IsLink(types[tail[k]]) && tail[k + 1] == Next(types[tail[k]]) {
      assert tail[k] == c[k + 1] && tail[k + 1] == c[k + 2];
    }
  }

  /** At a link, the chain is the link followed by the chain from where it leads. */
  lemma ConsChain(types: seq<LegacyType>, id: nat, fuel: nat)
    requires Linked(types) && id < |types| && IsLink(types[id]) && fuel >= 1
    requires Next(types[id]) < |types|
    ensures var rest := DeclChain(types, Next(types[id]), fuel - 1);
      DeclChain(types, id, fuel) == if rest.Ok? then Ok([id] + rest.value) else Err(rest.error)
  {
  }

  /** A declarator chain is unique: two chains from the same id are the same. */
  lemma DeclChainUnique(types: seq<LegacyType>, id: nat, c1: seq<nat>, c2: seq<nat>)
    requires Linked(types) && id < |types|
    requires IsDeclChain(types, id, c1) && IsDeclChain(types, id, c2)
    ensures c1 == c2
  {
    var fuel := |c1| + |c2|;
    DeclChainComplete(types, id, c1, fuel);
    DeclChainComplete(types, id, c2, fuel);
  }

  // ---------------------------------------------------------------------------
  // emit_non_ptr_mods
  // ---------------------------------------------------------------------------

  /** The modifiers written before the base type rather than after a `*`. */
  predicate IsMod(t: LegacyType) {
    t.Const? || t.Volatile? || t.Restrict?
  }

  /**
   * `emit_non_ptr_mods`: pop modifiers off the end of the chain while there
   * are any. Returns the rest of the chain and the modifiers popped, which
   * are printed last one first.
   */
  function EmitNonPtrMods(chain: seq<LegacyType>): (r: (seq<LegacyType>, seq<LegacyType>))
    ensures r.0 + r.1 == chain
    ensures forall k | 0 <= k < |r.1| :: IsMod(r.1[k])
    ensures r.0 == [] || !IsMod(r.0[|r.0| - 1])
    decreases |chain|
  {
    if |chain| == 0 || !IsMod(chain[|chain| - 1]) then (chain, [])
    else
      var top := chain[|chain| - 1];
      var rest := EmitNonPtrMods(chain[..|chain| - 1]);
      assert chain == chain[..|chain| - 1] + [top];
      (rest.0, rest.1 + [top])
  }

  /**
   * Any split of the chain into a part not ending in a modifier and a run of
   * modifiers is the one `EmitNonPtrMods` makes: it pops exactly the trailing
   * run and leaves the rest untouched.
   */
  lemma {:induction false} NonPtrModsSplit(a: seq<LegacyType>, b: seq<LegacyType>)
    requires forall k | 0 <= k < |b| :: IsMod(b[k])
    requires a == [] || !IsMod(a[|a| - 1])
    ensures EmitNonPtrMods(a + b) == (a, b)
    decreases |b|
  {
    var chain := a + b;
    if |b| == 0 {
      assert chain == a;
    } else {
      var init := b[..|b| - 1];
      var top := b[|b| - 1];
      assert chain[..|chain| - 1] == a + init;
      assert chain[|chain| - 1] == top;
      NonPtrModsSplit(a, init);
      assert b == init + [top];
    }
  }

  // ---------------------------------------------------------------------------
  // sep and pfx
  // ---------------------------------------------------------------------------

  /** `sep(name)`: the separator written between a keyword and a name. */
  function Sep(name: Str): (r: string)
    ensures r == [] <==> name == []
    ensures r != [] ==> r == " "
  {
    if name == [] then "" else " "
  }

  /** The indentation table: entry l is l tabs. */
  const PREFIXES: seq<string> := [
    "",
    "\t",
    "\t\t",
    "\t\t\t",
    "\t\t\t\t",
    "\t\t\t\t\t",
    "\t\t\t\t\t\t",
    "\t\t\t\t\t\t\t",
    "\t\t\t\t\t\t\t\t",
    "\t\t\t\t\t\t\t\t\t",
    "\t\t\t\t\t\t\t\t\t\t",
    "\t\t\t\t\t\t\t\t\t\t\t",
    "\t\t\t\t\t\t\t\t\t\t\t\t"
  ]

  /** Reference definition: n tab characters. */
  function Tabs(n: nat): (r: string)
    ensures |r| == n
  {
    seq(n, _ => '\t')
  }

  /** `pfx(lvl)`: the indentation of nesting level `lvl`, capped at the last table entry. */
  function Pfx(lvl: nat): (r: string) {
    if lvl >= |PREFIXES| then PREFIXES[|PREFIXES| - 1] else PREFIXES[lvl]
  }

  /** The prefix of level l is min(l, 12) tabs. */
  lemma PfxIsTabs(lvl: nat)
    ensures Pfx(lvl) == Tabs(if lvl < 12 then lvl else 12)
  {
  }
}

=== FILE: kinds.dfy ===
/** The kinds of BTF type records and the spellings accepted for them on the command line. */
module Kinds {
  import opened Wrappers

  datatype BtfKind =
    | Void | Int | Ptr | Array | Struct | Union | Enum | Fwd | Typedef
    | Volatile | Const | Restrict | Func | FuncProto | Var | Datasec
    | Float | DeclTag | TypeTag | Enum64

  /** Every spelling of each kind that `FromStr` recognises. */
  function Spellings(k: BtfKind): set<string> {
    match k
    case Void => {"void"}
    case Int => {"int", "i"}
    case Ptr => {"ptr", "p"}
    case Array => {"array", "arr", "a"}
    case Struct => {"struct", "s"}
    case Union => {"union", "u"}
    case Enum => {"enum", "e"}
    case Fwd => {"fwd"}
    case Typedef => {"typedef", "t"}
    case Volatile => {"volatile"}
    case Const => {"const"}
    case Restrict => {"restrict"}
    case Func => {"func", "fn"}
    case FuncProto => {"func_proto", "funcproto", "fnproto", "fp"}
    case Var => {"var", "v"}
    case Datasec => {"datasec"}
    case Float => {"float"}
    case DeclTag => {"decl_tag"}
    case TypeTag => {"type_tag"}
    case Enum64 => {"enum64", "e64"}
  }

  /** The long name of each kind, the first spelling `FromStr` lists for it. */
  function CanonicalName(k: BtfKind): (s: string)
    ensures s in Spellings(k)
  {
    match k
    case Void => "void"
    case Int => "int"
    case Ptr => "ptr"
    case Array => "array"
    case Struct => "struct"
    case Union => "union"
    case Enum => "enum"
    case Fwd => "fwd"
    case Typedef => "typedef"
    case Volatile => "volatile"
    case Const => "const"
    case Restrict => "restrict"
    case Func => "func"
    case FuncProto => "func_proto"
    case Var => "var"
    case Datasec => "datasec"
    case Float => "float"
    case DeclTag => "decl_tag"
    case TypeTag => "type_tag"
    case Enum64 => "enum64"
  }

  /** `BtfKind::from_str`: a known spelling gives its kind, anything else is an error. */
  function FromStr(s: string): (r: Result<BtfKind, string>)
    ensures r.Ok? ==> s in Spellings(r.value)
    ensures r.Err? ==> r.error == s
  {
    if s == "void" then Ok(Void)
    else if s == "int" || s == "i" then Ok(Int)
    else if s == "ptr" || s == "p" then Ok(Ptr)
    else if s == "array" || s == "arr" || s == "a" then Ok(Array)
    else if s == "struct" || s == "s" then Ok(Struct)
    else if s == "union" || s == "u" then Ok(Union)
    else if s == "enum" || s == "e" then Ok(Enum)
    else if s == "fwd" then Ok(Fwd)
    else if s == "typedef" || s == "t" then Ok(Typedef)
    else if s == "volatile" then Ok(Volatile)
    else if s == "const" then Ok(Const)
    else if s == "restrict" then Ok(Restrict)
    else if s == "func_proto" || s == "funcproto" || s == "fnproto" || s == "fp" then Ok(FuncProto)
    else if s == "func" || s == "fn" then Ok(Func)
    else if s == "var" || s == "v" then Ok(Var)
    else if s == "datasec" then Ok(Datasec)
    else if s == "float" then Ok(Float)
    else if s == "decl_tag" then Ok(DeclTag)
    else if s == "type_tag" then Ok(TypeTag)
    else if s == "enum64" || s == "e64" then Ok(Enum64)
    else Err(s)
  }

  // One lemma per kind keeps each proof to the comparisons of one arm.
  lemma ParsesVoid(s: string) requires s in Spellings(Void) ensures FromStr(s) == Ok(Void) {}
  lemma ParsesInt(s: string) requires s in Spellings(Int) ensures FromStr(s) == Ok(Int) {}
  lemma ParsesPtr(s: string) requires s in Spellings(Ptr) ensures FromStr(s) == Ok(Ptr) {}
  lemma ParsesArray(s: string) requires s in Spellings(Array) ensures FromStr(s) == Ok(Array) {}
  lemma ParsesStruct(s: string) requires s in Spellings(Struct) ensures FromStr(s) == Ok(Struct) {}
  lemma ParsesUnion(s: string) requires s in Spellings(Union) ensures FromStr(s) == Ok(Union) {}
  lemma ParsesEnum(s: string) requires s in Spellings(Enum) ensures FromStr(s) == Ok(Enum) {}
  lemma ParsesFwd(s: string) requires s in Spellings(Fwd) ensures FromStr(s) == Ok(Fwd) {}
  lemma ParsesTypedef(s: string) requires s in Spellings(Typedef) ensures FromStr(s) == Ok(Typedef) {}
  lemma ParsesVolatile(s: string) requires s in Spellings(Volatile) ensures FromStr(s) == Ok(Volatile) {}
  lemma ParsesConst(s: string) requires s in Spellings(Const) ensures FromStr(s) == Ok(Const) {}
  lemma ParsesRestrict(s: string) requires s in Spellings(Restrict) ensures FromStr(s) == Ok(Restrict) {}
  lemma ParsesFunc(s: string) requires s in Spellings(Func) ensures FromStr(s) == Ok(Func) {}
  lemma ParsesFuncProto(s: string) requires s in Spellings(FuncProto) ensures FromStr(s) == Ok(FuncProto) {}
  lemma ParsesVar(s: string) requires s in Spellings(Var) ensures FromStr(s) == Ok(Var) {}
  lemma ParsesDatasec(s: string) requires s in Spellings(Datasec) ensures FromStr(s) == Ok(Datasec) {}
  lemma ParsesFloat(s: string) requires s in Spellings(Float) ensures FromStr(s) == Ok(Float) {}
  lemma ParsesDeclTag(s: string) requires s in Spellings(DeclTag) ensures FromStr(s) == Ok(DeclTag) {}
  lemma ParsesTypeTag(s: string) requires s in Spellings(TypeTag) ensures FromStr(s) == Ok(TypeTag) {}
  lemma ParsesEnum64(s: string) requires s in Spellings(Enum64) ensures FromStr(s) == Ok(Enum64) {}

  /** Every spelling of a kind decodes to that kind. */
  lemma FromStrComplete(s: string, k: BtfKind)
    requires s in Spellings(k)
    ensures FromStr(s) == Ok(k)
  {
    match k
    case Void => ParsesVoid(s);
    case Int => ParsesInt(s);
    case Ptr => ParsesPtr(s);
    case Array => ParsesArray(s);
    case Struct => ParsesStruct(s);
    case Union => ParsesUnion(s);
    case Enum => ParsesEnum(s);
    case Fwd => ParsesFwd(s);
    case Typedef => ParsesTypedef(s);
    case Volatile => ParsesVolatile(s);
    case Const => ParsesConst(s);
    case Restrict => ParsesRestrict(s);
    case Func => ParsesFunc(s);
    case FuncProto => ParsesFuncProto(s);
    case Var => ParsesVar(s);
    case Datasec => ParsesDatasec(s);
    case Float => ParsesFloat(s);
    case DeclTag => ParsesDeclTag(s);
    case TypeTag => ParsesTypeTag(s);
    case Enum64 => ParsesEnum64(s);
  }

  /** A string that is no kind's spelling is rejected. */
  lemma FromStrRejects(s: string)
    ensures FromStr(s).Err? <==> forall k: BtfKind :: s !in Spellings(k)
  {
    if !FromStr(s).Ok? {
      forall k: BtfKind | s in Spellings(k)
        ensures false
      {
        FromStrComplete(s, k);
      }
    }
  }

  /** The long name of every kind parses back to that kind. */
  lemma CanonicalRoundTrip(k: BtfKind)
    ensures FromStr(CanonicalName(k)) == Ok(k)
  {
    FromStrComplete(CanonicalName(k), k);
  }

  /** The `BTF_KIND_*` number of each kind (bits 24.. of a record's info word); 0 is `BTF_KIND_UNKN`. */
  function Code(k: BtfKind): (c: nat)
    ensures c < 20
  {
    match k
    case Void => 0
    case Int => 1
    case Ptr => 2
    case Array => 3
    case Struct => 4
    case Union => 5
    case Enum => 6
    case Fwd => 7
    case Typedef => 8
    case Volatile => 9
    case Const => 10
    case Restrict => 11
    case Func => 12
    case FuncProto => 13
    case Var => 14
    case Datasec => 15
    case Float => 16
    case DeclTag => 17
    case TypeTag => 18
    case Enum64 => 19
  }

  /** The kind a `BTF_KIND_*` number stands for; None above `BTF_KIND_MAX` (19). */
  function FromCode(c: nat): (r: Option<BtfKind>)
    ensures r.Some? ==> Code(r.value) == c
  {
    if c == 0 then Some(Void)
    else if c == 1 then Some(Int)
    else if c == 2 then Some(Ptr)
    else if c == 3 then Some(Array)
    else if c == 4 then Some(Struct)
    else if c == 5 then Some(Union)
    else if c == 6 then Some(Enum)
    else if c == 7 then Some(Fwd)
    else if c == 8 then Some(Typedef)
    else if c == 9 then Some(Volatile)
    else if c == 10 then Some(Const)
    else if c == 11 then Some(Restrict)
    else if c == 12 then Some(Func)
    else if c == 13 then Some(FuncProto)
    else if c == 14 then Some(Var)
    else if c == 15 then Some(Datasec)
    else if c == 16 then Some(Float)
    else if c == 17 then Some(DeclTag)
    else if c == 18 then Some(TypeTag)
    else if c == 19 then Some(Enum64)
    else None
  }

  /** Every kind has a number and the numbers are exactly 0..19. */
  lemma CodeRoundTrip(k: BtfKind, c: nat)
    ensures FromCode(Code(k)) == Some(k)
    ensures FromCode(c).None? <==> c >= 20
  {
  }
}

=== FILE: legacy.dfy ===
/**
 * The two earlier loaders, src/btf.rs and src/lib.rs. They decode the same
 * header and records as src/types.rs but know only kinds 1..15, read the
 * kind through a 4-bit mask, locate the sections from the fixed 24-byte
 * header size rather than `hdr_len`, and have no function linkage. The two
 * files differ from each other only in how a forward declaration's kind
 * flag is read, so one model serves both, selected by a `Style`.
 */
module Legacy {
  import opened Wrappers
  import opened Words
  import opened Records
  import opened Wire
  import SectionWalk
  import TL = TypesLoader
  import Types
  import Kinds

  /** Which of the two files is meant. */
  datatype Style = BtfRs | LibRs

  /** The type table of the earlier loaders: kinds 1..15, plus Void at id 0. */
  datatype LegacyType =
    | Void
    | Int(name: Str, bits: u32, offset: u32, encoding: IntEncoding)
    | Ptr(typeId: u32)
    | Array(nelems: u32, idxTypeId: u32, valTypeId: u32)
    | Struct(name: Str, sz: u32, members: seq<Member>)
    | Union(name: Str, sz: u32, members: seq<Member>)
    | Enum(name: Str, szBits: u32, values: seq<EnumValue>)
    | Fwd(name: Str, fwdKind: FwdKind)
    | Typedef(name: Str, typeId: u32)
    | Volatile(typeId: u32)
    | Const(typeId: u32)
    | Restrict(typeId: u32)
    | Func(name: Str, protoTypeId: u32)
    | FuncProto(resTypeId: u32, params: seq<FuncParam>)
    | Var(name: Str, typeId: u32, varKind: VarKind)
    | Datasec(name: Str, sz: u32, vars: seq<DatasecVar>)

  /** The `BTF_KIND_*` number of each variant. */
  function Code(t: LegacyType): (c: nat)
    ensures c < 16
    ensures t.Void? <==> c == 0
  {
    match t
    case Void => 0
    case Int(_, _, _, _) => 1
    case Ptr(_) => 2
    case Array(_, _, _) => 3
    case Struct(_, _, _) => 4
    case Union(_, _, _) => 5
    case Enum(_, _, _) => 6
    case Fwd(_, _) => 7
    case Typedef(_, _) => 8
    case Volatile(_) => 9
    case Const(_) => 10
    case Restrict(_) => 11
    case Func(_, _) => 12
    case FuncProto(_, _) => 13
    case Var(_, _, _) => 14
    case Datasec(_, _, _) => 15
  }

  // ---------------------------------------------------------------------------
  // Info word
  // ---------------------------------------------------------------------------

  /** `(info >> 24) & 0xf`, the kind as `load_type` reads it. */
  function KindCode(info: u32): (r: nat)
    ensures r < 16
  {
    info / TWO_24 % 16
  }

  /** `get_kind`: despite its name, bit 31 of the info word (the kind flag). */
  function GetKind(info: u32): bool {
    info / TWO_31 == 1
  }

  /**
   * The 4-bit mask keeps the low four bits of the 5-bit kind field: kinds
   * 0..15 read as in src/types.rs, and kinds 16..31 alias kinds 0..15.
   */
  lemma {:induction false} KindCodeMasks(info: u32)
    ensures KindCode(info) == Wire.GetKind(info) % 16
    ensures Wire.GetKind(info) < 16 <==> KindCode(info) == Wire.GetKind(info)
  {
    var q := info / TWO_24;
    assert q < 256;
    assert Wire.GetKind(info) == q % 32;
    assert q % 32 % 16 == q % 16 by {
      assert q == (q / 32) * 32 + q % 32;
      assert (q / 32) * 32 % 16 == 0 by {
        assert (q / 32) * 32 == ((q / 32) * 2) * 16;
      }
    }
  }

  /** On an encoded info word, `get_kind` yields the flag that was stored, never the kind. */
  lemma GetKindReadsFlag(vlen: u16, kind: nat, flag: bool)
    requires kind < 32
    ensures GetKind(EncodeInfo(vlen, kind, flag)) == flag
    ensures KindCode(EncodeInfo(vlen, kind, flag)) == kind % 16
  {
    InfoRoundTrip(vlen, kind, flag);
    KindCodeMasks(EncodeInfo(vlen, kind, flag));
  }

  // ---------------------------------------------------------------------------
  // Records
  // ---------------------------------------------------------------------------

  /** `type_size`: 12 common bytes plus the kind's extra word(s) or its `vlen` entries. */
  function TypeSize(t: LegacyType): (r: nat)
    ensures t.Void? <==> r == 0
    ensures !t.Void? ==> r >= TL.COMMON
  {
    match t
    case Void => 0
    case Ptr(_) => TL.COMMON
    case Fwd(_, _) => TL.COMMON
    case Typedef(_, _) => TL.COMMON
    case Volatile(_) => TL.COMMON
    case Const(_) => TL.COMMON
    case Restrict(_) => TL.COMMON
    case Func(_, _) => TL.COMMON
    case Int(_, _, _, _) => TL.COMMON + 4
    case Var(_, _, _) => TL.COMMON + 4
    case Array(_, _, _) => TL.COMMON + 12
    case Struct(_, _, ms) => TL.COMMON + |ms| * 12
    case Union(_, _, ms) => TL.COMMON + |ms| * 12
    case Enum(_, _, vs) => TL.COMMON + |vs| * 8
    case FuncProto(_, ps) => TL.COMMON + |ps| * 8
    case Datasec(_, _, vs) => TL.COMMON + |vs| * 12
  }

  /** The forward-declaration kind each file reads from the flag. */
  function FwdKindOf(style: Style, flag: bool): (r: FwdKind)
    ensures style == BtfRs ==> (r == FwdUnion <==> flag)
    ensures style == LibRs ==> (r == FwdUnion <==> !flag)
  {
    match style
    case BtfRs => if flag then FwdUnion else FwdStruct
    case LibRs => if flag then FwdStruct else FwdUnion
  }

  /** `BTF_VAR_STATIC` and `BTF_VAR_GLOBAL_ALLOCATED`; anything else, external linkage included, is an error. */
  function VarKindOf(k: nat): (r: Result<VarKind, LoadError>)
    ensures r.Ok? <==> k <= 1
    ensures r.Ok? ==> r.value != GlobalExtern
    ensures r.Err? ==> r.error == UnknownVarKind(k)
  {
    if k == 0 then Ok(Static)
    else if k == 1 then Ok(GlobalAlloc)
    else Err(UnknownVarKind(k))
  }

  /**
   * `load_type`: dispatch on the 4-bit kind. Each kind reads its fields in
   * the same order as src/types.rs does.
   */
  function LoadType(style: Style, d: seq<byte>, strs: seq<byte>, e: Endian): (r: Result<LegacyType, LoadError>)
    ensures |d| < TL.COMMON ==> r == Err(Truncated(0))
    ensures r.Ok? ==> |d| >= TL.COMMON && !r.value.Void? && TypeSize(r.value) <= |d|
  {
    if |d| < TL.COMMON then Err(Truncated(0))
    else
      var info := TL.InfoOf(d, e);
      var code := KindCode(info);
      if code == 0 then Err(UnknownKind(code))
      else LoadBody(style, code, ReadU32(d, 0, e).value, info, ReadU32(d, 8, e).value, d[TL.COMMON..], strs, e)
  }

  /** The kind-specific part of `load_type`, given the three words of `btf_type` and the bytes after them. */
  function LoadBody(style: Style, code: nat, nameOff: u32, info: u32, typeId: u32, extra: seq<byte>, strs: seq<byte>, e: Endian)
    : (r: Result<LegacyType, LoadError>)
    requires 0 < code < 16
    ensures r.Ok? ==> Code(r.value) == code && TypeSize(r.value) <= TL.COMMON + |extra|
    ensures r.Ok? && r.value.Fwd? ==> r.value.fwdKind == FwdKindOf(style, GetKind(info))
  {
    if code == 1 then LoadInt(nameOff, extra, strs, e)
    else if code == 2 then Ok(Ptr(typeId))
    else if code == 3 then LoadArray(extra, e)
    else if code == 4 then LoadComposite(true, nameOff, info, typeId, extra, strs, e)
    else if code == 5 then LoadComposite(false, nameOff, info, typeId, extra, strs, e)
    else if code == 6 then LoadEnum(nameOff, info, typeId, extra, strs, e)
    else if code == 7 then
      var name :- GetBtfStr(strs, nameOff);
      Ok(Fwd(name, FwdKindOf(style, GetKind(info))))
    else if code == 8 then
      var name :- GetBtfStr(strs, nameOff);
      Ok(Typedef(name, typeId))
    else if code == 9 then Ok(Volatile(typeId))
    else if code == 10 then Ok(Const(typeId))
    else if code == 11 then Ok(Restrict(typeId))
    else if code == 12 then
      var name :- GetBtfStr(strs, nameOff);
      Ok(Func(name, typeId))
    else if code == 13 then LoadFuncProto(info, typeId, extra, strs, e)
    else if code == 14 then LoadVar(nameOff, typeId, extra, strs, e)
    else LoadDatasec(nameOff, info, typeId, extra, strs, e)
  }

  /** `load_int`: the extra word, then the name, then the encoding check. */
  function LoadInt(nameOff: u32, extra: seq<byte>, strs: seq<byte>, e: Endian): (r: Result<LegacyType, LoadError>)
    ensures r.Ok? ==> r.value.Int? && Code(r.value) == 1 && |extra| >= 4
    ensures r.Ok? ==> var ii := DecodeIntInfo(ReadU32(extra, 0, e).value);
      r.value.bits == ii.bits && r.value.offset == ii.offset && IntEncodingCode(r.value.encoding) == ii.enc
    ensures |extra| >= 4 && GetBtfStr(strs, nameOff).Ok? ==>
      (r.Err? <==> DecodeIntInfo(ReadU32(extra, 0, e).value).enc !in {0, 1, 2, 4})
  {
    var w :- ReadU32(extra, 0, e);
    var name :- GetBtfStr(strs, nameOff);
    var ii := DecodeIntInfo(w);
    var enc :- IntEncodingOf(ii.enc);
    IntEncodingRoundTrip(enc, ii.enc);
    Ok(Int(name, ii.bits, ii.offset, enc))
  }

  /** `load_array`: `btf_array` is `val_type_id`, `idx_type_id`, `nelems`. */
  function LoadArray(extra: seq<byte>, e: Endian): (r: Result<LegacyType, LoadError>)
    ensures r.Ok? <==> |extra| >= 12
    ensures r.Ok? ==> (&& r.value.Array? && Code(r.value) == 3 && r.value.valTypeId == ReadU32(extra, 0, e).value
                       && r.value.idxTypeId == ReadU32(extra, 4, e).value
                       && r.value.nelems == ReadU32(extra, 8, e).value)
  {
    if |extra| < 12 then Err(Truncated(0))
    else Ok(Array(ReadU32(extra, 8, e).value, ReadU32(extra, 4, e).value, ReadU32(extra, 0, e).value))
  }

  /** `load_struct` / `load_union`: the name, then `load_members`, which splits offsets by the kind flag. */
  function LoadComposite(isStruct: bool, nameOff: u32, info: u32, typeId: u32, extra: seq<byte>, strs: seq<byte>, e: Endian)
    : (r: Result<LegacyType, LoadError>)
    ensures r.Ok? ==> (if isStruct then r.value.Struct? && Code(r.value) == 4 else r.value.Union? && Code(r.value) == 5)
    ensures r.Ok? ==> r.value.sz == typeId && |r.value.members| == GetVlen(info)
    ensures r.Ok? ==> TypeSize(r.value) == TL.COMMON + EntryOff(MemberRecords(GetKind(info)), GetVlen(info)) <= TL.COMMON + |extra|
    ensures r.Ok? ==> var es := LoadEntries(MemberRecords(GetKind(info)), extra, strs, GetVlen(info), e);
      es.Ok? && r.value.members == MembersOf(es.value)
  {
    match GetBtfStr(strs, nameOff)
    case Err(err) => Err(err)
    case Ok(name) =>
      match LoadEntries(MemberRecords(GetKind(info)), extra, strs, GetVlen(info), e)
      case Err(err) => Err(err)
      case Ok(es) =>
        var ms := MembersOf(es);
        assert |ms| * 12 == EntryOff(MemberRecords(GetKind(info)), |es|);
        if isStruct then Ok(Struct(name, typeId, ms)) else Ok(Union(name, typeId, ms))
  }

  /** `load_enum`: the `vlen` values, then the name; the size word is kept as `sz_bits`. */
  function LoadEnum(nameOff: u32, info: u32, typeId: u32, extra: seq<byte>, strs: seq<byte>, e: Endian)
    : (r: Result<LegacyType, LoadError>)
    ensures r.Ok? ==> r.value.Enum? && Code(r.value) == 6 && r.value.szBits == typeId
    ensures r.Ok? ==> TypeSize(r.value) == TL.COMMON + EntryOff(EnumRecords, GetVlen(info)) <= TL.COMMON + |extra|
    ensures r.Ok? ==> var es := LoadEntries(EnumRecords, extra, strs, GetVlen(info), e);
      es.Ok? && r.value.values == EnumValuesOf(es.value)
  {
    var les := LoadEntries(EnumRecords, extra, strs, GetVlen(info), e);
    if les.Err? then Err(les.error)
    else
      var es := les.value;
      assert |es| == GetVlen(info) && 8 * |es| <= |extra|;
      var name :- GetBtfStr(strs, nameOff);
      Ok(Enum(name, typeId, EnumValuesOf(es)))
  }

  /** `load_func_proto`: the `vlen` parameters. */
  function LoadFuncProto(info: u32, typeId: u32, extra: seq<byte>, strs: seq<byte>, e: Endian)
    : (r: Result<LegacyType, LoadError>)
    ensures r.Ok? ==> r.value.FuncProto? && Code(r.value) == 13 && r.value.resTypeId == typeId
    ensures r.Ok? ==> TypeSize(r.value) == TL.COMMON + EntryOff(ParamRecords, GetVlen(info)) <= TL.COMMON + |extra|
    ensures r.Ok? ==> var es := LoadEntries(ParamRecords, extra, strs, GetVlen(info), e);
      es.Ok? && r.value.params == ParamsOf(es.value)
  {
    var les := LoadEntries(ParamRecords, extra, strs, GetVlen(info), e);
    if les.Err? then Err(les.error)
    else
      var es := les.value;
      assert |es| == GetVlen(info) && 8 * |es| <= |extra|;
      Ok(FuncProto(typeId, ParamsOf(es)))
  }

  /** `load_var`: the linkage word, then the name, then the linkage check. */
  function LoadVar(nameOff: u32, typeId: u32, extra: seq<byte>, strs: seq<byte>, e: Endian)
    : (r: Result<LegacyType, LoadError>)
    ensures r.Ok? ==> r.value.Var? && Code(r.value) == 14 && r.value.typeId == typeId && |extra| >= 4
    ensures r.Ok? ==> ReadU32(extra, 0, e).value <= 1 && r.value.varKind != GlobalExtern
    ensures |extra| >= 4 && GetBtfStr(strs, nameOff).Ok? && ReadU32(extra, 0, e).value > 1 ==>
      r == Err(UnknownVarKind(ReadU32(extra, 0, e).value))
  {
    var w :- ReadU32(extra, 0, e);
    var name :- GetBtfStr(strs, nameOff);
    var vk :- VarKindOf(w);
    Ok(Var(name, typeId, vk))
  }

  /** `load_datasec`: the `vlen` variables, then the name. */
  function LoadDatasec(nameOff: u32, info: u32, typeId: u32, extra: seq<byte>, strs: seq<byte>, e: Endian)
    : (r: Result<LegacyType, LoadError>)
    ensures r.Ok? ==> r.value.Datasec? && Code(r.value) == 15 && r.value.sz == typeId
    ensures r.Ok? ==> TypeSize(r.value) == TL.COMMON + EntryOff(DatasecVarRecords, GetVlen(info)) <= TL.COMMON + |extra|
    ensures r.Ok? ==> var es := LoadEntries(DatasecVarRecords, extra, strs, GetVlen(info), e);
      es.Ok? && r.value.vars == DatasecVarsOf(es.value)
  {
    var les := LoadEntries(DatasecVarRecords, extra, strs, GetVlen(info), e);
    if les.Err? then Err(les.error)
    else
      var es := les.value;
      assert |es| == GetVlen(info) && 12 * |es| <= |extra|;
      var name :- GetBtfStr(strs, nameOff);
      Ok(Datasec(name, typeId, DatasecVarsOf(es)))
  }

  // ---------------------------------------------------------------------------
  // Properties of load_type
  // ---------------------------------------------------------------------------

  /**
   * The decoded kind is the one the 4-bit field names, and a field of 0 is
   * rejected; every nonzero field names some kind, so no other code is an error.
   */
  lemma LoadTypeDispatch(style: Style, d: seq<byte>, strs: seq<byte>, e: Endian)
    ensures var r := LoadType(style, d, strs, e);
      r.Ok? ==> Code(r.value) == KindCode(TL.InfoOf(d, e))
    ensures |d| >= TL.COMMON && KindCode(TL.InfoOf(d, e)) == 0 ==>
      LoadType(style, d, strs, e) == Err(UnknownKind(0))
    ensures var r := LoadType(style, d, strs, e);
      r.Ok? && r.value.Fwd? ==> r.value.fwdKind == FwdKindOf(style, GetKind(TL.InfoOf(d, e)))
  {
  }

  /** The forward-declaration kind read the other way round. */
  function Flip(t: LegacyType): LegacyType {
    if t.Fwd? then t.(fwdKind := if t.fwdKind == FwdUnion then FwdStruct else FwdUnion) else t
  }

  /**
   * src/btf.rs and src/lib.rs decode every record alike, fail alike, and
   * differ only in the kind of a forward declaration, which is swapped.
   */
  lemma StylesAgree(d: seq<byte>, strs: seq<byte>, e: Endian)
    ensures var a := LoadType(BtfRs, d, strs, e);
      var b := LoadType(LibRs, d, strs, e);
      (a.Err? <==> b.Err?) && (a.Err? ==> a.error == b.error) && (a.Ok? ==> b.value == Flip(a.value))
  {
  }

  /** `load_type` against a fixed string section and byte order, as the walk's record decoder. */
  function Decoder(style: Style, strs: seq<byte>, e: Endian): seq<byte> -> Result<LegacyType, LoadError> {
    d => LoadType(style, d, strs, e)
  }

  /** `load_type` consumes at least the 12 common bytes and never more than it is given. */
  lemma LoadTypeAdvances(style: Style, strs: seq<byte>, e: Endian)
    ensures SectionWalk.Advances(Decoder(style, strs, e), TypeSize)
  {
  }

  // ---------------------------------------------------------------------------
  // Btf::load
  // ---------------------------------------------------------------------------

  /** Where the type section starts: `size_of::<btf_header>() + type_off`, in `usize`. */
  function TypeSectionStart(h: Header): nat {
    HEADER_SIZE + h.typeOff
  }

  /** Where the string section starts: `size_of::<btf_header>() + str_off`, in `usize`. */
  function StrSectionStart(h: Header): nat {
    HEADER_SIZE + h.strOff
  }

  /** `Btf::load` on the bytes of the `.BTF` section: header checks, then the sections it locates. */
  function Load(style: Style, data: seq<byte>, e: Endian): (r: Result<seq<LegacyType>, LoadError>)
    ensures |data| < HEADER_SIZE ==> r == Err(Truncated(0))
    ensures r.Ok? ==> ReadHeader(data, e).Ok? && CheckHeader(ReadHeader(data, e).value).Ok?
    ensures ReadHeader(data, e).Ok? && CheckHeader(ReadHeader(data, e).value).Err? ==>
      r == Err(CheckHeader(ReadHeader(data, e).value).error)
    ensures ReadHeader(data, e).Ok? && CheckHeader(ReadHeader(data, e).value).Ok? ==>
      var h := ReadHeader(data, e).value;
      r == LoadSections(style, data, TypeSectionStart(h), h.typeLen, StrSectionStart(h), h.strLen, e)
  {
    var h :- ReadHeader(data, e);
    if CheckHeader(h).Err? then Err(CheckHeader(h).error)
    else LoadSections(style, data, TypeSectionStart(h), h.typeLen, StrSectionStart(h), h.strLen, e)
  }

  /**
   * The part of `Btf::load` after the header checks: the type section is
   * cut out before the string section, then walked. Id 0 is Void and the
   * section's records follow it in order.
   */
  function LoadSections(style: Style, data: seq<byte>, typeStart: nat, typeLen: nat, strStart: nat, strLen: nat, e: Endian)
    : (r: Result<seq<LegacyType>, LoadError>)
    ensures typeStart + typeLen > |data| ==> r == Err(SliceOutOfRange(typeStart, typeStart + typeLen))
    ensures r.Ok? ==> typeStart + typeLen <= |data| && strStart + strLen <= |data|
    ensures r.Ok? ==> |r.value| >= 1 && r.value[0].Void?
    ensures r.Ok? ==> (LoadTypes(style, data[strStart..strStart + strLen], data[typeStart..typeStart + typeLen], e)
                       == Ok(r.value[1..]))
    ensures typeStart + typeLen <= |data| && strStart + strLen > |data| ==>
      r == Err(SliceOutOfRange(strStart, strStart + strLen))
    ensures typeStart + typeLen <= |data| && strStart + strLen <= |data| ==>
      var lt := LoadTypes(style, data[strStart..strStart + strLen], data[typeStart..typeStart + typeLen], e);
      && (lt.Ok? ==> r == Ok([Void] + lt.value))
      && (lt.Err? ==> r == Err(lt.error))
  {
    match Slice(data, typeStart, typeLen)
    case Err(err) => Err(err)
    case Ok(section) =>
      match Slice(data, strStart, strLen)
      case Err(err) => Err(err)
      case Ok(strs) =>
        match LoadTypes(style, strs, section, e)
        case Err(err) => Err(err)
        case Ok(ts) =>
          assert ([Void] + ts)[1..] == ts;
          Ok([Void] + ts)
  }

  /**
   * The walk over the type section: the records cover it exactly, none is
   * Void, and each is what `load_type` decodes where the previous one ends.
   */
  function LoadTypes(style: Style, strs: seq<byte>, section: seq<byte>, e: Endian): (r: Result<seq<LegacyType>, LoadError>)
    ensures r.Ok? ==> SectionWalk.SumOf(TypeSize, r.value) == |section|
    ensures r.Ok? ==> forall i | 0 <= i < |r.value| :: !r.value[i].Void?
    ensures r.Ok? ==> SectionWalk.RecordsFrom(Decoder(style, strs, e), TypeSize, section, 0, r.value)
    ensures r.Err? ==> exists at | 0 <= at < |section| :: LoadType(style, section[at..], strs, e) == Err(r.error)
    ensures forall ts | Splits(style, strs, section, e, ts) :: r == Ok(ts)
    ensures r.Ok? <==> exists ts :: Splits(style, strs, section, e, ts)
    ensures r.Ok? ==> Splits(style, strs, section, e, r.value)
  {
    LoadTypeAdvances(style, strs, e);
    WalkSplits(style, strs, section, e);
    SectionWalk.WalkFrom(Decoder(style, strs, e), TypeSize, section, 0)
  }

  /** The records `ts` cover the type section back to back, each decoded where the previous one ends. */
  predicate Splits(style: Style, strs: seq<byte>, section: seq<byte>, e: Endian, ts: seq<LegacyType>) {
    SectionWalk.RecordsFrom(Decoder(style, strs, e), TypeSize, section, 0, ts)
  }

  /** The walk over a section finds the one split it has, and succeeds only on a split. */
  lemma WalkSplits(style: Style, strs: seq<byte>, section: seq<byte>, e: Endian)
    requires SectionWalk.Advances(Decoder(style, strs, e), TypeSize)
    ensures forall ts | Splits(style, strs, section, e, ts) ::
      SectionWalk.WalkFrom(Decoder(style, strs, e), TypeSize, section, 0) == Ok(ts)
    ensures SectionWalk.WalkFrom(Decoder(style, strs, e), TypeSize, section, 0).Ok? ==>
      Splits(style, strs, section, e, SectionWalk.WalkFrom(Decoder(style, strs, e), TypeSize, section, 0).value)
  {
    forall ts | Splits(style, strs, section, e, ts)
      ensures SectionWalk.WalkFrom(Decoder(style, strs, e), TypeSize, section, 0) == Ok(ts)
    {
      SectionWalk.WalkFromUnique(Decoder(style, strs, e), TypeSize, section, 0, ts);
    }
  }

  /**
   * The bytes of a well-formed `.BTF` section for these loaders: a header
   * that reads and checks, both sections (found 24 bytes + offset in)
   * inside the data, and a type section that splits into the records `ts`.
   */
  predicate LaidOut(style: Style, data: seq<byte>, e: Endian, ts: seq<LegacyType>) {
    && ReadHeader(data, e).Ok? && CheckHeader(ReadHeader(data, e).value).Ok?
    && var h := ReadHeader(data, e).value;
       SectionsLaidOut(style, data, TypeSectionStart(h), h.typeLen, StrSectionStart(h), h.strLen, e, ts)
  }

  /** Both sections lie inside the data and the type section splits into the records `ts`. */
  predicate SectionsLaidOut(style: Style, data: seq<byte>, typeStart: nat, typeLen: nat, strStart: nat, strLen: nat,
                            e: Endian, ts: seq<LegacyType>) {
    && typeStart + typeLen <= |data| && strStart + strLen <= |data|
    && Splits(style, data[strStart..strStart + strLen], data[typeStart..typeStart + typeLen], e, ts)
  }

  /** Sections inside the data whose type section splits into `ts` load as Void, then `ts`. */
  lemma SectionsLoad(style: Style, data: seq<byte>, typeStart: nat, typeLen: nat, strStart: nat, strLen: nat, e: Endian,
                     ts: seq<LegacyType>)
    requires SectionsLaidOut(style, data, typeStart, typeLen, strStart, strLen, e, ts)
    ensures LoadSections(style, data, typeStart, typeLen, strStart, strLen, e) == Ok([Void] + ts)
  {
    assert LoadTypes(style, data[strStart..strStart + strLen], data[typeStart..typeStart + typeLen], e) == Ok(ts);
  }

  /** Sections that load are laid out as the records after Void. */
  lemma SectionsLoaded(style: Style, data: seq<byte>, typeStart: nat, typeLen: nat, strStart: nat, strLen: nat, e: Endian)
    requires LoadSections(style, data, typeStart, typeLen, strStart, strLen, e).Ok?
    ensures SectionsLaidOut(style, data, typeStart, typeLen, strStart, strLen, e,
                            LoadSections(style, data, typeStart, typeLen, strStart, strLen, e).value[1..])
  {
  }

  /** Past a header that reads and checks, the load is the load of the sections it locates. */
  lemma HeaderChecked(style: Style, data: seq<byte>, e: Endian)
    requires ReadHeader(data, e).Ok? && CheckHeader(ReadHeader(data, e).value).Ok?
    ensures var h := ReadHeader(data, e).value;
      Load(style, data, e) == LoadSections(style, data, TypeSectionStart(h), h.typeLen, StrSectionStart(h), h.strLen, e)
  {
  }

  /** A well-formed `.BTF` section loads: Void, then the records of its type section. */
  lemma LoadLoads(style: Style, data: seq<byte>, e: Endian, ts: seq<LegacyType>)
    requires LaidOut(style, data, e, ts)
    ensures Load(style, data, e) == Ok([Void] + ts)
  {
    var h := ReadHeader(data, e).value;
    HeaderChecked(style, data, e);
    SectionsLoad(style, data, TypeSectionStart(h), h.typeLen, StrSectionStart(h), h.strLen, e, ts);
  }

  /** `Btf::load` succeeds exactly on a well-formed `.BTF` section, and then gives Void and its records. */
  lemma LoadOk(style: Style, data: seq<byte>, e: Endian)
    ensures Load(style, data, e).Ok? <==> exists ts :: LaidOut(style, data, e, ts)
    ensures Load(style, data, e).Ok? ==> LaidOut(style, data, e, Load(style, data, e).value[1..])
  {
    var r := Load(style, data, e);
    if r.Ok? {
      var h := ReadHeader(data, e).value;
      HeaderChecked(style, data, e);
      SectionsLoaded(style, data, TypeSectionStart(h), h.typeLen, StrSectionStart(h), h.strLen, e);
      assert LaidOut(style, data, e, r.value[1..]);
    } else {
      forall ts | LaidOut(style, data, e, ts) ensures false {
        LoadLoads(style, data, e, ts);
      }
    }
  }

  // ---------------------------------------------------------------------------
  // Where the earlier loaders part from src/types.rs
  // ---------------------------------------------------------------------------

  /**
   * The sections are found `size_of::<btf_header>()` bytes in, whatever the
   * header's own length: with a header longer than 24 bytes, a section whose
   * offset is smaller than the excess starts inside the header, while
   * src/types.rs starts it after the whole header.
   */
  lemma SectionStartIgnoresHdrLen(h: Header)
    requires h.hdrLen + h.typeOff < TWO_32
    ensures TypeSectionStart(h) == TL.TypeSectionStart(h) <==> h.hdrLen == HEADER_SIZE
    ensures h.hdrLen > HEADER_SIZE + h.typeOff ==> TypeSectionStart(h) < h.hdrLen <= TL.TypeSectionStart(h)
  {
  }

  /**
   * In a `.BTF` section laid out as src/types.rs expects it (the 24 header
   * bytes, the rest of a `hdr_len`-byte header, then the body the offsets
   * count from), a type offset smaller than the header's excess makes these
   * loaders cut the type section out of the header itself: its first byte is
   * a header byte, not the body's byte at that offset.
   */
  lemma SectionReadsHeaderPadding(h: Header, pad: seq<byte>, body: seq<byte>, e: Endian)
    requires h.hdrLen == HEADER_SIZE + |pad| && h.typeOff < |pad| && h.typeLen >= 1
    requires h.typeOff + h.typeLen <= |body|
    ensures var data := EncodeHeader(h, e) + pad + body;
      && ReadHeader(data, e) == Ok(h)
      && Slice(data, TypeSectionStart(h), h.typeLen).Ok?
      && Slice(data, TypeSectionStart(h), h.typeLen).value[0] == pad[h.typeOff]
  {
    var data := EncodeHeader(h, e) + pad + body;
    HeaderRoundTrip(h, pad + body, e);
    assert data == EncodeHeader(h, e) + (pad + body);
    assert data[HEADER_SIZE + h.typeOff] == pad[h.typeOff];
  }

  /** The 12 bytes of a nameless forward declaration (kind 7) with its kind flag set. */
  function FwdRecord(e: Endian): (r: seq<byte>)
    ensures |r| == TL.COMMON
  {
    EncodeU32(0, e) + EncodeU32(EncodeInfo(0, 7, true), e) + EncodeU32(0, e)
  }

  /** The three words of `FwdRecord`, and the empty name at offset 0 of a one-byte string table. */
  lemma FwdRecordWords(e: Endian)
    ensures TL.InfoOf(FwdRecord(e), e) == EncodeInfo(0, 7, true)
    ensures ReadU32(FwdRecord(e), 0, e) == Ok(0) && ReadU32(FwdRecord(e), 8, e) == Ok(0)
    ensures KindCode(EncodeInfo(0, 7, true)) == 7 && GetKind(EncodeInfo(0, 7, true))
    ensures Wire.GetKind(EncodeInfo(0, 7, true)) == 7 && GetKindFlag(EncodeInfo(0, 7, true))
    ensures GetBtfStr([0], 0) == Ok([])
  {
    FwdRecordReads(e);
    FwdInfoFields();
    StrTableRoundTrip([], [], []);
    assert [] + [] + [0] + [] == [0 as byte];
  }

  /** The words at offsets 0, 4 and 8 of `FwdRecord`. */
  lemma FwdRecordReads(e: Endian)
    ensures ReadU32(FwdRecord(e), 0, e) == Ok(0) && ReadU32(FwdRecord(e), 8, e) == Ok(0)
    ensures ReadU32(FwdRecord(e), 4, e) == Ok(EncodeInfo(0, 7, true))
  {
    var d := FwdRecord(e);
    var info := EncodeInfo(0, 7, true);
    assert d[0..4] == EncodeU32(0, e);
    assert d[4..8] == EncodeU32(info, e);
    assert d[8..12] == EncodeU32(0, e);
    ReadEncodedU32(d, 0, 0, e);
    ReadEncodedU32(d, 4, info, e);
    ReadEncodedU32(d, 8, 0, e);
  }

  /** The fields of the info word of `FwdRecord`, as each decoder reads them. */
  lemma FwdInfoFields()
    ensures KindCode(EncodeInfo(0, 7, true)) == 7 && GetKind(EncodeInfo(0, 7, true))
    ensures Wire.GetKind(EncodeInfo(0, 7, true)) == 7 && GetKindFlag(EncodeInfo(0, 7, true))
  {
    InfoRoundTrip(0, 7, true);
    GetKindReadsFlag(0, 7, true);
  }

  /** src/btf.rs reads the flagged forward declaration as a union. */
  lemma FwdFlagBtfRs(e: Endian)
    ensures LoadType(BtfRs, FwdRecord(e), [0], e) == Ok(Fwd([], FwdUnion))
  {
    FwdRecordWords(e);
  }

  /** src/lib.rs reads the same record as a struct. */
  lemma FwdFlagLibRs(e: Endian)
    ensures LoadType(LibRs, FwdRecord(e), [0], e) == Ok(Fwd([], FwdStruct))
  {
    FwdRecordWords(e);
  }

  /** src/types.rs reads it as a union, as src/btf.rs does. */
  lemma FwdFlagTypesRs(e: Endian)
    ensures TL.LoadType(FwdRecord(e), [0], e) == Ok(Types.Fwd([], FwdUnion))
  {
    FwdRecordWords(e);
    assert Kinds.FromCode(7) == Some(Kinds.Fwd);
  }
}

=== FILE: name_index.dfy ===
/**
 * `BtfIndex` of src/btf_index.rs: a multimap from type name to the ids of the
 * types carrying that name, built in one pass over the table.
 */
module NameIndex {
  import opened Records
  import opened Types

  /** The name index: each name present in the table maps to its ids. */
  type Index = map<Str, seq<nat>>

  /** The name of every type, in id order (`BtfType::name`, empty for the nameless kinds). */
  function NamesOf(types: seq<BtfType>): (r: seq<Str>)
    ensures |r| == |types| && forall i | 0 <= i < |types| :: r[i] == types[i].Name()
  {
    seq(|types|, i requires 0 <= i < |types| => types[i].Name())
  }

  /** Reference definition: the ids below k whose name is n, in id order. */
  function IdsNamedBelow(names: seq<Str>, n: Str, k: nat): seq<nat>
    requires k <= |names|
    decreases k
  {
    if k == 0 then []
    else IdsNamedBelow(names, n, k - 1) + (if names[k - 1] == n then [k - 1] else [])
  }

  function IdsNamed(names: seq<Str>, n: Str): seq<nat> {
    IdsNamedBelow(names, n, |names|)
  }

  /** The names that occur among the first k ids. */
  function NamesBelow(names: seq<Str>, k: nat): set<Str>
    requires k <= |names|
  {
    set j | 0 <= j < k :: names[j]
  }

  /** `idx` indexes the first i names: exactly those names as keys, each with its ids below i. */
  predicate IndexesBelow(idx: Index, names: seq<Str>, i: nat)
    requires i <= |names|
  {
    idx.Keys == NamesBelow(names, i)
    && forall n | n in idx :: idx[n] == IdsNamedBelow(names, n, i)
  }

  /** `idx` is the index of the table: exactly its names as keys, each with its ids. */
  predicate IsIndexOf(idx: Index, types: seq<BtfType>) {
    IndexesBelow(idx, NamesOf(types), |types|)
  }

  /** The reference list names exactly the ids of name n below k, strictly ascending. */
  lemma {:induction false} IdsNamedBelowSpec(names: seq<Str>, n: Str, k: nat)
    requires k <= |names|
    ensures forall x | x in IdsNamedBelow(names, n, k) :: x < k && names[x] == n
    ensures forall i | 0 <= i < k && names[i] == n :: i in IdsNamedBelow(names, n, k)
    ensures forall a, b | 0 <= a < b < |IdsNamedBelow(names, n, k)| ::
      IdsNamedBelow(names, n, k)[a] < IdsNamedBelow(names, n, k)[b]
    decreases k
  {
    if k > 0 {
      IdsNamedBelowSpec(names, n, k - 1);
      var prev := IdsNamedBelow(names, n, k - 1);
      var r := IdsNamedBelow(names, n, k);
      if names[k - 1] == n {
        assert r == prev + [k - 1];
        forall a, b | 0 <= a < b < |r| ensures r[a] < r[b] {
          if b == |r| - 1 {
            assert r[a] == prev[a] && prev[a] in prev;
          } else {
            assert r[a] == prev[a] && r[b] == prev[b];
          }
        }
      } else {
        assert r == prev;
      }
    }
  }

  /** A name that does not occur below k has no ids below k. */
  lemma {:induction false} AbsentNameNoIds(names: seq<Str>, n: Str, k: nat)
    requires k <= |names| && n !in NamesBelow(names, k)
    ensures IdsNamedBelow(names, n, k) == []
    decreases k
  {
    if k > 0 {
      assert names[k - 1] in NamesBelow(names, k);
      assert NamesBelow(names, k - 1) <= NamesBelow(names, k);
      AbsentNameNoIds(names, n, k - 1);
    }
  }

  /** One step of `BtfIndex::new`: id i goes at the end of the list of its name. */
  function Push(idx: Index, names: seq<Str>, i: nat): Index
    requires i < |names|
  {
    var n := names[i];
    idx[n := (if n in idx then idx[n] else []) + [i]]
  }

  /** The empty map indexes no names. */
  lemma EmptyIndexesNone(names: seq<Str>)
    ensures IndexesBelow(map[], names, 0)
  {
    assert NamesBelow(names, 0) == {};
  }

  /** Appending id i to the list of its name extends the index of the first i names by name i. */
  lemma PushStep(idx: Index, names: seq<Str>, i: nat)
    requires i < |names| && IndexesBelow(idx, names, i)
    ensures IndexesBelow(Push(idx, names, i), names, i + 1)
  {
    var n := names[i];
    var prev := if n in idx then idx[n] else [];
    if n !in idx {
      AbsentNameNoIds(names, n, i);
    }
    assert prev == IdsNamedBelow(names, n, i);
    var idx' := Push(idx, names, i);
    assert idx' == idx[n := prev + [i]];
    forall m | m in idx' ensures idx'[m] == IdsNamedBelow(names, m, i + 1) {
      if m == n {
        assert idx'[m] == prev + [i];
      } else {
        assert m in idx && idx'[m] == idx[m];
        assert IdsNamedBelow(names, m, i + 1) == IdsNamedBelow(names, m, i) + [];
      }
    }
    NamesBelowStep(names, i);
    assert idx'.Keys == idx.Keys + {n};
  }

  /** The names below i + 1 are those below i and name i. */
  lemma NamesBelowStep(names: seq<Str>, i: nat)
    requires i < |names|
    ensures NamesBelow(names, i + 1) == NamesBelow(names, i) + {names[i]}
  {
  }

  /** `BtfIndex::new`: push every id onto the list of its name, in id order. */
  method New(types: seq<BtfType>) returns (idx: Index)
    ensures IsIndexOf(idx, types)
  {
    var names := NamesOf(types);
    EmptyIndexesNone(names);
    idx := map[];
    var i: nat := 0;
    while i < |names|
      invariant i <= |names|
      invariant IndexesBelow(idx, names, i)
    {
      PushStep(idx, names, i);
      idx := Push(idx, names, i);
      i := i + 1;
    }
  }

  /** `get_by_name`: the ids recorded for the name, or none. */
  function GetByName(idx: Index, n: Str): (r: seq<nat>)
    ensures n !in idx ==> r == []
  {
    if n in idx then idx[n] else []
  }

  /**
   * Looking a name up in the index of a table gives every id of that name and
   * no other, strictly ascending; a name the table does not use gives nothing.
   */
  lemma GetByNameSpec(types: seq<BtfType>, idx: Index, n: Str)
    requires IsIndexOf(idx, types)
    ensures GetByName(idx, n) == IdsNamed(NamesOf(types), n)
    ensures forall x | x in GetByName(idx, n) :: x < |types| && types[x].Name() == n
    ensures forall i | 0 <= i < |types| && types[i].Name() == n :: i in GetByName(idx, n)
    ensures forall a, b | 0 <= a < b < |GetByName(idx, n)| :: GetByName(idx, n)[a] < GetByName(idx, n)[b]
    ensures (forall i | 0 <= i < |types| :: types[i].Name() != n) ==> GetByName(idx, n) == []
  {
    var names := NamesOf(types);
    IdsNamedBelowSpec(names, n, |names|);
    if n !in idx {
      AbsentNameNoIds(names, n, |names|);
    }
  }

  /** Void and every other kind without a name field share the bucket of the empty name. */
  lemma NamelessShareEmptyBucket(types: seq<BtfType>, idx: Index, i: nat)
    requires IsIndexOf(idx, types) && i < |types|
    requires types[i].Void? || types[i].Ptr? || types[i].Array? || types[i].Volatile?
          || types[i].Const? || types[i].Restrict? || types[i].FuncProto?
    ensures [] in idx && i in GetByName(idx, [])
  {
    assert types[i].Name() == [];
    GetByNameSpec(types, idx, []);
    assert i in GetByName(idx, []);
  }
}

=== FILE: records.dfy ===
/**
 * The per-entry records that the type records of every loader share: struct and
 * union members, enum values, function parameters and datasec variables, plus
 * the small enumerations that classify ints, forward declarations, variables and
 * functions.
 */
module Records {
  import opened Words

  /** A name read from the string table: the bytes before the terminating NUL. */
  type Str = seq<byte>

  datatype IntEncoding = NoEncoding | Signed | Char | Bool

  datatype FwdKind = FwdStruct | FwdUnion

  datatype VarKind = Static | GlobalAlloc | GlobalExtern

  datatype FuncKind = FuncUnknown | FuncStatic | FuncGlobal | FuncExtern

  /**
   * A struct or union member. `bitSize` is 0 unless the owning record has its
   * kind flag set and the member is a bit-field.
   */
  datatype Member = Member(name: Str, typeId: u32, bitOffset: u32, bitSize: u8)

  /** An `i32` enumerator value. */
  datatype EnumValue = EnumValue(name: Str, value: int)

  /** An `i64` enumerator value. */
  datatype Enum64Value = Enum64Value(name: Str, value: int)

  datatype FuncParam = FuncParam(name: Str, typeId: u32)

  datatype DatasecVar = DatasecVar(typeId: u32, offset: u32, sz: u32)
}

=== FILE: relocate.dfy ===
/**
 * The driver of src/relocator.rs (`Relocator::new` and `relocate`): every
 * field relocation record of the local table is matched against the target
 * types of the same name; all target types that accept the local access must
 * agree on the byte offset it denotes. A local type id that matched before is
 * matched again only against the target ids it matched then (`type_map`).
 */
module Relocate {
  import opened Wrappers
  import opened Words
  import opened Records
  import opened Types
  import opened NameIndex
  import opened Relocator

  /** A field relocation record: a local type id and its access spec. */
  datatype FieldReloc = FieldReloc(typeId: nat, spec: seq<nat>)

  /** A resolved relocation: where it came from, and the local and target offsets and specs. */
  datatype Reloc = Reloc(
    secId: nat, relocId: nat,
    localTypeId: nat, localOffset: u32, localSpec: seq<nat>,
    targTypeId: nat, targOffset: u32, targSpec: seq<nat>)

  /** The first target type that matched: its id, offset and spec. */
  datatype Found = Found(id: nat, off: u32, spec: seq<nat>)

  /**
   * What trying one candidate gives: no match (`calc_targ_spec` failed, which
   * the loop skips), a fatal error (a cycle, or `calc_off` failing on the
   * target spec), or a hit with the target spec and offset.
   */
  datatype Outcome = NoMatch | Fatal(error: RelocError) | Hit(spec: seq<nat>, off: u32)

  // ---------------------------------------------------------------------------
  // The candidate loop, over the candidates' outcomes
  // ---------------------------------------------------------------------------

  /** Reference definition: the ids whose outcome is a hit, in order. */
  function Hits(ids: seq<nat>, outs: seq<Outcome>): (r: seq<nat>)
    requires |ids| == |outs|
    ensures forall x | x in r :: x in ids
  {
    if |ids| == 0 then []
    else (if outs[0].Hit? then [ids[0]] else []) + Hits(ids[1..], outs[1..])
  }

  /** Reference definition: the first hit, if any. */
  function FirstHit(ids: seq<nat>, outs: seq<Outcome>): Option<Found>
    requires |ids| == |outs|
  {
    if |ids| == 0 then None
    else if outs[0].Hit? then Some(Found(ids[0], outs[0].off, outs[0].spec))
    else FirstHit(ids[1..], outs[1..])
  }

  /** No outcome is fatal. */
  predicate NoFatal(outs: seq<Outcome>) {
    forall k | 0 <= k < |outs| :: !outs[k].Fatal?
  }

  /** Every hit denotes offset `off`. */
  predicate HitsAt(outs: seq<Outcome>, off: u32) {
    forall k | 0 <= k < |outs| :: outs[k].Hit? ==> outs[k].off == off
  }

  /**
   * When the loop succeeds: nothing is fatal and every hit agrees with the
   * match already found, or else with the first hit.
   */
  predicate ScanSucceeds(ids: seq<nat>, outs: seq<Outcome>, found: Option<Found>)
    requires |ids| == |outs|
  {
    && NoFatal(outs)
    && var f := if found.Some? then found else FirstHit(ids, outs);
       f.None? || HitsAt(outs, f.value.off)
  }

  /**
   * The candidate loop of `relocate`: a candidate that does not match is
   * skipped, a fatal outcome ends the relocation, a hit whose offset differs
   * from the first match's is an ambiguity. `found` is the first match so far
   * and `matched` the ids matched so far.
   */
  function Scan(ids: seq<nat>, outs: seq<Outcome>, found: Option<Found>, matched: seq<nat>)
    : (r: Result<(Option<Found>, seq<nat>), RelocError>)
    requires |ids| == |outs|
    ensures r.Ok? ==> forall x | x in r.value.1 :: x in matched || x in ids
    ensures r.Ok? && found.Some? ==> r.value.0 == found
    ensures r.Ok? && r.value.0.Some? && found.None? ==>
      exists k | 0 <= k < |ids| :: ids[k] == r.value.0.value.id && outs[k] == Hit(r.value.0.value.spec, r.value.0.value.off)
    ensures r.Err? ==>
      || Fatal(r.error) in outs
      || (&& r.error.Ambiguous? && r.error.otherOff != r.error.firstOff
          && exists k | 0 <= k < |ids| :: ids[k] == r.error.otherId && outs[k].Hit? && outs[k].off == r.error.otherOff)
    decreases |ids|
  {
    if |ids| == 0 then Ok((found, matched))
    else
      match outs[0]
      case NoMatch => Scan(ids[1..], outs[1..], found, matched)
      case Fatal(e) => Err(e)
      case Hit(spec, off) =>
        if found.Some? && off != found.value.off then Err(Ambiguous(found.value.id, found.value.off, ids[0], off))
        else
          var next := if found.Some? then found else Some(Found(ids[0], off, spec));
          Scan(ids[1..], outs[1..], next, matched + [ids[0]])
  }

  lemma SplitHead(ids: seq<nat>, outs: seq<Outcome>)
    requires |ids| == |outs| > 0
    ensures NoFatal(outs) <==> !outs[0].Fatal? && NoFatal(outs[1..])
    ensures forall off: u32 :: HitsAt(outs, off) <==> (outs[0].Hit? ==> outs[0].off == off) && HitsAt(outs[1..], off)
  {
    assert forall k | 0 <= k < |outs| - 1 :: outs[1..][k] == outs[k + 1];
    assert forall k | 1 <= k < |outs| :: outs[k] == outs[1..][k - 1];
  }

  /**
   * The loop succeeds exactly when nothing is fatal and all hits agree on the
   * offset; it then reports the match already found or else the first hit,
   * and the ids of all hits, in candidate order.
   */
  lemma {:induction false} ScanSpec(ids: seq<nat>, outs: seq<Outcome>, found: Option<Found>, matched: seq<nat>)
    requires |ids| == |outs|
    ensures Scan(ids, outs, found, matched).Ok? <==> ScanSucceeds(ids, outs, found)
    ensures Scan(ids, outs, found, matched).Ok? ==>
      Scan(ids, outs, found, matched).value
        == (if found.Some? then found else FirstHit(ids, outs), matched + Hits(ids, outs))
    decreases |ids|
  {
    if |ids| > 0 {
      SplitHead(ids, outs);
      match outs[0]
      case NoMatch =>
        ScanSpec(ids[1..], outs[1..], found, matched);
        assert Hits(ids, outs) == [] + Hits(ids[1..], outs[1..]) == Hits(ids[1..], outs[1..]);
      case Fatal(_) =>
      case Hit(spec, off) =>
        if found.None? || off == found.value.off {
          var next := if found.Some? then found else Some(Found(ids[0], off, spec));
          ScanSpec(ids[1..], outs[1..], next, matched + [ids[0]]);
          assert matched + ([ids[0]] + Hits(ids[1..], outs[1..])) == (matched + [ids[0]]) + Hits(ids[1..], outs[1..]);
        }
    } else {
      assert matched + [] == matched;
    }
  }

  // ---------------------------------------------------------------------------
  // Candidates of one record
  // ---------------------------------------------------------------------------

  /** What the loop needs of the tables and the local accessors. */
  predicate AccessPre(lb: Btf, tb: Btf, acc: seq<Accessor>) {
    Valid(lb) && Valid(tb) && WellFormed(lb, acc) && |acc| >= 1
  }

  /**
   * Trying candidate `id`: `calc_targ_spec`, then `calc_off` on the target
   * spec. Only a cycle is fatal in the first; every error is fatal in the second.
   */
  function CandidateOutcome(lb: Btf, tb: Btf, acc: seq<Accessor>, id: nat): (o: Outcome)
    requires AccessPre(lb, tb, acc) && id < |tb.types|
    ensures o.Hit? <==> CalcTargSpec(lb, tb, acc, id).Ok? && CalcOff(tb, id, CalcTargSpec(lb, tb, acc, id).value).Ok?
    ensures o.Hit? ==> CalcTargSpec(lb, tb, acc, id) == Ok(o.spec) && CalcOff(tb, id, o.spec) == Ok(o.off)
    ensures o.NoMatch? <==> CalcTargSpec(lb, tb, acc, id).Err? && CalcTargSpec(lb, tb, acc, id).error != Diverges
    ensures o.Fatal? ==> OffError(o.error)
  {
    match CalcTargSpec(lb, tb, acc, id)
    case Err(e) => if e == Diverges then Fatal(Diverges) else NoMatch
    case Ok(spec) =>
      match CalcOff(tb, id, spec)
      case Err(e) => Fatal(e)
      case Ok(off) => Hit(spec, off)
  }

  function Outcomes(lb: Btf, tb: Btf, acc: seq<Accessor>, cands: seq<nat>): (r: seq<Outcome>)
    requires AccessPre(lb, tb, acc) && forall k | 0 <= k < |cands| :: cands[k] < |tb.types|
    ensures |r| == |cands| && forall k | 0 <= k < |cands| :: r[k] == CandidateOutcome(lb, tb, acc, cands[k])
  {
    seq(|cands|, k requires 0 <= k < |cands| => CandidateOutcome(lb, tb, acc, cands[k]))
  }

  /** `type_map`: for a local type id, the target ids it matched before. */
  type TypeMap = map<nat, seq<nat>>

  /** Every cached target id is in range and carries the name of its local type. */
  predicate TypeMapOk(lb: Btf, tb: Btf, tm: TypeMap) {
    forall t | t in tm :: t < |lb.types| && forall x | x in tm[t] :: x < |tb.types| && tb.types[x].Name() == lb.types[t].Name()
  }

  /** The candidates for local type t: the cached matches, else every target type of its name. */
  function Candidates(lb: Btf, idx: Index, tm: TypeMap, t: nat): seq<nat>
    requires t < |lb.types|
  {
    if t in tm then tm[t] else GetByName(idx, lb.types[t].Name())
  }

  /** Every candidate is a target type named like the local type. */
  lemma CandidatesNamed(lb: Btf, tb: Btf, idx: Index, tm: TypeMap, t: nat)
    requires IsIndexOf(idx, tb.types) && TypeMapOk(lb, tb, tm) && t < |lb.types|
    ensures forall x | x in Candidates(lb, idx, tm, t) :: x < |tb.types| && tb.types[x].Name() == lb.types[t].Name()
  {
    GetByNameSpec(tb.types, idx, lb.types[t].Name());
  }

  /** The target types named n, in id order: what the name index of the target table holds for n. */
  function Named(tb: Btf, n: Str): (r: seq<nat>)
    ensures forall x | x in r :: x < |tb.types| && tb.types[x].Name() == n
    ensures forall i | 0 <= i < |tb.types| && tb.types[i].Name() == n :: i in r
  {
    IdsNamedBelowSpec(NamesOf(tb.types), n, |tb.types|);
    IdsNamed(NamesOf(tb.types), n)
  }

  /** The candidates from the tables and the cache alone: the cached matches, else every target type of the name. */
  function Targets(lb: Btf, tb: Btf, tm: TypeMap, t: nat): (r: seq<nat>)
    requires TypeMapOk(lb, tb, tm) && t < |lb.types|
    ensures forall x | x in r :: x < |tb.types| && tb.types[x].Name() == lb.types[t].Name()
    ensures t !in tm ==> forall x | 0 <= x < |tb.types| && tb.types[x].Name() == lb.types[t].Name() :: x in r
  {
    if t in tm then tm[t] else Named(tb, lb.types[t].Name())
  }

  /** Looking the name up in the index of the target table gives the same candidates. */
  lemma CandidatesAreTargets(lb: Btf, tb: Btf, idx: Index, tm: TypeMap, t: nat)
    requires IsIndexOf(idx, tb.types) && TypeMapOk(lb, tb, tm) && t < |lb.types|
    ensures Candidates(lb, idx, tm, t) == Targets(lb, tb, tm, t)
  {
    GetByNameSpec(tb.types, idx, lb.types[t].Name());
  }

  // ---------------------------------------------------------------------------
  // One record, all records
  // ---------------------------------------------------------------------------

  /**
   * What a relocation promises: the local offset and accessors of the local
   * spec, and a target type of the same name whose target spec (from those
   * accessors) and target offset are the ones reported.
   */
  predicate RelocSound(lb: Btf, tb: Btf, x: Reloc)
    requires Valid(lb) && Valid(tb)
  {
    && x.localTypeId < |lb.types|
    && CalcOff(lb, x.localTypeId, x.localSpec) == Ok(x.localOffset)
    && TransformAccess(lb, x.localTypeId, x.localSpec).Ok?
    && x.targTypeId < |tb.types|
    && tb.types[x.targTypeId].Name() == lb.types[x.localTypeId].Name()
    && CalcTargSpec(lb, tb, TransformAccess(lb, x.localTypeId, x.localSpec).value, x.targTypeId) == Ok(x.targSpec)
    && CalcOff(tb, x.targTypeId, x.targSpec) == Ok(x.targOffset)
  }

  /**
   * The candidate loop and its verdict for one record: the first match and the
   * ids of all matches, or the loop's error, or no candidate at all.
   */
  function Resolve(lb: Btf, tb: Btf, acc: seq<Accessor>, cands: seq<nat>): (r: Result<(Found, seq<nat>), RelocError>)
    requires AccessPre(lb, tb, acc) && forall x | x in cands :: x < |tb.types|
    ensures r.Ok? ==> r.value.0.id in cands
    ensures r.Ok? ==> forall x | x in r.value.1 :: x in cands
  {
    assert forall k | 0 <= k < |cands| :: cands[k] in cands;
    var outs := Outcomes(lb, tb, acc, cands);
    match Scan(cands, outs, None, [])
    case Err(e) => Err(e)
    case Ok(res) =>
      if res.0.None? then Err(NoCandidate)
      else
        var f := res.0.value;
        var k :| 0 <= k < |cands| && cands[k] == f.id && outs[k] == Hit(f.spec, f.off);
        assert outs[k] == CandidateOutcome(lb, tb, acc, cands[k]);
        Ok((f, res.1))
  }

  /** The chosen candidate's spec and offset are the ones computed against the target. */
  lemma ResolveFound(lb: Btf, tb: Btf, acc: seq<Accessor>, cands: seq<nat>)
    requires AccessPre(lb, tb, acc) && forall x | x in cands :: x < |tb.types|
    requires Resolve(lb, tb, acc, cands).Ok?
    ensures var f := Resolve(lb, tb, acc, cands).value.0;
      CalcTargSpec(lb, tb, acc, f.id) == Ok(f.spec) && CalcOff(tb, f.id, f.spec) == Ok(f.off)
  {
    assert forall k | 0 <= k < |cands| :: cands[k] in cands;
    var outs := Outcomes(lb, tb, acc, cands);
    var res := Scan(cands, outs, None, []).value;
    var f := res.0.value;
    var k :| 0 <= k < |cands| && cands[k] == f.id && outs[k] == Hit(f.spec, f.off);
    assert outs[k] == CandidateOutcome(lb, tb, acc, cands[k]);
  }

  /** An id is among the hits exactly when one of its positions holds a hit. */
  lemma {:induction false} HitsMembers(ids: seq<nat>, outs: seq<Outcome>, x: nat)
    requires |ids| == |outs|
    ensures x in Hits(ids, outs) <==> exists k | 0 <= k < |ids| :: ids[k] == x && outs[k].Hit?
    decreases |ids|
  {
    if |ids| > 0 {
      HitsMembers(ids[1..], outs[1..], x);
      if exists k | 0 <= k < |ids| - 1 :: ids[1..][k] == x && outs[1..][k].Hit? {
        var k :| 0 <= k < |ids| - 1 && ids[1..][k] == x && outs[1..][k].Hit?;
        assert ids[k + 1] == x && outs[k + 1].Hit?;
      }
      if exists k | 0 <= k < |ids| :: ids[k] == x && outs[k].Hit? {
        var k :| 0 <= k < |ids| && ids[k] == x && outs[k].Hit?;
        if k > 0 { assert ids[1..][k - 1] == x && outs[1..][k - 1].Hit?; }
      }
    }
  }

  /** Without hits there is no first hit. */
  lemma {:induction false} NoHitNoFirst(ids: seq<nat>, outs: seq<Outcome>)
    requires |ids| == |outs|
    ensures FirstHit(ids, outs).None? <==> forall k | 0 <= k < |outs| :: !outs[k].Hit?
    decreases |ids|
  {
    if |ids| > 0 {
      NoHitNoFirst(ids[1..], outs[1..]);
      assert forall k | 0 <= k < |outs| - 1 :: outs[1..][k] == outs[k + 1];
      if !outs[0].Hit? && forall k | 0 <= k < |outs| - 1 :: !outs[1..][k].Hit? {
        forall k | 0 <= k < |outs| ensures !outs[k].Hit? {
          if k > 0 { assert outs[k] == outs[1..][k - 1]; }
        }
      }
    }
  }

  /**
   * What a resolved record promises about all candidates: every candidate
   * whose target spec succeeds denotes the reported offset, and the matched
   * ids are exactly those candidates.
   */
  lemma ResolveAgrees(lb: Btf, tb: Btf, acc: seq<Accessor>, cands: seq<nat>)
    requires AccessPre(lb, tb, acc) && forall x | x in cands :: x < |tb.types|
    requires Resolve(lb, tb, acc, cands).Ok?
    ensures forall x | x in cands && CalcTargSpec(lb, tb, acc, x).Ok? ::
      CalcOff(tb, x, CalcTargSpec(lb, tb, acc, x).value) == Ok(Resolve(lb, tb, acc, cands).value.0.off)
    ensures forall x | x in cands :: x in Resolve(lb, tb, acc, cands).value.1 <==> CalcTargSpec(lb, tb, acc, x).Ok?
  {
    assert forall k | 0 <= k < |cands| :: cands[k] in cands;
    var outs := Outcomes(lb, tb, acc, cands);
    ScanSpec(cands, outs, None, []);
    var f := Resolve(lb, tb, acc, cands).value.0;
    assert NoFatal(outs) && HitsAt(outs, f.off);
    forall x | x in cands && CalcTargSpec(lb, tb, acc, x).Ok?
      ensures CalcOff(tb, x, CalcTargSpec(lb, tb, acc, x).value) == Ok(f.off)
    {
      var k :| 0 <= k < |cands| && cands[k] == x;
      assert outs[k] == CandidateOutcome(lb, tb, acc, x);
    }
    forall x | x in cands
      ensures x in Resolve(lb, tb, acc, cands).value.1 <==> CalcTargSpec(lb, tb, acc, x).Ok?
    {
      HitsMembers(cands, outs, x);
      assert [] + Hits(cands, outs) == Hits(cands, outs);
      var k :| 0 <= k < |cands| && cands[k] == x;
      assert outs[k] == CandidateOutcome(lb, tb, acc, x);
      if CalcTargSpec(lb, tb, acc, x).Ok? {
        assert outs[k].Hit?;
      }
    }
  }

  /**
   * A record has no candidate exactly when no candidate's target spec
   * succeeds and none recurses forever.
   */
  lemma ResolveNone(lb: Btf, tb: Btf, acc: seq<Accessor>, cands: seq<nat>)
    requires AccessPre(lb, tb, acc) && forall x | x in cands :: x < |tb.types|
    ensures Resolve(lb, tb, acc, cands) == Err(NoCandidate) <==>
      forall x | x in cands :: CalcTargSpec(lb, tb, acc, x).Err? && CalcTargSpec(lb, tb, acc, x).error != Diverges
  {
    assert forall k | 0 <= k < |cands| :: cands[k] in cands;
    var outs := Outcomes(lb, tb, acc, cands);
    ScanSpec(cands, outs, None, []);
    NoHitNoFirst(cands, outs);
    var r := Scan(cands, outs, None, []);
    if r.Err? {
      assert r.error != NoCandidate by {
        if Fatal(r.error) in outs {
          var k :| 0 <= k < |outs| && outs[k] == Fatal(r.error);
          assert OffError(outs[k].error);
        }
      }
    }
    if forall x | x in cands :: CalcTargSpec(lb, tb, acc, x).Err? && CalcTargSpec(lb, tb, acc, x).error != Diverges {
      forall k | 0 <= k < |outs| ensures outs[k].NoMatch? {
        assert outs[k] == CandidateOutcome(lb, tb, acc, cands[k]);
      }
    }
    if Resolve(lb, tb, acc, cands) == Err(NoCandidate) {
      forall x | x in cands ensures CalcTargSpec(lb, tb, acc, x).Err? && CalcTargSpec(lb, tb, acc, x).error != Diverges {
        var k :| 0 <= k < |cands| && cands[k] == x;
        assert outs[k] == CandidateOutcome(lb, tb, acc, x);
        assert !outs[k].Hit? && !outs[k].Fatal?;
      }
    }
  }

  /** Reference definition: the candidates whose target spec succeeds, in order. */
  function Matching(lb: Btf, tb: Btf, acc: seq<Accessor>, cands: seq<nat>): (r: seq<nat>)
    requires AccessPre(lb, tb, acc) && forall x | x in cands :: x < |tb.types|
    ensures forall x | x in r :: x in cands && CalcTargSpec(lb, tb, acc, x).Ok?
  {
    if |cands| == 0 then []
    else
      assert cands[0] in cands && forall x | x in cands[1..] :: x in cands;
      (if CalcTargSpec(lb, tb, acc, cands[0]).Ok? then [cands[0]] else []) + Matching(lb, tb, acc, cands[1..])
  }

  /**
   * With no fatal outcome, the hits are the candidates whose target spec
   * succeeds, and the first hit is the first of them.
   */
  lemma {:induction false} HitsAreMatching(lb: Btf, tb: Btf, acc: seq<Accessor>, cands: seq<nat>, outs: seq<Outcome>)
    requires AccessPre(lb, tb, acc) && forall x | x in cands :: x < |tb.types|
    requires |outs| == |cands| && NoFatal(outs)
    requires forall k | 0 <= k < |cands| :: cands[k] < |tb.types| && outs[k] == CandidateOutcome(lb, tb, acc, cands[k])
    ensures Hits(cands, outs) == Matching(lb, tb, acc, cands)
    ensures FirstHit(cands, outs).Some? ==>
      |Matching(lb, tb, acc, cands)| > 0 && FirstHit(cands, outs).value.id == Matching(lb, tb, acc, cands)[0]
    decreases |cands|
  {
    if |cands| > 0 {
      SplitHead(cands, outs);
      assert forall k | 0 <= k < |cands| - 1 :: outs[1..][k] == outs[k + 1] && cands[1..][k] == cands[k + 1];
      assert cands[0] in cands && forall x | x in cands[1..] :: x in cands;
      assert outs[0] == CandidateOutcome(lb, tb, acc, cands[0]);
      HitsAreMatching(lb, tb, acc, cands[1..], outs[1..]);
    }
  }

  /**
   * A resolved record picks the first candidate whose target spec succeeds,
   * and its matched ids are exactly the candidates whose target spec succeeds,
   * in candidate order.
   */
  lemma ResolveMatching(lb: Btf, tb: Btf, acc: seq<Accessor>, cands: seq<nat>)
    requires AccessPre(lb, tb, acc) && forall x | x in cands :: x < |tb.types|
    requires Resolve(lb, tb, acc, cands).Ok?
    ensures |Matching(lb, tb, acc, cands)| > 0
    ensures Resolve(lb, tb, acc, cands).value.0.id == Matching(lb, tb, acc, cands)[0]
    ensures Resolve(lb, tb, acc, cands).value.1 == Matching(lb, tb, acc, cands)
  {
    assert forall k | 0 <= k < |cands| :: cands[k] in cands;
    var outs := Outcomes(lb, tb, acc, cands);
    var res := Scan(cands, outs, None, []);
    assert res.Ok? && res.value.0.Some?;
    assert Resolve(lb, tb, acc, cands).value == (res.value.0.value, res.value.1);
    ScanSpec(cands, outs, None, []);
    assert NoFatal(outs);
    assert [] + Hits(cands, outs) == Hits(cands, outs);
    assert res.value == (FirstHit(cands, outs), Hits(cands, outs));
    HitsAreMatching(lb, tb, acc, cands, outs);
  }

  /**
   * One record as a function of the tables and the cache: `calc_off` on the
   * local spec, `transform_access`, then the candidate loop over the cached
   * matches or else every target type of the name. A success reports the
   * first candidate whose target spec succeeds and caches all such candidates
   * for the local type; a failure is the error of the first stage that fails.
   */
  function RelocateOne(lb: Btf, tb: Btf, tm: TypeMap, j: Job): (r: Result<(Reloc, TypeMap), RelocError>)
    requires Valid(lb) && Valid(tb) && TypeMapOk(lb, tb, tm)
    ensures j.rec.typeId >= |lb.types| || |j.rec.spec| == 0 ==> r == Err(Panic)
    ensures j.rec.typeId < |lb.types| && CalcOff(lb, j.rec.typeId, j.rec.spec).Err? ==>
      r == Err(CalcOff(lb, j.rec.typeId, j.rec.spec).error)
    ensures j.rec.typeId < |lb.types| && |j.rec.spec| > 0 ==>
      (r.Ok? <==>
        && CalcOff(lb, j.rec.typeId, j.rec.spec).Ok?
        && TransformAccess(lb, j.rec.typeId, j.rec.spec).Ok?
        && Resolve(lb, tb, TransformAccess(lb, j.rec.typeId, j.rec.spec).value, Targets(lb, tb, tm, j.rec.typeId)).Ok?)
    ensures j.rec.typeId < |lb.types| && CalcOff(lb, j.rec.typeId, j.rec.spec).Ok?
            && TransformAccess(lb, j.rec.typeId, j.rec.spec).Ok?
            && Resolve(lb, tb, TransformAccess(lb, j.rec.typeId, j.rec.spec).value, Targets(lb, tb, tm, j.rec.typeId)).Err? ==>
      r == Err(Resolve(lb, tb, TransformAccess(lb, j.rec.typeId, j.rec.spec).value, Targets(lb, tb, tm, j.rec.typeId)).error)
    ensures r.Ok? ==> FromJob(r.value.0, j) && RelocSound(lb, tb, r.value.0) && TypeMapOk(lb, tb, r.value.1)
    ensures r.Ok? ==> (
      && j.rec.typeId < |lb.types|
      && TransformAccess(lb, j.rec.typeId, j.rec.spec).Ok?
      && var m := Matching(lb, tb, TransformAccess(lb, j.rec.typeId, j.rec.spec).value, Targets(lb, tb, tm, j.rec.typeId));
         |m| > 0 && r.value.0.targTypeId == m[0] && r.value.1 == tm[j.rec.typeId := m])
  {
    var t := j.rec.typeId;
    if t >= |lb.types| then Err(Panic)
    else
      match CalcOff(lb, t, j.rec.spec)
      case Err(e) => Err(e)
      case Ok(loff) =>
        match TransformAccess(lb, t, j.rec.spec)
        case Err(e) => Err(e)
        case Ok(acc) =>
          var cands := Targets(lb, tb, tm, t);
          match Resolve(lb, tb, acc, cands)
          case Err(e) => Err(e)
          case Ok(res) =>
            ResolveFound(lb, tb, acc, cands);
            ResolveMatching(lb, tb, acc, cands);
            var f := res.0;
            Ok((Reloc(j.secId, j.relocId, t, loff, j.rec.spec, f.id, f.off, f.spec), tm[t := res.1]))
  }

  /**
   * One iteration of `relocate`'s record loop, with `type_map` before and
   * after: the local offset and accessors, then the candidates (cached or
   * looked up by name), then the scan; the matched ids are cached for the
   * local type and nothing else in the cache changes.
   */
  method RelocateRecord(lb: Btf, tb: Btf, idx: Index, tm: TypeMap, secId: nat, relocId: nat, rec: FieldReloc)
    returns (r: Result<(Reloc, TypeMap), RelocError>)
    requires Valid(lb) && Valid(tb) && IsIndexOf(idx, tb.types) && TypeMapOk(lb, tb, tm)
    ensures rec.typeId >= |lb.types| || |rec.spec| == 0 ==> r == Err(Panic)
    ensures r.Ok? ==> TypeMapOk(lb, tb, r.value.1) && RelocSound(lb, tb, r.value.0)
    ensures r.Ok? ==> var x := r.value.0;
      x.secId == secId && x.relocId == relocId && x.localTypeId == rec.typeId && x.localSpec == rec.spec
    ensures r.Ok? ==> r.value.0.targTypeId in Candidates(lb, idx, tm, rec.typeId)
    ensures r.Ok? ==> var tm' := r.value.1;
      tm'.Keys == tm.Keys + {rec.typeId} && forall t | t in tm && t != rec.typeId :: tm'[t] == tm[t]
    ensures r == RelocateOne(lb, tb, tm, Job(secId, relocId, rec))
  {
    if rec.typeId >= |lb.types| {
      return Err(Panic);
    }
    var local := CalcOff(lb, rec.typeId, rec.spec);
    if local.Err? {
      return Err(local.error);
    }
    var access := TransformAccess(lb, rec.typeId, rec.spec);
    if access.Err? {
      return Err(access.error);
    }
    var cands := Candidates(lb, idx, tm, rec.typeId);
    CandidatesNamed(lb, tb, idx, tm, rec.typeId);
    CandidatesAreTargets(lb, tb, idx, tm, rec.typeId);
    var res := Resolve(lb, tb, access.value, cands);
    if res.Err? {
      return Err(res.error);
    }
    var f := res.value.0;
    ResolveFound(lb, tb, access.value, cands);
    var tm' := tm[rec.typeId := res.value.1];
    assert TypeMapOk(lb, tb, tm');
    var x := Reloc(secId, relocId, rec.typeId, local.value, rec.spec, f.id, f.off, f.spec);
    assert RelocSound(lb, tb, x);
    r := Ok((x, tm'));
  }

  /** A record with its section number and its position in the section. */
  datatype Job = Job(secId: nat, relocId: nat, rec: FieldReloc)

  /** The records of sections s.., section by section, each numbered as `relocate` numbers it. */
  function JobsFrom(secs: seq<seq<FieldReloc>>, s: nat): (r: seq<Job>)
    requires s <= |secs|
    ensures forall k | 0 <= k < |r| ::
      s <= r[k].secId < |secs| && r[k].relocId < |secs[r[k].secId]| && r[k].rec == secs[r[k].secId][r[k].relocId]
    ensures forall i, j | s <= i < |secs| && 0 <= j < |secs[i]| :: Job(i, j, secs[i][j]) in r
    decreases |secs| - s
  {
    if s == |secs| then []
    else
      var here := seq(|secs[s]|, j requires 0 <= j < |secs[s]| => Job(s, j, secs[s][j]));
      var rest := JobsFrom(secs, s + 1);
      assert forall j | 0 <= j < |secs[s]| :: Job(s, j, secs[s][j]) == here[j];
      here + rest
  }

  function Jobs(secs: seq<seq<FieldReloc>>): seq<Job> {
    JobsFrom(secs, 0)
  }

  /** Every record of every section is numbered once in the job list, at some position. */
  lemma JobsCover(secs: seq<seq<FieldReloc>>, i: nat, j: nat) returns (k: nat)
    requires i < |secs| && j < |secs[i]|
    ensures k < |Jobs(secs)| && Jobs(secs)[k] == Job(i, j, secs[i][j])
  {
    assert Job(i, j, secs[i][j]) in JobsFrom(secs, 0);
    k :| 0 <= k < |Jobs(secs)| && Jobs(secs)[k] == Job(i, j, secs[i][j]);
  }

  /** The relocation reports the record it came from. */
  predicate FromJob(x: Reloc, j: Job) {
    x.secId == j.secId && x.relocId == j.relocId && x.localTypeId == j.rec.typeId && x.localSpec == j.rec.spec
  }

  /** Every record of every section is reported by some relocation. */
  predicate Covers(secs: seq<seq<FieldReloc>>, rs: seq<Reloc>) {
    forall i: nat, j: nat | i < |secs| && j < |secs[i]| :: Reported(rs, Job(i, j, secs[i][j]))
  }

  /** Some relocation reports the record. */
  predicate Reported(rs: seq<Reloc>, j: Job) {
    exists k | 0 <= k < |rs| :: FromJob(rs[k], j)
  }

  /** Results that follow the job list one to one report every record of every section. */
  lemma CoversRecords(secs: seq<seq<FieldReloc>>, rs: seq<Reloc>)
    requires |rs| == |Jobs(secs)| && forall k | 0 <= k < |rs| :: FromJob(rs[k], Jobs(secs)[k])
    ensures Covers(secs, rs)
  {
    forall i: nat, j: nat | i < |secs| && j < |secs[i]|
      ensures Reported(rs, Job(i, j, secs[i][j]))
    {
      var k := JobsCover(secs, i, j);
      assert FromJob(rs[k], Jobs(secs)[k]);
      assert FromJob(rs[k], Job(i, j, secs[i][j]));
    }
  }

  /** What handling one job does: the relocation and the cache after it, or the error. */
  type StepFn = (TypeMap, Job) -> Result<(Reloc, TypeMap), RelocError>

  /** `RelocateOne` on the two tables, as a step on any cache. */
  function StepOf(lb: Btf, tb: Btf): StepFn {
    (tm: TypeMap, j: Job) =>
      if Valid(lb) && Valid(tb) && TypeMapOk(lb, tb, tm) then RelocateOne(lb, tb, tm, j) else Err(Panic)
  }

  /** On a cache that keeps its invariant, the step is `RelocateOne`. */
  lemma StepOfIs(lb: Btf, tb: Btf, tm: TypeMap, j: Job)
    requires Valid(lb) && Valid(tb) && TypeMapOk(lb, tb, tm)
    ensures StepOf(lb, tb)(tm, j) == RelocateOne(lb, tb, tm, j)
  {
  }

  /**
   * The record loop of `relocate`: each job in turn, handled with the cache
   * the jobs before it left; the first job that fails ends the loop with its
   * error.
   */
  function RelocateAll(f: StepFn, tm: TypeMap, jobs: seq<Job>): (r: Result<seq<Reloc>, RelocError>)
    ensures r.Ok? ==> |r.value| == |jobs| && (|jobs| > 0 ==> f(tm, jobs[0]).Ok? && r.value[0] == f(tm, jobs[0]).value.0)
    ensures r.Err? ==> |jobs| > 0
    decreases |jobs|
  {
    if |jobs| == 0 then Ok([])
    else
      match f(tm, jobs[0])
      case Err(e) => Err(e)
      case Ok(step) =>
        match RelocateAll(f, step.1, jobs[1..])
        case Err(e) => Err(e)
        case Ok(rest) => Ok([step.0] + rest)
  }

  /**
   * Reference definition, counting forward: the cache after the first n jobs,
   * or the error of the first of them that fails.
   */
  function CacheAfter(f: StepFn, tm: TypeMap, jobs: seq<Job>, n: nat): (r: Result<TypeMap, RelocError>)
    requires n <= |jobs|
    ensures n == 0 ==> r == Ok(tm)
    ensures n > 0 && r.Ok? ==> CacheAfter(f, tm, jobs, n - 1).Ok?
    decreases n
  {
    if n == 0 then Ok(tm)
    else
      match CacheAfter(f, tm, jobs, n - 1)
      case Err(e) => Err(e)
      case Ok(c) =>
        match f(c, jobs[n - 1])
        case Err(e) => Err(e)
        case Ok(step) => Ok(step.1)
  }

  /** Running n + 1 jobs is running the first, then n more from the cache it leaves. */
  lemma {:induction false} CacheAfterShift(f: StepFn, tm: TypeMap, jobs: seq<Job>, n: nat)
    requires n < |jobs|
    ensures CacheAfter(f, tm, jobs, n + 1) ==
      match f(tm, jobs[0])
      case Err(e) => Err(e)
      case Ok(step) => CacheAfter(f, step.1, jobs[1..], n)
    decreases n
  {
    if n > 0 {
      CacheAfterShift(f, tm, jobs, n - 1);
      assert jobs[n] == jobs[1..][n - 1];
    }
  }

  /** The cache after n jobs fails only with the error of a job that fails after all jobs before it succeeded. */
  lemma {:induction false} CacheAfterFails(f: StepFn, tm: TypeMap, jobs: seq<Job>, n: nat) returns (k: nat)
    requires n <= |jobs| && CacheAfter(f, tm, jobs, n).Err?
    ensures k < n && CacheAfter(f, tm, jobs, k).Ok?
    ensures f(CacheAfter(f, tm, jobs, k).value, jobs[k]) == Err(CacheAfter(f, tm, jobs, n).error)
    decreases n
  {
    if CacheAfter(f, tm, jobs, n - 1).Err? {
      k := CacheAfterFails(f, tm, jobs, n - 1);
    } else {
      k := n - 1;
    }
  }

  /** The k-th relocation of a successful loop is the k-th job's, handled with the cache the jobs before it left. */
  lemma {:induction false} RelocateAllAt(f: StepFn, tm: TypeMap, jobs: seq<Job>, k: nat)
    requires k < |jobs| && RelocateAll(f, tm, jobs).Ok?
    ensures CacheAfter(f, tm, jobs, k).Ok? && f(CacheAfter(f, tm, jobs, k).value, jobs[k]).Ok?
    ensures RelocateAll(f, tm, jobs).value[k] == f(CacheAfter(f, tm, jobs, k).value, jobs[k]).value.0
    decreases k
  {
    if k > 0 {
      var first := f(tm, jobs[0]).value;
      var tail := jobs[1..];
      RelocateAllAt(f, first.1, tail, k - 1);
      CacheAfterShift(f, tm, jobs, k - 1);
      assert jobs[k] == tail[k - 1];
      assert RelocateAll(f, tm, jobs).value == [first.0] + RelocateAll(f, first.1, tail).value;
    }
  }

  /**
   * The record loop succeeds exactly when every job succeeds with the cache
   * the jobs before it left; its k-th relocation is then the k-th job's, and
   * a failure carries the error of the first failing job.
   */
  lemma {:induction false} RelocateAllJobByJob(f: StepFn, tm: TypeMap, jobs: seq<Job>)
    ensures RelocateAll(f, tm, jobs).Ok? <==> CacheAfter(f, tm, jobs, |jobs|).Ok?
    ensures RelocateAll(f, tm, jobs).Err? ==> RelocateAll(f, tm, jobs).error == CacheAfter(f, tm, jobs, |jobs|).error
    ensures RelocateAll(f, tm, jobs).Ok? ==> forall k | 0 <= k < |jobs| ::
      && CacheAfter(f, tm, jobs, k).Ok?
      && f(CacheAfter(f, tm, jobs, k).value, jobs[k]).Ok?
      && RelocateAll(f, tm, jobs).value[k] == f(CacheAfter(f, tm, jobs, k).value, jobs[k]).value.0
    decreases |jobs|
  {
    if |jobs| > 0 {
      CacheAfterShift(f, tm, jobs, |jobs| - 1);
      var first := f(tm, jobs[0]);
      if first.Ok? {
        RelocateAllJobByJob(f, first.value.1, jobs[1..]);
      }
      if RelocateAll(f, tm, jobs).Ok? {
        forall k | 0 <= k < |jobs|
          ensures && CacheAfter(f, tm, jobs, k).Ok?
                  && f(CacheAfter(f, tm, jobs, k).value, jobs[k]).Ok?
                  && RelocateAll(f, tm, jobs).value[k] == f(CacheAfter(f, tm, jobs, k).value, jobs[k]).value.0
        {
          RelocateAllAt(f, tm, jobs, k);
        }
      }
    }
  }

  /** A step that keeps the cache invariant. */
  ghost predicate KeepsCacheOk(lb: Btf, tb: Btf, f: StepFn) {
    forall c: TypeMap, j: Job | TypeMapOk(lb, tb, c) && f(c, j).Ok? :: TypeMapOk(lb, tb, f(c, j).value.1)
  }

  lemma StepOfKeepsCacheOk(lb: Btf, tb: Btf)
    requires Valid(lb) && Valid(tb)
    ensures KeepsCacheOk(lb, tb, StepOf(lb, tb))
  {
    forall c: TypeMap, j: Job | TypeMapOk(lb, tb, c) && StepOf(lb, tb)(c, j).Ok?
      ensures TypeMapOk(lb, tb, StepOf(lb, tb)(c, j).value.1)
    {
      StepOfIs(lb, tb, c, j);
    }
  }

  /** Every cache the jobs leave keeps the cache invariant, when each step does. */
  lemma {:induction false} CacheAfterOk(lb: Btf, tb: Btf, f: StepFn, tm: TypeMap, jobs: seq<Job>, n: nat)
    requires KeepsCacheOk(lb, tb, f) && TypeMapOk(lb, tb, tm) && n <= |jobs|
    requires CacheAfter(f, tm, jobs, n).Ok?
    ensures TypeMapOk(lb, tb, CacheAfter(f, tm, jobs, n).value)
    decreases n
  {
    if n > 0 {
      CacheAfterOk(lb, tb, f, tm, jobs, n - 1);
    }
  }

  /**
   * The record loop on the two tables reports, for every job in order, a sound
   * relocation of that job's record.
   */
  lemma RelocateAllSound(lb: Btf, tb: Btf, tm: TypeMap, jobs: seq<Job>)
    requires Valid(lb) && Valid(tb) && TypeMapOk(lb, tb, tm)
    requires RelocateAll(StepOf(lb, tb), tm, jobs).Ok?
    ensures var rs := RelocateAll(StepOf(lb, tb), tm, jobs).value;
      forall k | 0 <= k < |jobs| :: FromJob(rs[k], jobs[k]) && RelocSound(lb, tb, rs[k])
  {
    var f := StepOf(lb, tb);
    StepOfKeepsCacheOk(lb, tb);
    forall k | 0 <= k < |jobs|
      ensures FromJob(RelocateAll(f, tm, jobs).value[k], jobs[k]) && RelocSound(lb, tb, RelocateAll(f, tm, jobs).value[k])
    {
      RelocateAllAt(f, tm, jobs, k);
      CacheAfterOk(lb, tb, f, tm, jobs, k);
      StepOfIs(lb, tb, CacheAfter(f, tm, jobs, k).value, jobs[k]);
    }
  }

  /** The relocations so far in front of the result of the rest. */
  function Join(done: seq<Reloc>, rest: Result<seq<Reloc>, RelocError>): Result<seq<Reloc>, RelocError> {
    match rest
    case Err(e) => Err(e)
    case Ok(xs) => Ok(done + xs)
  }

  /** The loop from job n on: job n, then the rest from the cache it leaves. */
  lemma RelocateAllFrom(f: StepFn, tm: TypeMap, jobs: seq<Job>, n: nat)
    requires n < |jobs|
    ensures RelocateAll(f, tm, jobs[n..]) ==
      match f(tm, jobs[n])
      case Err(e) => Err(e)
      case Ok(step) => Join([step.0], RelocateAll(f, step.1, jobs[n + 1..]))
  {
    assert jobs[n..][0] == jobs[n] && jobs[n..][1..] == jobs[n + 1..];
  }

  lemma JoinNil(rest: Result<seq<Reloc>, RelocError>)
    ensures Join([], rest) == rest
  {
    if rest.Ok? {
      assert [] + rest.value == rest.value;
    }
  }

  lemma JoinAppend(done: seq<Reloc>, x: Reloc, rest: Result<seq<Reloc>, RelocError>)
    ensures Join(done, Join([x], rest)) == Join(done + [x], rest)
  {
    if rest.Ok? {
      assert done + ([x] + rest.value) == done + [x] + rest.value;
    }
  }

  /**
   * `Relocator::new` followed by `relocate`: build the name index of the
   * target table, then resolve every record of every section with an empty
   * `type_map`.
   */
  method Relocate(lb: Btf, tb: Btf, secs: seq<seq<FieldReloc>>) returns (r: Result<seq<Reloc>, RelocError>)
    requires Valid(lb) && Valid(tb)
    ensures r.Ok? ==> |r.value| == |Jobs(secs)| && forall k | 0 <= k < |r.value| :: FromJob(r.value[k], Jobs(secs)[k])
    ensures r.Ok? ==> forall x | x in r.value :: RelocSound(lb, tb, x)
    ensures r.Ok? ==> Covers(secs, r.value)
    ensures r == RelocateAll(StepOf(lb, tb), map[], Jobs(secs))
  {
    var idx := New(tb.types);
    var jobs := Jobs(secs);
    ghost var f := StepOf(lb, tb);
    var tm: TypeMap := map[];
    var out: seq<Reloc> := [];
    var n := 0;
    assert jobs[0..] == jobs;
    JoinNil(RelocateAll(f, map[], jobs));
    while n < |jobs|
      invariant n <= |jobs|
      invariant TypeMapOk(lb, tb, tm)
      invariant RelocateAll(f, map[], jobs) == Join(out, RelocateAll(f, tm, jobs[n..]))
    {
      var j := jobs[n];
      var step := RelocateRecord(lb, tb, idx, tm, j.secId, j.relocId, j.rec);
      LoopStep(lb, tb, tm, jobs, n, out, step);
      if step.Err? {
        return Err(step.error);
      }
      out := out + [step.value.0];
      tm := step.value.1;
      n := n + 1;
    }
    assert jobs[n..] == [] && out + [] == out;
    r := Ok(out);
    RelocateResult(lb, tb, secs, out);
  }

  /** One turn of the record loop of `Relocate` keeps its invariant. */
  lemma LoopStep(lb: Btf, tb: Btf, tm: TypeMap, jobs: seq<Job>, n: nat, out: seq<Reloc>,
                 step: Result<(Reloc, TypeMap), RelocError>)
    requires Valid(lb) && Valid(tb) && TypeMapOk(lb, tb, tm) && n < |jobs|
    requires step == RelocateOne(lb, tb, tm, Job(jobs[n].secId, jobs[n].relocId, jobs[n].rec))
    requires RelocateAll(StepOf(lb, tb), map[], jobs) == Join(out, RelocateAll(StepOf(lb, tb), tm, jobs[n..]))
    ensures step.Err? ==> RelocateAll(StepOf(lb, tb), map[], jobs) == Err(step.error)
    ensures step.Ok? ==> TypeMapOk(lb, tb, step.value.1)
    ensures step.Ok? ==>
      RelocateAll(StepOf(lb, tb), map[], jobs) == Join(out + [step.value.0], RelocateAll(StepOf(lb, tb), step.value.1, jobs[n + 1..]))
  {
    var f := StepOf(lb, tb);
    assert jobs[n] == Job(jobs[n].secId, jobs[n].relocId, jobs[n].rec);
    StepOfIs(lb, tb, tm, jobs[n]);
    RelocateAllFrom(f, tm, jobs, n);
    if step.Ok? {
      JoinAppend(out, step.value.0, RelocateAll(f, step.value.1, jobs[n + 1..]));
    }
  }

  /** What a successful record loop gives `Relocate`'s caller. */
  lemma RelocateResult(lb: Btf, tb: Btf, secs: seq<seq<FieldReloc>>, out: seq<Reloc>)
    requires Valid(lb) && Valid(tb) && RelocateAll(StepOf(lb, tb), map[], Jobs(secs)) == Ok(out)
    ensures |out| == |Jobs(secs)| && forall k | 0 <= k < |out| :: FromJob(out[k], Jobs(secs)[k])
    ensures forall x | x in out :: RelocSound(lb, tb, x)
    ensures Covers(secs, out)
  {
    RelocateAllSound(lb, tb, map[], Jobs(secs));
    assert forall x | x in out :: exists k | 0 <= k < |out| :: out[k] == x;
    CoversRecords(secs, out);
  }
}

=== FILE: relocator.dfy ===
/**
 * The CO-RE field relocator of src/relocator.rs. A relocation names a local
 * type and an access spec (`0:1:2`: an array index into the root, then member
 * or element indices); the relocator computes the byte offset the spec denotes
 * locally, turns the spec into accessors, and re-resolves those accessors
 * against every same-named type of the target table, by member name.
 */
module Relocator {
  import opened Wrappers
  import opened Words
  import opened Records
  import opened Types
  import K = Kinds
  import NameIndex

  /** Why a relocation step fails. */
  datatype RelocError =
    | Panic                         // a Rust panic: an index past the end of the spec, the members or the table
    | Diverges                      // the source recurses forever on a cyclic table
    | NotCompositeOrArray(at: nat)  // spec step `at` applies to something other than a struct, union or array
    | SizeUnknown(id: nat)          // `type_size` has no byte size for the record `id`
    | FirstNotArray                 // the first accessor is not an array access
    | TargetNotArray(at: nat)
    | LocalNotComposite(at: nat)
    | TargetNotComposite(at: nat)
    | FieldNotFound(at: nat)        // no target member of that name
    | IncompatibleTypes             // the first target member of that name has an incompatible kind
    | IncompatibleField(at: nat)    // the same, as reported by `calc_targ_spec` for accessor `at`
    | Ambiguous(firstId: nat, firstOff: u32, otherId: nat, otherOff: u32)
    | NoCandidate

  /** One step of an access, as `transform_access` produces it. */
  datatype Accessor =
    | FieldAccess(typeId: nat, fieldIdx: nat, fieldName: Str)
    | ArrayAccess(typeId: nat, arrIdx: nat)

  // ---------------------------------------------------------------------------
  // are_kinds_compat
  // ---------------------------------------------------------------------------

  /** A local kind matches the same target kind, and a local struct also matches a target union. */
  predicate KindsCompat(local: K.BtfKind, targ: K.BtfKind) {
    local == targ || (local == K.Struct && targ == K.Union)
  }

  /**
   * Compatibility is a partial order on kinds whose only pair of distinct
   * kinds is struct below union; in particular it is not symmetric.
   */
  lemma KindsCompatOrder()
    ensures forall k :: KindsCompat(k, k)
    ensures forall a, b, c :: KindsCompat(a, b) && KindsCompat(b, c) ==> KindsCompat(a, c)
    ensures forall a, b :: KindsCompat(a, b) && KindsCompat(b, a) ==> a == b
    ensures forall a, b :: KindsCompat(a, b) && a != b <==> a == K.Struct && b == K.Union
    ensures KindsCompat(K.Struct, K.Union) && !KindsCompat(K.Union, K.Struct)
  {
  }

  // ---------------------------------------------------------------------------
  // type_size
  // ---------------------------------------------------------------------------

  /**
   * `Relocator::type_size` allowed `fuel` nested calls through array elements;
   * `Diverges` when an array chain is longer than the fuel.
   */
  function TypeSizeWithin(b: Btf, id: nat, fuel: nat): (r: Result<u32, RelocError>)
    requires Valid(b) && id < |b.types|
    ensures r.Ok? ==> (var t := b.types[SkipModsAndTypedefs(b, id)];
                       (t.Int? && t.offset == 0 && t.bits % 8 == 0) || t.Enum? || t.Struct? || t.Union?
                       || t.Array? || t.Ptr?)
    ensures r.Err? ==> r.error == Diverges || r.error.SizeUnknown?
    decreases fuel
  {
    var s := SkipModsAndTypedefs(b, id);
    assert RefsBelow(b.types[s], |b.types|);
    match b.types[s]
    case Int(_, bits, offset, _) =>
      if offset == 0 && bits % 8 == 0 then Ok(bits / 8) else Err(SizeUnknown(s))
    case Enum(_, sz, _) => Ok(sz)
    case Struct(_, sz, _) => Ok(sz)
    case Union(_, sz, _) => Ok(sz)
    case Array(n, _, v) =>
      if fuel == 0 then Err(Diverges)
      else
        (match TypeSizeWithin(b, v, fuel - 1)
         case Err(e) => Err(e)
         case Ok(es) => Ok(Mul32(n, es)))
    case Ptr(_) => Ok(b.ptrSz)
    case _ => Err(SizeUnknown(s))
  }

  function TypeSize(b: Btf, id: nat): Result<u32, RelocError>
    requires Valid(b) && id < |b.types|
  {
    TypeSizeWithin(b, id, |b.types|)
  }

  /**
   * Wherever the relocator's `type_size` answers, it agrees with `get_size_of`:
   * the same byte size through modifiers, typedefs and arrays.
   */
  lemma {:induction false} TypeSizeAgrees(b: Btf, id: nat, fuel: nat)
    requires Valid(b) && SizeDefined(b, id)
    requires TypeSizeWithin(b, id, fuel).Ok?
    ensures TypeSizeWithin(b, id, fuel).value == GetSizeOf(b, id)
    decreases fuel
  {
    var s := SkipModsAndTypedefs(b, id);
    SizeSeesThrough(b, id, |b.types|);
    var t := b.types[s];
    if t.Array? {
      SizeOfStep(b, s);
      TypeSizeAgrees(b, t.valTypeId, fuel - 1);
    } else if t.Int? {
      var q := t.bits / 8;
      assert t.bits == 8 * q;
      assert (t.bits + 7) % TWO_32 == 8 * q + 7;
      assert (8 * q + 7) / 8 == q;
    }
  }

  // ---------------------------------------------------------------------------
  // transform_access
  // ---------------------------------------------------------------------------

  /** The member a field accessor designates exists in the table. */
  predicate FieldOk(b: Btf, a: Accessor)
    requires a.FieldAccess?
  {
    a.typeId < |b.types| && b.types[a.typeId].IsComposite() && a.fieldIdx < |b.types[a.typeId].members|
  }

  /**
   * What one spec step may contribute: nothing (an anonymous member), an array
   * accessor with the step's index, or a field accessor with the step's index
   * naming an existing, named member.
   */
  predicate StepEmits(b: Btf, out: seq<Accessor>, x: nat) {
    |out| <= 1
    && (|out| == 1 && out[0].ArrayAccess? ==> out[0].arrIdx == x && out[0].typeId < |b.types|)
    && (|out| == 1 && out[0].FieldAccess? ==>
          && out[0].fieldIdx == x && FieldOk(b, out[0])
          && out[0].fieldName == b.types[out[0].typeId].members[x].name
          && out[0].fieldName != [])
  }

  /**
   * An accessor list `calc_targ_spec` can index without panicking: every field
   * accessor names a record of the table, and a member of it when it is a
   * struct or union.
   */
  predicate WellFormed(b: Btf, acc: seq<Accessor>) {
    forall k | 0 <= k < |acc| :: acc[k].FieldAccess? ==>
      acc[k].typeId < |b.types|
      && (b.types[acc[k].typeId].IsComposite() ==> acc[k].fieldIdx < |b.types[acc[k].typeId].members|)
  }

  function Flatten(ss: seq<seq<Accessor>>): (r: seq<Accessor>)
    ensures (forall k | 0 <= k < |ss| :: |ss[k]| <= 1) ==> |r| <= |ss|
    ensures forall j | 0 <= j < |r| :: exists k | 0 <= k < |ss| :: r[j] in ss[k]
  {
    if |ss| == 0 then []
    else
      var rest := Flatten(ss[1..]);
      assert forall j | 0 <= j < |rest| :: exists k | 0 <= k < |ss| :: rest[j] in ss[k] by {
        forall j | 0 <= j < |rest| ensures exists k | 0 <= k < |ss| :: rest[j] in ss[k] {
          var k :| 0 <= k < |ss[1..]| && rest[j] in ss[1..][k];
          assert rest[j] in ss[k + 1];
        }
      }
      ss[0] + rest
  }

  /** The steps `1..` of `transform_access`, from step i on, one output list per step. */
  function TransformSteps(b: Btf, id: nat, spec: seq<nat>, i: nat): (r: Result<seq<seq<Accessor>>, RelocError>)
    requires Valid(b) && id < |b.types| && 1 <= i <= |spec|
    ensures r.Ok? ==> |r.value| == |spec| - i
    ensures r.Ok? ==> forall k | 0 <= k < |r.value| :: StepEmits(b, r.value[k], spec[i + k])
    ensures r.Err? ==> r.error == Panic || r.error.NotCompositeOrArray?
    decreases |spec| - i
  {
    if i == |spec| then Ok([])
    else
      var s := SkipModsAndTypedefs(b, id);
      var t := b.types[s];
      assert RefsBelow(t, |b.types|);
      if t.Struct? || t.Union? then
        if spec[i] >= |t.members| then Err(Panic)
        else
          var m := t.members[spec[i]];
          var next := SkipModsAndTypedefs(b, m.typeId);
          match TransformSteps(b, next, spec, i + 1)
          case Err(e) => Err(e)
          case Ok(rest) =>
            var out := if m.name != [] then [FieldAccess(s, spec[i], m.name)] else [];
            Ok([out] + rest)
      else if t.Array? then
        var next := SkipModsAndTypedefs(b, t.valTypeId);
        match TransformSteps(b, next, spec, i + 1)
        case Err(e) => Err(e)
        case Ok(rest) => Ok([[ArrayAccess(next, spec[i])]] + rest)
      else Err(NotCompositeOrArray(i))
  }

  /**
   * `transform_access`: the root becomes an array accessor holding `spec[0]`;
   * every later step through an array or a named member adds an accessor, and a
   * step through an anonymous member adds none.
   */
  function TransformAccess(b: Btf, typeId: nat, spec: seq<nat>): (r: Result<seq<Accessor>, RelocError>)
    requires Valid(b)
    ensures typeId >= |b.types| || |spec| == 0 ==> r == Err(Panic)
    ensures r.Ok? ==> typeId < |b.types| && |spec| >= 1 && 1 <= |r.value| <= |spec|
    ensures r.Ok? ==> r.value[0] == ArrayAccess(SkipModsAndTypedefs(b, typeId), spec[0])
    ensures r.Ok? ==> WellFormed(b, r.value)
  {
    if typeId >= |b.types| || |spec| == 0 then Err(Panic)
    else
      var root := SkipModsAndTypedefs(b, typeId);
      match TransformSteps(b, root, spec, 1)
      case Err(e) => Err(e)
      case Ok(steps) =>
        var acc := [ArrayAccess(root, spec[0])] + Flatten(steps);
        assert WellFormed(b, acc) by {
          forall j | 1 <= j < |acc| && acc[j].FieldAccess?
            ensures acc[j].typeId < |b.types| && b.types[acc[j].typeId].IsComposite()
              && acc[j].fieldIdx < |b.types[acc[j].typeId].members|
          {
            var k :| 0 <= k < |steps| && acc[j] in steps[k];
            assert StepEmits(b, steps[k], spec[1 + k]);
          }
        }
        Ok(acc)
  }

  // ---------------------------------------------------------------------------
  // transform_access, declaratively: the walk through the table
  // ---------------------------------------------------------------------------

  /** Spec step x can be taken at the stripped record s: an array, or a struct or union with a member x. */
  predicate StepOk(b: Btf, s: nat, x: nat)
    requires s < |b.types|
  {
    b.types[s].Array? || (b.types[s].IsComposite() && x < |b.types[s].members|)
  }

  /** Where step x leads from s, before stripping: the element type, or member x's type. */
  function StepNext(b: Btf, s: nat, x: nat): (r: nat)
    requires Valid(b) && s < |b.types| && StepOk(b, s, x)
    ensures r < |b.types|
    ensures b.types[s].Array? ==> r == b.types[s].valTypeId
    ensures b.types[s].IsComposite() ==> r == b.types[s].members[x].typeId
  {
    assert RefsBelow(b.types[s], |b.types|);
    if b.types[s].Array? then b.types[s].valTypeId else b.types[s].members[x].typeId
  }

  /**
   * The accessors step x at s contributes: an array accessor on the stripped
   * element type, a field accessor on s for a named member, nothing for an
   * anonymous member.
   */
  function StepOut(b: Btf, s: nat, x: nat): seq<Accessor>
    requires Valid(b) && s < |b.types| && StepOk(b, s, x)
  {
    if b.types[s].Array? then [ArrayAccess(SkipModsAndTypedefs(b, StepNext(b, s, x)), x)]
    else if b.types[s].members[x].name != [] then [FieldAccess(s, x, b.types[s].members[x].name)]
    else []
  }

  /**
   * ws is a path through steps i .. i + |ws| - 1 of the spec from id: its first
   * entry is id with modifiers and typedefs stripped, step i can be taken there,
   * and the rest is a path from where that step leads.
   */
  predicate Path(b: Btf, id: nat, spec: seq<nat>, i: nat, ws: seq<nat>)
    requires Valid(b) && id < |b.types|
    decreases |ws|
  {
    if |ws| == 0 then i <= |spec|
    else
      && i < |spec|
      && ws[0] == SkipModsAndTypedefs(b, id)
      && StepOk(b, ws[0], spec[i])
      && Path(b, StepNext(b, ws[0], spec[i]), spec, i + 1, ws[1..])
  }

  /** The stripped record the step after the path applies to. */
  function Reached(b: Btf, id: nat, spec: seq<nat>, i: nat, ws: seq<nat>): (r: nat)
    requires Valid(b) && id < |b.types| && Path(b, id, spec, i, ws)
    ensures r < |b.types| && !b.types[r].IsModOrTypedef()
    decreases |ws|
  {
    if |ws| == 0 then SkipModsAndTypedefs(b, id)
    else Reached(b, StepNext(b, ws[0], spec[i]), spec, i + 1, ws[1..])
  }

  /** A path stays within the spec. */
  lemma {:induction false} PathLength(b: Btf, id: nat, spec: seq<nat>, i: nat, ws: seq<nat>)
    requires Valid(b) && id < |b.types| && Path(b, id, spec, i, ws)
    ensures i + |ws| <= |spec|
    decreases |ws|
  {
    if |ws| > 0 {
      PathLength(b, StepNext(b, ws[0], spec[i]), spec, i + 1, ws[1..]);
    }
  }

  /**
   * Why step j cannot be taken at s: a member index past the end of a struct or
   * union panics; anything but an array, struct or union is rejected.
   */
  function StuckError(b: Btf, s: nat, j: nat): RelocError
    requires s < |b.types|
  {
    if b.types[s].IsComposite() then Panic else NotCompositeOrArray(j)
  }

  /** The outputs of a path's steps, one list per step. */
  function Outs(b: Btf, id: nat, spec: seq<nat>, i: nat, ws: seq<nat>): seq<seq<Accessor>>
    requires Valid(b) && id < |b.types| && Path(b, id, spec, i, ws)
    decreases |ws|
  {
    if |ws| == 0 then []
    else [StepOut(b, ws[0], spec[i])] + Outs(b, StepNext(b, ws[0], spec[i]), spec, i + 1, ws[1..])
  }

  /** The accessors the steps of a path contribute, in order. */
  function Along(b: Btf, id: nat, spec: seq<nat>, i: nat, ws: seq<nat>): seq<Accessor>
    requires Valid(b) && id < |b.types| && Path(b, id, spec, i, ws)
    decreases |ws|
  {
    if |ws| == 0 then []
    else StepOut(b, ws[0], spec[i]) + Along(b, StepNext(b, ws[0], spec[i]), spec, i + 1, ws[1..])
  }

  /** Flattening the outputs of a path's steps gives what the path contributes. */
  lemma {:induction false} FlattenAlong(b: Btf, id: nat, spec: seq<nat>, i: nat, ws: seq<nat>)
    requires Valid(b) && id < |b.types| && Path(b, id, spec, i, ws)
    ensures Flatten(Outs(b, id, spec, i, ws)) == Along(b, id, spec, i, ws)
    decreases |ws|
  {
    if |ws| > 0 {
      var next := StepNext(b, ws[0], spec[i]);
      FlattenAlong(b, next, spec, i + 1, ws[1..]);
      var os := Outs(b, id, spec, i, ws);
      assert os[1..] == Outs(b, next, spec, i + 1, ws[1..]);
    }
  }

  /** One step that can be taken: its output, then the steps from where it leads. */
  lemma TransformStepsHead(b: Btf, id: nat, spec: seq<nat>, i: nat)
    requires Valid(b) && id < |b.types| && 1 <= i < |spec|
    requires StepOk(b, SkipModsAndTypedefs(b, id), spec[i])
    ensures var s := SkipModsAndTypedefs(b, id);
      var next := SkipModsAndTypedefs(b, StepNext(b, s, spec[i]));
      TransformSteps(b, id, spec, i) ==
        match TransformSteps(b, next, spec, i + 1)
        case Err(e) => Err(e)
        case Ok(rest) => Ok([StepOut(b, s, spec[i])] + rest)
  {
  }

  /** Starting from a record or from its stripped form is the same. */
  lemma StepsSameStrip(b: Btf, id: nat, spec: seq<nat>, i: nat)
    requires Valid(b) && id < |b.types| && 1 <= i <= |spec|
    ensures TransformSteps(b, SkipModsAndTypedefs(b, id), spec, i) == TransformSteps(b, id, spec, i)
  {
    SkipIdempotent(b, id);
  }

  /**
   * `transform_access`'s steps from i on, along a path through all of them:
   * they succeed, and each step outputs exactly what the path's step contributes.
   */
  lemma {:induction false} TransformStepsWalk(b: Btf, id: nat, spec: seq<nat>, i: nat, ws: seq<nat>)
    requires Valid(b) && id < |b.types| && 1 <= i <= |spec|
    requires Path(b, id, spec, i, ws) && |ws| == |spec| - i
    ensures TransformSteps(b, id, spec, i) == Ok(Outs(b, id, spec, i, ws))
    decreases |ws|
  {
    if |ws| > 0 {
      var next := StepNext(b, ws[0], spec[i]);
      TransformStepsWalk(b, next, spec, i + 1, ws[1..]);
      StepsSameStrip(b, next, spec, i + 1);
      TransformStepsHead(b, id, spec, i);
    }
  }

  /**
   * `transform_access`'s steps from i on, along a path that stops at a step it
   * cannot take: they fail with that step's error.
   */
  lemma {:induction false} TransformStepsStuck(b: Btf, id: nat, spec: seq<nat>, i: nat, ws: seq<nat>)
    requires Valid(b) && id < |b.types| && 1 <= i && Path(b, id, spec, i, ws) && i + |ws| < |spec|
    requires !StepOk(b, Reached(b, id, spec, i, ws), spec[i + |ws|])
    ensures TransformSteps(b, id, spec, i) == Err(StuckError(b, Reached(b, id, spec, i, ws), i + |ws|))
    decreases |ws|
  {
    if |ws| > 0 {
      var next := StepNext(b, ws[0], spec[i]);
      TransformStepsStuck(b, next, spec, i + 1, ws[1..]);
      StepsSameStrip(b, next, spec, i + 1);
      TransformStepsHead(b, id, spec, i);
    }
  }

  /**
   * Every spec has a path from any record that either runs through all of the
   * steps from i on, or stops at the first step it cannot take.
   */
  lemma {:induction false} PathExists(b: Btf, id: nat, spec: seq<nat>, i: nat) returns (ws: seq<nat>)
    requires Valid(b) && id < |b.types| && i <= |spec|
    ensures Path(b, id, spec, i, ws)
    ensures |ws| == |spec| - i || (i + |ws| < |spec| && !StepOk(b, Reached(b, id, spec, i, ws), spec[i + |ws|]))
    decreases |spec| - i
  {
    var s := SkipModsAndTypedefs(b, id);
    if i == |spec| || !StepOk(b, s, spec[i]) {
      ws := [];
    } else {
      var tail := PathExists(b, StepNext(b, s, spec[i]), spec, i + 1);
      ws := [s] + tail;
      assert ws[1..] == tail;
    }
  }

  /** A path from a record is also one from any record that strips to the same one. */
  lemma PathSameStrip(b: Btf, id: nat, id2: nat, spec: seq<nat>, i: nat, ws: seq<nat>)
    requires Valid(b) && id < |b.types| && id2 < |b.types|
    requires SkipModsAndTypedefs(b, id) == SkipModsAndTypedefs(b, id2) && Path(b, id, spec, i, ws)
    ensures Path(b, id2, spec, i, ws) && Reached(b, id2, spec, i, ws) == Reached(b, id, spec, i, ws)
    ensures Outs(b, id2, spec, i, ws) == Outs(b, id, spec, i, ws)
    ensures Along(b, id2, spec, i, ws) == Along(b, id, spec, i, ws)
  {
  }

  /**
   * `transform_access` along a path through every later step: the root's array
   * accessor holding `spec[0]`, then what each step of the path contributes.
   */
  lemma TransformAccessWalk(b: Btf, typeId: nat, spec: seq<nat>, ws: seq<nat>)
    requires Valid(b) && typeId < |b.types| && |spec| >= 1
    requires Path(b, typeId, spec, 1, ws) && |ws| == |spec| - 1
    ensures TransformAccess(b, typeId, spec)
      == Ok([ArrayAccess(SkipModsAndTypedefs(b, typeId), spec[0])] + Along(b, typeId, spec, 1, ws))
  {
    var root := SkipModsAndTypedefs(b, typeId);
    StepsSameStrip(b, typeId, spec, 1);
    TransformStepsWalk(b, typeId, spec, 1, ws);
    FlattenAlong(b, typeId, spec, 1, ws);
  }

  /** `transform_access` along a path that stops at a later step: that step's error. */
  lemma TransformAccessStuck(b: Btf, typeId: nat, spec: seq<nat>, ws: seq<nat>)
    requires Valid(b) && typeId < |b.types| && |spec| >= 1
    requires Path(b, typeId, spec, 1, ws) && 1 + |ws| < |spec|
    requires !StepOk(b, Reached(b, typeId, spec, 1, ws), spec[1 + |ws|])
    ensures TransformAccess(b, typeId, spec) == Err(StuckError(b, Reached(b, typeId, spec, 1, ws), 1 + |ws|))
  {
    StepsSameStrip(b, typeId, spec, 1);
    TransformStepsStuck(b, typeId, spec, 1, ws);
  }

  /** `transform_access` succeeds exactly when the spec walks from the root through every later step. */
  lemma TransformAccessOk(b: Btf, typeId: nat, spec: seq<nat>)
    requires Valid(b)
    ensures TransformAccess(b, typeId, spec).Ok? <==>
      typeId < |b.types| && |spec| >= 1 && exists ws :: Path(b, typeId, spec, 1, ws) && |ws| == |spec| - 1
  {
    if typeId < |b.types| && |spec| >= 1 {
      var ws := PathExists(b, typeId, spec, 1);
      if |ws| == |spec| - 1 {
        TransformAccessWalk(b, typeId, spec, ws);
      } else {
        TransformAccessStuck(b, typeId, spec, ws);
        forall ws' | Path(b, typeId, spec, 1, ws') ensures |ws'| != |spec| - 1 {
          if |ws'| == |spec| - 1 {
            TransformAccessWalk(b, typeId, spec, ws');
          }
        }
      }
    }
  }

  // ---------------------------------------------------------------------------
  // calc_off
  // ---------------------------------------------------------------------------

  /**
   * The loop of `calc_off` from step i on, with the offset so far: a member
   * step adds `bit_offset / 8`, an array step adds index × element size, all in
   * wrapping `u32` arithmetic (the index is first truncated to `u32`).
   */
  function CalcOffFrom(b: Btf, id: nat, spec: seq<nat>, i: nat, off: u32): (r: Result<u32, RelocError>)
    requires Valid(b) && id < |b.types| && 1 <= i <= |spec|
    ensures r.Err? ==> OffError(r.error)
    decreases |spec| - i
  {
    if i == |spec| then Ok(off)
    else
      var s := SkipModsAndTypedefs(b, id);
      var t := b.types[s];
      assert RefsBelow(t, |b.types|);
      if t.Struct? || t.Union? then
        if spec[i] >= |t.members| then Err(Panic)
        else
          var m := t.members[spec[i]];
          CalcOffFrom(b, m.typeId, spec, i + 1, Add32(off, m.bitOffset / 8))
      else if t.Array? then
        match TypeSize(b, t.valTypeId)
        case Err(e) => Err(e)
        case Ok(es) => CalcOffFrom(b, t.valTypeId, spec, i + 1, Add32(off, Mul32(spec[i] % TWO_32, es)))
      else Err(NotCompositeOrArray(i))
  }

  /** The ways `calc_off` can fail: a panic, a cycle, an unsized element or root, a step into a scalar. */
  predicate OffError(e: RelocError) {
    e.Panic? || e.Diverges? || e.SizeUnknown? || e.NotCompositeOrArray?
  }

  /** `calc_off`: `spec[0]` × size of the root, then the steps. */
  function CalcOff(b: Btf, typeId: nat, spec: seq<nat>): (r: Result<u32, RelocError>)
    requires Valid(b)
    ensures typeId >= |b.types| || |spec| == 0 ==> r == Err(Panic)
    ensures r.Err? ==> OffError(r.error)
    ensures typeId < |b.types| && |spec| >= 1 ==>
      var root := SkipModsAndTypedefs(b, typeId);
      && (r.Ok? <==> TypeSize(b, root).Ok? && OffsetTerms(b, root, spec, 1).Ok?)
      && (r.Ok? ==> r.value == ((spec[0] % TWO_32) * TypeSize(b, root).value + Sum(OffsetTerms(b, root, spec, 1).value)) % TWO_32)
  {
    if typeId >= |b.types| || |spec| == 0 then Err(Panic)
    else
      var root := SkipModsAndTypedefs(b, typeId);
      match TypeSize(b, root)
      case Err(e) => Err(e)
      case Ok(sz) =>
        var first := Mul32(spec[0] % TWO_32, sz);
        CalcOffFromSum(b, root, spec, 1, first);
        if OffsetTerms(b, root, spec, 1).Err? then CalcOffFrom(b, root, spec, 1, first)
        else
          MulWrapSum(spec[0] % TWO_32, sz, Sum(OffsetTerms(b, root, spec, 1).value));
          CalcOffFrom(b, root, spec, 1, first)
  }

  /**
   * Reference definition of the offset: the list of unbounded contributions of
   * the steps from i on (member `bit_offset / 8`, index × element size).
   */
  function OffsetTerms(b: Btf, id: nat, spec: seq<nat>, i: nat): Result<seq<nat>, RelocError>
    requires Valid(b) && id < |b.types| && 1 <= i <= |spec|
    decreases |spec| - i
  {
    if i == |spec| then Ok([])
    else
      var t := b.types[SkipModsAndTypedefs(b, id)];
      assert RefsBelow(t, |b.types|);
      if t.Struct? || t.Union? then
        if spec[i] >= |t.members| then Err(Panic)
        else
          var m := t.members[spec[i]];
          match OffsetTerms(b, m.typeId, spec, i + 1)
          case Err(e) => Err(e)
          case Ok(rest) => Ok([m.bitOffset / 8] + rest)
      else if t.Array? then
        match TypeSize(b, t.valTypeId)
        case Err(e) => Err(e)
        case Ok(es) =>
          match OffsetTerms(b, t.valTypeId, spec, i + 1)
          case Err(e) => Err(e)
          case Ok(rest) => Ok([(spec[i] % TWO_32) * es] + rest)
      else Err(NotCompositeOrArray(i))
  }

  function Sum(xs: seq<nat>): nat {
    if |xs| == 0 then 0 else xs[0] + Sum(xs[1..])
  }

  /** Adding one contribution in `u32` and reducing the rest later is reducing the whole sum. */
  lemma WrapStep(off: u32, d: nat, rest: nat)
    ensures (Add32(off, d % TWO_32) + rest) % TWO_32 == (off + d + rest) % TWO_32
  {
    var a := off + d % TWO_32;
    assert Add32(off, d % TWO_32) == a % TWO_32;
    assert a % TWO_32 + rest + (a / TWO_32) * TWO_32 == a + rest;
    ModMultiple32(a % TWO_32 + rest, a / TWO_32);
    assert a + rest + (d / TWO_32) * TWO_32 == off + d + rest;
    ModMultiple32(a + rest, d / TWO_32);
  }

  /** The facts `CalcOffFromSum` states for one starting point of the loop. */
  predicate SumAgrees(b: Btf, id: nat, spec: seq<nat>, i: nat, off: u32)
    requires Valid(b) && id < |b.types| && 1 <= i <= |spec|
  {
    var c := CalcOffFrom(b, id, spec, i, off);
    var ts := OffsetTerms(b, id, spec, i);
    && (c.Ok? <==> ts.Ok?)
    && (c.Err? ==> c.error == ts.error)
    && (c.Ok? ==> c.value == (off + Sum(ts.value)) % TWO_32)
  }

  /** The wrapping loop computes the unbounded sum of the contributions, reduced modulo 2^32. */
  lemma {:induction false} CalcOffFromSum(b: Btf, id: nat, spec: seq<nat>, i: nat, off: u32)
    requires Valid(b) && id < |b.types| && 1 <= i <= |spec|
    ensures CalcOffFrom(b, id, spec, i, off).Ok? <==> OffsetTerms(b, id, spec, i).Ok?
    ensures CalcOffFrom(b, id, spec, i, off).Err? ==>
      CalcOffFrom(b, id, spec, i, off).error == OffsetTerms(b, id, spec, i).error
    ensures CalcOffFrom(b, id, spec, i, off).Ok? ==>
      CalcOffFrom(b, id, spec, i, off).value == (off + Sum(OffsetTerms(b, id, spec, i).value)) % TWO_32
    decreases |spec| - i, 1
  {
    if i < |spec| {
      var t := b.types[SkipModsAndTypedefs(b, id)];
      assert RefsBelow(t, |b.types|);
      if (t.Struct? || t.Union?) && spec[i] < |t.members| {
        MemberStepSum(b, id, spec, i, off);
      } else if t.Array? && TypeSize(b, t.valTypeId).Ok? {
        ArrayStepSum(b, id, spec, i, off);
      }
    }
    assert SumAgrees(b, id, spec, i, off);
  }

  lemma {:induction false} MemberStepSum(b: Btf, id: nat, spec: seq<nat>, i: nat, off: u32)
    requires Valid(b) && id < |b.types| && 1 <= i < |spec|
    requires b.types[SkipModsAndTypedefs(b, id)].IsComposite()
    requires spec[i] < |b.types[SkipModsAndTypedefs(b, id)].members|
    ensures SumAgrees(b, id, spec, i, off)
    decreases |spec| - i, 0
  {
    var t := b.types[SkipModsAndTypedefs(b, id)];
    assert RefsBelow(t, |b.types|);
    var m := t.members[spec[i]];
    var d := m.bitOffset / 8;
    assert d % TWO_32 == d;
    CalcOffFromSum(b, m.typeId, spec, i + 1, Add32(off, d));
    assert CalcOffFrom(b, id, spec, i, off) == CalcOffFrom(b, m.typeId, spec, i + 1, Add32(off, d));
    var rest := OffsetTerms(b, m.typeId, spec, i + 1);
    if rest.Ok? {
      assert OffsetTerms(b, id, spec, i) == Ok([d] + rest.value);
      assert Sum([d] + rest.value) == d + Sum(rest.value);
      WrapStep(off, d, Sum(rest.value));
    } else {
      assert OffsetTerms(b, id, spec, i) == Err(rest.error);
    }
  }

  lemma {:induction false} ArrayStepSum(b: Btf, id: nat, spec: seq<nat>, i: nat, off: u32)
    requires Valid(b) && id < |b.types| && 1 <= i < |spec|
    requires b.types[SkipModsAndTypedefs(b, id)].Array?
    requires RefsBelow(b.types[SkipModsAndTypedefs(b, id)], |b.types|)
    requires TypeSize(b, b.types[SkipModsAndTypedefs(b, id)].valTypeId).Ok?
    ensures SumAgrees(b, id, spec, i, off)
    decreases |spec| - i, 0
  {
    var t := b.types[SkipModsAndTypedefs(b, id)];
    var es := TypeSize(b, t.valTypeId).value;
    var d := (spec[i] % TWO_32) * es;
    var step := Mul32(spec[i] % TWO_32, es);
    assert step == d % TWO_32;
    CalcOffFromSum(b, t.valTypeId, spec, i + 1, Add32(off, step));
    assert CalcOffFrom(b, id, spec, i, off) == CalcOffFrom(b, t.valTypeId, spec, i + 1, Add32(off, step));
    var rest := OffsetTerms(b, t.valTypeId, spec, i + 1);
    if rest.Ok? {
      assert OffsetTerms(b, id, spec, i) == Ok([d] + rest.value);
      assert Sum([d] + rest.value) == d + Sum(rest.value);
      WrapStep(off, d, Sum(rest.value));
    } else {
      assert OffsetTerms(b, id, spec, i) == Err(rest.error);
    }
  }

  lemma MulWrapSum(x: u32, sz: u32, rest: nat)
    ensures (Mul32(x, sz) + rest) % TWO_32 == (x * sz + rest) % TWO_32
  {
    var prod: nat := x * sz;
    WrapStep(0, prod, rest);
    assert Add32(0, prod % TWO_32) == Mul32(x, sz);
  }

  /**
   * `calc_off` walks the spec the way `transform_access` does, so a spec that
   * `transform_access` rejects is rejected by `calc_off` too (which runs first).
   */
  lemma {:induction false} TransformErrImpliesCalcOffErr(b: Btf, id: nat, id2: nat, spec: seq<nat>, i: nat, off: u32)
    requires Valid(b) && id < |b.types| && id2 < |b.types| && 1 <= i <= |spec|
    requires SkipModsAndTypedefs(b, id) == SkipModsAndTypedefs(b, id2)
    ensures TransformSteps(b, id2, spec, i).Err? ==> CalcOffFrom(b, id, spec, i, off).Err?
    decreases |spec| - i
  {
    if i < |spec| {
      var t := b.types[SkipModsAndTypedefs(b, id)];
      assert RefsBelow(t, |b.types|);
      if (t.Struct? || t.Union?) && spec[i] < |t.members| {
        var m := t.members[spec[i]];
        SkipIdempotent(b, m.typeId);
        TransformErrImpliesCalcOffErr(b, m.typeId, SkipModsAndTypedefs(b, m.typeId), spec, i + 1, Add32(off, m.bitOffset / 8));
      } else if t.Array? && TypeSize(b, t.valTypeId).Ok? {
        SkipIdempotent(b, t.valTypeId);
        var step := Mul32(spec[i] % TWO_32, TypeSize(b, t.valTypeId).value);
        TransformErrImpliesCalcOffErr(b, t.valTypeId, SkipModsAndTypedefs(b, t.valTypeId), spec, i + 1, Add32(off, step));
      }
    }
  }

  /** Whenever `calc_off` succeeds on a spec, so does `transform_access`. */
  lemma CalcOffOkImpliesTransformOk(b: Btf, typeId: nat, spec: seq<nat>)
    requires Valid(b)
    ensures CalcOff(b, typeId, spec).Ok? ==> TransformAccess(b, typeId, spec).Ok?
  {
    if typeId < |b.types| && |spec| >= 1 {
      var root := SkipModsAndTypedefs(b, typeId);
      SkipIdempotent(b, typeId);
      if TypeSize(b, root).Ok? {
        TransformErrImpliesCalcOffErr(b, root, root, spec, 1, Mul32(spec[0] % TWO_32, TypeSize(b, root).value));
      }
    }
  }

  // ---------------------------------------------------------------------------
  // get_composite_members and targ_member_spec
  // ---------------------------------------------------------------------------

  /** The members of a struct or union record are records of the table. */
  lemma CompositeMembersBelow(b: Btf, id: nat)
    requires RefsInRange(b) && id < |b.types| && b.types[id].IsComposite()
    ensures MembersBelow(b.types[id].members, |b.types|)
  {
    assert RefsBelow(b.types[id], |b.types|);
  }

  /**
   * `get_composite_members`: the members of the struct or union that `type_id`
   * denotes once modifiers (but not typedefs) are stripped.
   */
  function GetCompositeMembers(b: Btf, typeId: nat): (r: Option<seq<Member>>)
    requires Valid(b) && typeId < |b.types|
    ensures r.Some? <==> b.types[SkipMods(b, typeId)].IsComposite()
    ensures r.Some? ==> SkipModsAndTypedefs(b, typeId) == SkipMods(b, typeId)
                        && r.value == b.types[SkipMods(b, typeId)].members
                        && MembersBelow(r.value, |b.types|)
  {
    var id := SkipMods(b, typeId);
    if b.types[id].IsComposite() then
      SkipModsToComposite(b, typeId);
      CompositeMembersBelow(b, id);
      Some(b.types[id].members)
    else None
  }

  /**
   * `p` leads from the member list `ms` to a member called `name`: every
   * index but the last picks an anonymous member whose type is a struct or
   * union, and the last picks a member with that name.
   */
  predicate MemberPath(b: Btf, ms: seq<Member>, p: seq<nat>, name: Str)
    requires Valid(b) && MembersBelow(ms, |b.types|)
    decreases |p|
  {
    && |p| >= 1 && p[0] < |ms|
    && if |p| == 1 then ms[p[0]].name == name
       else
         && ms[p[0]].name == [] && name != []
         && GetCompositeMembers(b, ms[p[0]].typeId).Some?
         && MemberPath(b, GetCompositeMembers(b, ms[p[0]].typeId).value, p[1..], name)
  }

  /** The member a member path ends at. */
  function PathMember(b: Btf, ms: seq<Member>, p: seq<nat>, name: Str): (m: Member)
    requires Valid(b) && MembersBelow(ms, |b.types|) && MemberPath(b, ms, p, name)
    ensures m.name == name && m.typeId < |b.types|
    decreases |p|
  {
    if |p| == 1 then ms[p[0]]
    else PathMember(b, GetCompositeMembers(b, ms[p[0]].typeId).value, p[1..], name)
  }

  /** Lexicographic order on index paths: declaration order, depth first. */
  predicate LexLe(p: seq<nat>, q: seq<nat>)
    decreases |p|
  {
    |p| == 0 || (|q| > 0 && (p[0] < q[0] || (p[0] == q[0] && LexLe(p[1..], q[1..]))))
  }

  /** The local member's type and the target type `tid` have compatible kinds. */
  predicate MemberCompat(lb: Btf, tb: Btf, lm: Member, tid: nat)
    requires Valid(lb) && Valid(tb) && lm.typeId < |lb.types| && tid < |tb.types|
  {
    KindsCompat(lb.types[SkipModsAndTypedefs(lb, lm.typeId)].Kind(), tb.types[tid].Kind())
  }

  /**
   * `targ_member_spec` scanning the target members from index i on, allowed
   * `fuel` nested descents into anonymous members: the first member with the
   * local member's name decides (its index if the kinds are compatible, an
   * error otherwise); an anonymous struct/union member is searched first and
   * its index prepended to what is found inside it.
   */
  function ScanMembers(lb: Btf, tb: Btf, lm: Member, ms: seq<Member>, i: nat, fuel: nat)
    : (r: Result<Option<(nat, seq<nat>)>, RelocError>)
    requires Valid(lb) && Valid(tb) && lm.typeId < |lb.types| && MembersBelow(ms, |tb.types|) && i <= |ms|
    ensures r.Ok? && r.value.Some? ==>
      && MemberPath(tb, ms, r.value.value.1, lm.name) && r.value.value.1[0] >= i
      && r.value.value.0 == SkipModsAndTypedefs(tb, PathMember(tb, ms, r.value.value.1, lm.name).typeId)
      && MemberCompat(lb, tb, lm, r.value.value.0)
    ensures r.Err? ==> r.error == Diverges || r.error == IncompatibleTypes
    decreases fuel, |ms| - i
  {
    if i == |ms| then Ok(None)
    else
      var m := ms[i];
      if m.name == lm.name then
        var tid := SkipModsAndTypedefs(tb, m.typeId);
        if MemberCompat(lb, tb, lm, tid) then
          assert MemberPath(tb, ms, [i], lm.name);
          Ok(Some((tid, [i])))
        else Err(IncompatibleTypes)
      else if m.name == [] then
        match GetCompositeMembers(tb, m.typeId)
        case None => ScanMembers(lb, tb, lm, ms, i + 1, fuel)
        case Some(inner) =>
          if fuel == 0 then Err(Diverges)
          else
            match ScanMembers(lb, tb, lm, inner, 0, fuel - 1)
            case Err(e) => Err(e)
            case Ok(None) => ScanMembers(lb, tb, lm, ms, i + 1, fuel)
            case Ok(Some(found)) =>
              var p := [i] + found.1;
              assert p[1..] == found.1;
              assert MemberPath(tb, ms, p, lm.name);
              assert PathMember(tb, ms, p, lm.name) == PathMember(tb, inner, found.1, lm.name);
              Ok(Some((found.0, p)))
      else ScanMembers(lb, tb, lm, ms, i + 1, fuel)
  }

  /** `targ_member_spec` over a whole member list, with enough fuel for any acyclic table. */
  function TargMemberSpec(lb: Btf, tb: Btf, lm: Member, ms: seq<Member>): Result<Option<(nat, seq<nat>)>, RelocError>
    requires Valid(lb) && Valid(tb) && lm.typeId < |lb.types| && MembersBelow(ms, |tb.types|)
  {
    ScanMembers(lb, tb, lm, ms, 0, |tb.types|)
  }

  /** The three facts `ScanMembersSpec` states about one starting index of the scan. */
  ghost predicate ScanFacts(lb: Btf, tb: Btf, lm: Member, ms: seq<Member>, i: nat, fuel: nat)
    requires Valid(lb) && Valid(tb) && lm.typeId < |lb.types| && MembersBelow(ms, |tb.types|) && i <= |ms|
  {
    var r := ScanMembers(lb, tb, lm, ms, i, fuel);
    && (r == Ok(None) ==> forall q | MemberPath(tb, ms, q, lm.name) :: q[0] < i)
    && (r.Ok? && r.value.Some? ==> forall q | MemberPath(tb, ms, q, lm.name) && q[0] >= i :: LexLe(r.value.value.1, q))
    && (r == Err(IncompatibleTypes) ==>
          exists q | MemberPath(tb, ms, q, lm.name) && q[0] >= i ::
            && !MemberCompat(lb, tb, lm, SkipModsAndTypedefs(tb, PathMember(tb, ms, q, lm.name).typeId))
            && forall q2 | MemberPath(tb, ms, q2, lm.name) && q2[0] >= i :: LexLe(q, q2))
  }

  /**
   * The scan is a depth-first search in declaration order: it reports no
   * member exactly when no member path with the name exists from index i on;
   * what it reports is the least such path; and it fails with incompatible
   * kinds only because the least such path ends at a member of incompatible
   * kind.
   */
  lemma {:induction false} ScanMembersSpec(lb: Btf, tb: Btf, lm: Member, ms: seq<Member>, i: nat, fuel: nat)
    requires Valid(lb) && Valid(tb) && lm.typeId < |lb.types| && MembersBelow(ms, |tb.types|) && i <= |ms|
    ensures ScanMembers(lb, tb, lm, ms, i, fuel) == Ok(None) ==>
      forall q | MemberPath(tb, ms, q, lm.name) :: q[0] < i
    ensures ScanMembers(lb, tb, lm, ms, i, fuel).Ok? && ScanMembers(lb, tb, lm, ms, i, fuel).value.Some? ==>
      forall q | MemberPath(tb, ms, q, lm.name) && q[0] >= i :: LexLe(ScanMembers(lb, tb, lm, ms, i, fuel).value.value.1, q)
    ensures ScanMembers(lb, tb, lm, ms, i, fuel) == Err(IncompatibleTypes) ==>
      exists q | MemberPath(tb, ms, q, lm.name) && q[0] >= i ::
        && !MemberCompat(lb, tb, lm, SkipModsAndTypedefs(tb, PathMember(tb, ms, q, lm.name).typeId))
        && forall q2 | MemberPath(tb, ms, q2, lm.name) && q2[0] >= i :: LexLe(q, q2)
    decreases fuel, |ms| - i, 1
  {
    if i < |ms| {
      var m := ms[i];
      if m.name == lm.name {
        ScanNamedHere(lb, tb, lm, ms, i, fuel);
      } else if m.name == [] && GetCompositeMembers(tb, m.typeId).Some? {
        if fuel > 0 {
          var ri := ScanMembers(lb, tb, lm, GetCompositeMembers(tb, m.typeId).value, 0, fuel - 1);
          if ri == Ok(None) {
            ScanAnonMiss(lb, tb, lm, ms, i, fuel);
          } else if ri.Ok? {
            ScanAnonFound(lb, tb, lm, ms, i, fuel);
          } else {
            ScanAnonIncompat(lb, tb, lm, ms, i, fuel);
          }
        }
      } else {
        ScanSkipHere(lb, tb, lm, ms, i, fuel);
      }
    }
    assert ScanFacts(lb, tb, lm, ms, i, fuel);
  }

  /** The member at i neither carries the name nor can be descended into: the scan moves on. */
  lemma {:induction false} ScanSkipHere(lb: Btf, tb: Btf, lm: Member, ms: seq<Member>, i: nat, fuel: nat)
    requires Valid(lb) && Valid(tb) && lm.typeId < |lb.types| && MembersBelow(ms, |tb.types|) && i < |ms|
    requires ms[i].name != lm.name && !(ms[i].name == [] && GetCompositeMembers(tb, ms[i].typeId).Some?)
    ensures ScanFacts(lb, tb, lm, ms, i, fuel)
    decreases fuel, |ms| - i, 0
  {
    ScanMembersSpec(lb, tb, lm, ms, i + 1, fuel);
    assert ScanMembers(lb, tb, lm, ms, i, fuel) == ScanMembers(lb, tb, lm, ms, i + 1, fuel);
    forall q | MemberPath(tb, ms, q, lm.name) ensures q[0] != i {
    }
  }

  /** The member at i carries the name: the scan stops there. */
  lemma ScanNamedHere(lb: Btf, tb: Btf, lm: Member, ms: seq<Member>, i: nat, fuel: nat)
    requires Valid(lb) && Valid(tb) && lm.typeId < |lb.types| && MembersBelow(ms, |tb.types|) && i < |ms|
    requires ms[i].name == lm.name
    ensures ScanFacts(lb, tb, lm, ms, i, fuel)
  {
    var r := ScanMembers(lb, tb, lm, ms, i, fuel);
    assert MemberPath(tb, ms, [i], lm.name);
    assert PathMember(tb, ms, [i], lm.name) == ms[i];
    if r.Ok? {
      assert r.value.value.1 == [i];
    } else {
      forall q2 | MemberPath(tb, ms, q2, lm.name) && q2[0] >= i ensures LexLe([i], q2) {
        assert [i][1..] == [];
      }
    }
  }

  /** The anonymous member at i, of struct/union type, holds no member path: the scan moves on. */
  lemma {:induction false} ScanAnonMiss(lb: Btf, tb: Btf, lm: Member, ms: seq<Member>, i: nat, fuel: nat)
    requires Valid(lb) && Valid(tb) && lm.typeId < |lb.types| && MembersBelow(ms, |tb.types|) && i < |ms|
    requires ms[i].name != lm.name && ms[i].name == [] && GetCompositeMembers(tb, ms[i].typeId).Some? && fuel > 0
    requires ScanMembers(lb, tb, lm, GetCompositeMembers(tb, ms[i].typeId).value, 0, fuel - 1) == Ok(None)
    ensures ScanFacts(lb, tb, lm, ms, i, fuel)
    decreases fuel, |ms| - i, 0
  {
    var inner := GetCompositeMembers(tb, ms[i].typeId).value;
    ScanMembersSpec(lb, tb, lm, inner, 0, fuel - 1);
    ScanMembersSpec(lb, tb, lm, ms, i + 1, fuel);
    assert ScanMembers(lb, tb, lm, ms, i, fuel) == ScanMembers(lb, tb, lm, ms, i + 1, fuel);
    forall q | MemberPath(tb, ms, q, lm.name) ensures q[0] != i {
      PathThroughAnon(tb, ms, q, lm.name);
    }
  }

  /** The anonymous member at i, of struct/union type, holds a path: the scan reports it, prefixed by i. */
  lemma {:induction false} ScanAnonFound(lb: Btf, tb: Btf, lm: Member, ms: seq<Member>, i: nat, fuel: nat)
    requires Valid(lb) && Valid(tb) && lm.typeId < |lb.types| && MembersBelow(ms, |tb.types|) && i < |ms|
    requires ms[i].name != lm.name && ms[i].name == [] && GetCompositeMembers(tb, ms[i].typeId).Some? && fuel > 0
    requires ScanMembers(lb, tb, lm, GetCompositeMembers(tb, ms[i].typeId).value, 0, fuel - 1).Ok?
    requires ScanMembers(lb, tb, lm, GetCompositeMembers(tb, ms[i].typeId).value, 0, fuel - 1).value.Some?
    ensures ScanFacts(lb, tb, lm, ms, i, fuel)
    decreases fuel, |ms| - i, 0
  {
    var name := lm.name;
    var inner := GetCompositeMembers(tb, ms[i].typeId).value;
    var ri := ScanMembers(lb, tb, lm, inner, 0, fuel - 1);
    ScanMembersSpec(lb, tb, lm, inner, 0, fuel - 1);
    var p := ri.value.value.1;
    var r := ScanMembers(lb, tb, lm, ms, i, fuel);
    assert r.value.value.1 == [i] + p;
    forall q | MemberPath(tb, ms, q, name) && q[0] >= i ensures LexLe([i] + p, q) {
      if q[0] == i {
        PathThroughAnon(tb, ms, q, name);
        assert ([i] + p)[1..] == p;
      }
    }
  }

  /** The anonymous member at i holds a path ending at an incompatible member: the scan fails there. */
  lemma {:induction false} ScanAnonIncompat(lb: Btf, tb: Btf, lm: Member, ms: seq<Member>, i: nat, fuel: nat)
    requires Valid(lb) && Valid(tb) && lm.typeId < |lb.types| && MembersBelow(ms, |tb.types|) && i < |ms|
    requires ms[i].name != lm.name && ms[i].name == [] && GetCompositeMembers(tb, ms[i].typeId).Some? && fuel > 0
    requires ScanMembers(lb, tb, lm, GetCompositeMembers(tb, ms[i].typeId).value, 0, fuel - 1).Err?
    ensures ScanFacts(lb, tb, lm, ms, i, fuel)
    decreases fuel, |ms| - i, 0
  {
    var name := lm.name;
    var inner := GetCompositeMembers(tb, ms[i].typeId).value;
    var ri := ScanMembers(lb, tb, lm, inner, 0, fuel - 1);
    ScanAnonErr(lb, tb, lm, ms, i, fuel);
    if ri == Err(IncompatibleTypes) {
      ScanMembersSpec(lb, tb, lm, inner, 0, fuel - 1);
      IncompatThroughAnon(lb, tb, lm, ms, i, inner);
    }
  }

  /** A failure inside the anonymous member at i is the scan's failure. */
  lemma ScanAnonErr(lb: Btf, tb: Btf, lm: Member, ms: seq<Member>, i: nat, fuel: nat)
    requires Valid(lb) && Valid(tb) && lm.typeId < |lb.types| && MembersBelow(ms, |tb.types|) && i < |ms|
    requires ms[i].name != lm.name && ms[i].name == [] && GetCompositeMembers(tb, ms[i].typeId).Some? && fuel > 0
    requires ScanMembers(lb, tb, lm, GetCompositeMembers(tb, ms[i].typeId).value, 0, fuel - 1).Err?
    ensures ScanMembers(lb, tb, lm, ms, i, fuel) == ScanMembers(lb, tb, lm, GetCompositeMembers(tb, ms[i].typeId).value, 0, fuel - 1)
  {
  }

  /**
   * A least path of incompatible kind inside the anonymous member at i gives
   * one of the enclosing list from i on.
   */
  lemma IncompatThroughAnon(lb: Btf, tb: Btf, lm: Member, ms: seq<Member>, i: nat, inner: seq<Member>)
    requires Valid(lb) && Valid(tb) && lm.typeId < |lb.types| && MembersBelow(ms, |tb.types|) && i < |ms|
    requires ms[i].name != lm.name && ms[i].name == [] && GetCompositeMembers(tb, ms[i].typeId) == Some(inner)
    requires exists q' | MemberPath(tb, inner, q', lm.name) && q'[0] >= 0 ::
      && !MemberCompat(lb, tb, lm, SkipModsAndTypedefs(tb, PathMember(tb, inner, q', lm.name).typeId))
      && forall q2 | MemberPath(tb, inner, q2, lm.name) && q2[0] >= 0 :: LexLe(q', q2)
    ensures exists q | MemberPath(tb, ms, q, lm.name) && q[0] >= i ::
      && !MemberCompat(lb, tb, lm, SkipModsAndTypedefs(tb, PathMember(tb, ms, q, lm.name).typeId))
      && forall q2 | MemberPath(tb, ms, q2, lm.name) && q2[0] >= i :: LexLe(q, q2)
  {
    var name := lm.name;
    var q' :| MemberPath(tb, inner, q', name) && q'[0] >= 0
      && !MemberCompat(lb, tb, lm, SkipModsAndTypedefs(tb, PathMember(tb, inner, q', name).typeId))
      && forall q2 | MemberPath(tb, inner, q2, name) && q2[0] >= 0 :: LexLe(q', q2);
    LeastThroughAnon(tb, ms, i, inner, q', name);
    var q := [i] + q';
    assert MemberPath(tb, ms, q, name) && q[0] >= i;
  }

  /**
   * The least path inside the anonymous member at i, prefixed by i, is the
   * least path of the enclosing list from i on, and ends at the same member.
   */
  lemma LeastThroughAnon(b: Btf, ms: seq<Member>, i: nat, inner: seq<Member>, q': seq<nat>, name: Str)
    requires Valid(b) && MembersBelow(ms, |b.types|) && i < |ms|
    requires ms[i].name != name && ms[i].name == [] && GetCompositeMembers(b, ms[i].typeId) == Some(inner)
    requires MemberPath(b, inner, q', name)
    requires forall q2 | MemberPath(b, inner, q2, name) && q2[0] >= 0 :: LexLe(q', q2)
    ensures MemberPath(b, ms, [i] + q', name) && PathMember(b, ms, [i] + q', name) == PathMember(b, inner, q', name)
    ensures forall q2 | MemberPath(b, ms, q2, name) && q2[0] >= i :: LexLe([i] + q', q2)
  {
    var q := [i] + q';
    assert q[1..] == q';
    forall q2 | MemberPath(b, ms, q2, name) && q2[0] >= i ensures LexLe(q, q2) {
      if q2[0] == i {
        PathThroughAnon(b, ms, q2, name);
      }
    }
  }

  /** A member path whose first member is not the named one continues inside that (anonymous) member. */
  lemma PathThroughAnon(b: Btf, ms: seq<Member>, q: seq<nat>, name: Str)
    requires Valid(b) && MembersBelow(ms, |b.types|) && MemberPath(b, ms, q, name)
    ensures ms[q[0]].name != name ==>
      && |q| > 1 && ms[q[0]].name == []
      && GetCompositeMembers(b, ms[q[0]].typeId).Some?
      && MemberPath(b, GetCompositeMembers(b, ms[q[0]].typeId).value, q[1..], name)
  {
  }

  // ---------------------------------------------------------------------------
  // calc_targ_spec
  // ---------------------------------------------------------------------------

  /** What one accessor contributes to the target spec, and the target record it was applied to. */
  datatype Piece = Piece(targId: nat, path: seq<nat>)

  /** The local member a well-formed field accessor names. */
  function LocalMember(b: Btf, a: Accessor): (m: Member)
    requires Valid(b) && a.FieldAccess? && FieldOk(b, a)
    ensures m.typeId < |b.types|
  {
    assert RefsBelow(b.types[a.typeId], |b.types|);
    b.types[a.typeId].members[a.fieldIdx]
  }

  /**
   * A piece fits its accessor: an array accessor applies to a target array and
   * contributes its own index; a field accessor applies to a target struct or
   * union and contributes a member path to a member with the local member's name.
   */
  predicate PieceFits(lb: Btf, tb: Btf, a: Accessor, pc: Piece)
    requires Valid(lb) && Valid(tb)
  {
    && pc.targId < |tb.types|
    && match a
       case ArrayAccess(_, x) => tb.types[pc.targId].Array? && pc.path == [x]
       case FieldAccess(_, _, _) =>
         && FieldOk(lb, a) && tb.types[pc.targId].IsComposite()
         && (CompositeMembersBelow(tb, pc.targId);
             MemberPath(tb, tb.types[pc.targId].members, pc.path, LocalMember(lb, a).name))
  }

  /** The target record the next accessor applies to. */
  function NextTarg(lb: Btf, tb: Btf, a: Accessor, pc: Piece): (r: nat)
    requires Valid(lb) && Valid(tb) && PieceFits(lb, tb, a, pc)
    ensures r < |tb.types|
  {
    var t := tb.types[pc.targId];
    assert RefsBelow(t, |tb.types|);
    if a.ArrayAccess? then SkipModsAndTypedefs(tb, t.valTypeId)
    else SkipModsAndTypedefs(tb, PathMember(tb, t.members, pc.path, LocalMember(lb, a).name).typeId)
  }

  /** An accessor `calc_targ_spec` can index without panicking (one entry of `WellFormed`). */
  predicate AccessorOk(b: Btf, a: Accessor) {
    a.FieldAccess? ==>
      a.typeId < |b.types| && (b.types[a.typeId].IsComposite() ==> a.fieldIdx < |b.types[a.typeId].members|)
  }

  /**
   * One iteration of `calc_targ_spec`'s loop, for accessor number i applied to
   * target record `targId`: an array accessor needs a target array and steps to
   * its element type; a field accessor needs a local and a target struct or
   * union, then the member search decides (a cycle stays fatal, any other
   * search error is an incompatible field, no match is a missing field).
   */
  function TargStep(lb: Btf, tb: Btf, a: Accessor, i: nat, targId: nat): (r: Result<(Piece, nat), RelocError>)
    requires Valid(lb) && Valid(tb) && AccessorOk(lb, a) && targId < |tb.types|
    ensures r.Ok? ==> r.value.0.targId == targId && PieceFits(lb, tb, a, r.value.0)
                      && NextTarg(lb, tb, a, r.value.0) == r.value.1
    ensures a.ArrayAccess? ==> (r.Ok? <==> tb.types[targId].Array?)
    ensures a.ArrayAccess? && !tb.types[targId].Array? ==> r == Err(TargetNotArray(i))
    ensures a.FieldAccess? && !lb.types[a.typeId].IsComposite() ==> r == Err(LocalNotComposite(i))
    ensures a.FieldAccess? && lb.types[a.typeId].IsComposite() && !tb.types[targId].IsComposite() ==>
      r == Err(TargetNotComposite(i))
    ensures r.Err? ==> r.error != Panic
  {
    var tt := tb.types[targId];
    assert RefsBelow(tt, |tb.types|);
    match a
    case ArrayAccess(_, x) =>
      if !tt.Array? then Err(TargetNotArray(i))
      else Ok((Piece(targId, [x]), SkipModsAndTypedefs(tb, tt.valTypeId)))
    case FieldAccess(lid, _, _) =>
      if !lb.types[lid].IsComposite() then Err(LocalNotComposite(i))
      else if !tt.IsComposite() then Err(TargetNotComposite(i))
      else
        CompositeMembersBelow(tb, targId);
        match TargMemberSpec(lb, tb, LocalMember(lb, a), tt.members)
        case Err(e) => if e == Diverges then Err(Diverges) else Err(IncompatibleField(i))
        case Ok(None) => Err(FieldNotFound(i))
        case Ok(Some(found)) => Ok((Piece(targId, found.1), found.0))
  }

  /**
   * The loop of `calc_targ_spec` over accessors i.., starting at target record
   * `targId`: one piece per accessor, the first failing step ending it.
   */
  function CalcTargPieces(lb: Btf, tb: Btf, acc: seq<Accessor>, i: nat, targId: nat): (r: Result<seq<Piece>, RelocError>)
    requires Valid(lb) && Valid(tb) && WellFormed(lb, acc) && 1 <= i <= |acc| && targId < |tb.types|
    ensures r.Ok? ==> |r.value| == |acc| - i
    ensures i < |acc| && TargStep(lb, tb, acc[i], i, targId).Err? ==> r == Err(TargStep(lb, tb, acc[i], i, targId).error)
    ensures r.Err? ==> r.error != Panic
    decreases |acc| - i
  {
    if i == |acc| then Ok([])
    else
      assert AccessorOk(lb, acc[i]);
      match TargStep(lb, tb, acc[i], i, targId)
      case Err(e) => Err(e)
      case Ok(step) =>
        match CalcTargPieces(lb, tb, acc, i + 1, step.1)
        case Err(e) => Err(e)
        case Ok(rest) => Ok([step.0] + rest)
  }

  /** Pieces ps fit accessors i.. and each applies to the record its predecessor led to. */
  ghost predicate PiecesFit(lb: Btf, tb: Btf, acc: seq<Accessor>, i: nat, ps: seq<Piece>)
    requires Valid(lb) && Valid(tb) && i + |ps| <= |acc|
  {
    && (forall k | 0 <= k < |ps| :: PieceFits(lb, tb, acc[i + k], ps[k]))
    && (forall k | 0 <= k < |ps| - 1 :: ps[k + 1].targId == NextTarg(lb, tb, acc[i + k], ps[k]))
  }

  lemma ConsPiecesFit(lb: Btf, tb: Btf, acc: seq<Accessor>, i: nat, h: Piece, rest: seq<Piece>)
    requires Valid(lb) && Valid(tb) && i + 1 + |rest| <= |acc|
    requires PieceFits(lb, tb, acc[i], h) && PiecesFit(lb, tb, acc, i + 1, rest)
    requires |rest| > 0 ==> rest[0].targId == NextTarg(lb, tb, acc[i], h)
    ensures PiecesFit(lb, tb, acc, i, [h] + rest)
  {
    var ps := [h] + rest;
    forall k | 0 <= k < |ps| ensures PieceFits(lb, tb, acc[i + k], ps[k]) {
      if k > 0 { assert ps[k] == rest[k - 1] && acc[i + k] == acc[(i + 1) + (k - 1)]; }
    }
    forall k | 0 <= k < |ps| - 1 ensures ps[k + 1].targId == NextTarg(lb, tb, acc[i + k], ps[k]) {
      if k > 0 { assert ps[k] == rest[k - 1] && ps[k + 1] == rest[k] && acc[i + k] == acc[(i + 1) + (k - 1)]; }
    }
  }

  /**
   * Every piece fits its accessor, the first piece applies to the starting
   * record, and each later piece to the record its predecessor led to.
   */
  lemma {:induction false} CalcTargPiecesFit(lb: Btf, tb: Btf, acc: seq<Accessor>, i: nat, targId: nat)
    requires Valid(lb) && Valid(tb) && WellFormed(lb, acc) && 1 <= i <= |acc| && targId < |tb.types|
    requires CalcTargPieces(lb, tb, acc, i, targId).Ok?
    ensures PiecesFit(lb, tb, acc, i, CalcTargPieces(lb, tb, acc, i, targId).value)
    ensures i < |acc| ==> CalcTargPieces(lb, tb, acc, i, targId).value[0].targId == targId
    decreases |acc| - i
  {
    if i < |acc| {
      assert AccessorOk(lb, acc[i]);
      var st := TargStep(lb, tb, acc[i], i, targId);
      assert st.Ok?;
      var step := st.value;
      var rr := CalcTargPieces(lb, tb, acc, i + 1, step.1);
      assert rr.Ok? && CalcTargPieces(lb, tb, acc, i, targId).value == [step.0] + rr.value;
      CalcTargPiecesFit(lb, tb, acc, i + 1, step.1);
      ConsPiecesFit(lb, tb, acc, i, step.0, rr.value);
    }
  }

  /** The target spec: the pieces' paths, in order. */
  function Paths(ps: seq<Piece>): seq<nat> {
    if |ps| == 0 then [] else ps[0].path + Paths(ps[1..])
  }

  /** The paths of two runs of pieces, one after the other. */
  lemma {:induction false} PathsAppend(xs: seq<Piece>, ys: seq<Piece>)
    ensures Paths(xs + ys) == Paths(xs) + Paths(ys)
    decreases |xs|
  {
    if |xs| > 0 {
      assert (xs + ys)[1..] == xs[1..] + ys;
      PathsAppend(xs[1..], ys);
    } else {
      assert xs + ys == ys;
    }
  }

  /** Pieces with non-empty paths contribute at least one entry each. */
  lemma {:induction false} PathsLength(ps: seq<Piece>)
    requires forall k | 0 <= k < |ps| :: |ps[k].path| >= 1
    ensures |Paths(ps)| >= |ps|
    decreases |ps|
  {
    if |ps| > 0 {
      assert forall k | 0 <= k < |ps[1..]| :: ps[1..][k] == ps[k + 1];
      PathsLength(ps[1..]);
    }
  }

  /**
   * `calc_targ_spec`: the first accessor must be an array access and gives the
   * first entry; the rest of the spec is what the accessors' pieces contribute.
   */
  function CalcTargSpec(lb: Btf, tb: Btf, acc: seq<Accessor>, targId: nat): (r: Result<seq<nat>, RelocError>)
    requires Valid(lb) && Valid(tb) && WellFormed(lb, acc) && |acc| >= 1 && targId < |tb.types|
    ensures acc[0].FieldAccess? ==> r == Err(FirstNotArray)
    ensures r.Ok? ==> acc[0].ArrayAccess? && |r.value| >= |acc| && r.value[0] == acc[0].arrIdx
    ensures r.Ok? ==> CalcTargPieces(lb, tb, acc, 1, SkipModsAndTypedefs(tb, targId)).Ok?
    ensures r.Err? ==> r.error != Panic
  {
    match acc[0]
    case FieldAccess(_, _, _) => Err(FirstNotArray)
    case ArrayAccess(_, x) =>
      match CalcTargPieces(lb, tb, acc, 1, SkipModsAndTypedefs(tb, targId))
      case Err(e) => Err(e)
      case Ok(ps) =>
        assert forall k | 0 <= k < |ps| :: |ps[k].path| >= 1 by {
          CalcTargPiecesFit(lb, tb, acc, 1, SkipModsAndTypedefs(tb, targId));
          assert PiecesFit(lb, tb, acc, 1, ps);
          forall k | 0 <= k < |ps| ensures |ps[k].path| >= 1 {
            assert PieceFits(lb, tb, acc[1 + k], ps[k]);
          }
        }
        PathsLength(ps);
        Ok([x] + Paths(ps))
  }

  lemma PathsSplit(ps: seq<Piece>, k: nat)
    requires k < |ps|
    ensures Paths(ps) == Paths(ps[..k]) + ps[k].path + Paths(ps[k + 1..])
  {
    PathsAppend(ps[..k], ps[k..]);
    assert ps[..k] + ps[k..] == ps;
    assert ps[k..][1..] == ps[k + 1..];
  }

  /**
   * The target spec keeps the local array indices: its first entry is the
   * first accessor's index, and accessor k's piece starts at position
   * 1 + (length of the pieces before it), which holds accessor k's own index
   * when accessor k is an array access.
   */
  lemma TargSpecArrayEntries(lb: Btf, tb: Btf, acc: seq<Accessor>, targId: nat, k: nat)
    requires Valid(lb) && Valid(tb) && WellFormed(lb, acc) && |acc| >= 1 && targId < |tb.types|
    requires CalcTargSpec(lb, tb, acc, targId).Ok? && 1 <= k < |acc| && acc[k].ArrayAccess?
    ensures var ps := CalcTargPieces(lb, tb, acc, 1, SkipModsAndTypedefs(tb, targId)).value;
      && 1 + |Paths(ps[..k - 1])| < |CalcTargSpec(lb, tb, acc, targId).value|
      && CalcTargSpec(lb, tb, acc, targId).value[1 + |Paths(ps[..k - 1])|] == acc[k].arrIdx
  {
    var ps := CalcTargPieces(lb, tb, acc, 1, SkipModsAndTypedefs(tb, targId)).value;
    CalcTargPiecesFit(lb, tb, acc, 1, SkipModsAndTypedefs(tb, targId));
    assert PiecesFit(lb, tb, acc, 1, ps);
    assert PieceFits(lb, tb, acc[1 + (k - 1)], ps[k - 1]);
    assert CalcTargSpec(lb, tb, acc, targId).value == [acc[0].arrIdx] + Paths(ps);
    PathsEntry(ps, k - 1, acc[0].arrIdx);
  }

  /** A one-entry path sits right after the paths before it. */
  lemma PathsEntry(ps: seq<Piece>, j: nat, x: nat)
    requires j < |ps| && |ps[j].path| == 1
    ensures 1 + |Paths(ps[..j])| < |[x] + Paths(ps)|
    ensures ([x] + Paths(ps))[1 + |Paths(ps[..j])|] == ps[j].path[0]
  {
    PathsSplit(ps, j);
  }
}

=== FILE: types.dfy ===
/**
 * The in-memory type table of src/types.rs: one tagged record per type id
 * (id 0 is Void), with the size, alignment and modifier-stripping queries that
 * the relocator builds on.
 */
module Types {
  import opened Wrappers
  import opened Words
  import opened Records
  import K = Kinds

  datatype BtfType =
    | Void
    | Int(name: Str, bits: u32, offset: u32, encoding: IntEncoding)
    | Ptr(typeId: u32)
    | Array(nelems: u32, idxTypeId: u32, valTypeId: u32)
    | Struct(name: Str, sz: u32, members: seq<Member>)
    | Union(name: Str, sz: u32, members: seq<Member>)
    | Enum(name: Str, sz: u32, values: seq<EnumValue>)
    | Fwd(name: Str, fwdKind: FwdKind)
    | Typedef(name: Str, typeId: u32)
    | Volatile(typeId: u32)
    | Const(typeId: u32)
    | Restrict(typeId: u32)
    | Func(name: Str, protoTypeId: u32, funcKind: FuncKind)
    | FuncProto(resTypeId: u32, params: seq<FuncParam>)
    | Var(name: Str, typeId: u32, varKind: VarKind)
    | Datasec(name: Str, sz: u32, vars: seq<DatasecVar>)
    | Float(name: Str, sz: u32)
    | DeclTag(name: Str, typeId: u32, compIdx: u32)
    | TypeTag(name: Str, typeId: u32)
    | Enum64(name: Str, sz: u32, values64: seq<Enum64Value>)
  {
    function Kind(): K.BtfKind {
      match this
      case Void => K.Void
      case Int(_, _, _, _) => K.Int
      case Ptr(_) => K.Ptr
      case Array(_, _, _) => K.Array
      case Struct(_, _, _) => K.Struct
      case Union(_, _, _) => K.Union
      case Enum(_, _, _) => K.Enum
      case Fwd(_, _) => K.Fwd
      case Typedef(_, _) => K.Typedef
      case Volatile(_) => K.Volatile
      case Const(_) => K.Const
      case Restrict(_) => K.Restrict
      case Func(_, _, _) => K.Func
      case FuncProto(_, _) => K.FuncProto
      case Var(_, _, _) => K.Var
      case Datasec(_, _, _) => K.Datasec
      case Float(_, _) => K.Float
      case DeclTag(_, _, _) => K.DeclTag
      case TypeTag(_, _) => K.TypeTag
      case Enum64(_, _, _) => K.Enum64
    }

    /** `BtfType::name`: kinds without a name field answer the empty name. */
    function Name(): Str {
      match this
      case Void => []
      case Ptr(_) => []
      case Array(_, _, _) => []
      case Volatile(_) => []
      case Const(_) => []
      case Restrict(_) => []
      case FuncProto(_, _) => []
      case _ => name
    }

    /** Volatile, Const, Restrict and TypeTag: the links `skip_mods` follows. */
    predicate IsMod() {
      Volatile? || Const? || Restrict? || TypeTag?
    }

    /** The links `skip_mods_and_typedefs` follows. */
    predicate IsModOrTypedef() {
      IsMod() || Typedef?
    }

    predicate IsComposite() {
      Struct? || Union?
    }
  }

  /** A loaded table. `ptrSz` is 8 for a 64-bit object file and 4 otherwise. */
  datatype Btf = Btf(types: seq<BtfType>, ptrSz: u32)

  /** Every type id a record refers to, and that the queries follow, names a record of a table of n records. */
  predicate RefsBelow(t: BtfType, n: nat) {
    match t
    case Ptr(x) => x < n
    case Array(_, _, v) => v < n
    case Struct(_, _, ms) => forall k | 0 <= k < |ms| :: ms[k].typeId < n
    case Union(_, _, ms) => forall k | 0 <= k < |ms| :: ms[k].typeId < n
    case Typedef(_, x) => x < n
    case Volatile(x) => x < n
    case Const(x) => x < n
    case Restrict(x) => x < n
    case Func(_, p, _) => p < n
    case FuncProto(r, ps) => r < n && forall k | 0 <= k < |ps| :: ps[k].typeId < n
    case Var(_, x, _) => x < n
    case Datasec(_, _, vs) => forall k | 0 <= k < |vs| :: vs[k].typeId < n
    case DeclTag(_, x, _) => x < n
    case TypeTag(_, x) => x < n
    case _ => true
  }

  /** `type_by_id` never indexes out of range when starting from any id of the table. */
  predicate RefsInRange(b: Btf) {
    forall i {:trigger RefsBelow(b.types[i], |b.types|)} | 0 <= i < |b.types| :: RefsBelow(b.types[i], |b.types|)
  }

  /** The record a link of a modifier chain leads to, in range whenever the table is. */
  lemma LinkInRange(b: Btf, id: nat)
    requires RefsInRange(b) && id < |b.types| && b.types[id].IsModOrTypedef()
    ensures b.types[id].typeId < |b.types|
  {
    assert RefsBelow(b.types[id], |b.types|);
  }

  /**
   * The modifier walk of `skip_mods` (typedefs == false) and
   * `skip_mods_and_typedefs` (typedefs == true), allowed at most `fuel` links.
   * None means the chain is longer than the fuel.
   */
  function SkipWithin(b: Btf, id: nat, typedefs: bool, fuel: nat): (r: Option<nat>)
    requires RefsInRange(b) && id < |b.types|
    ensures r.Some? ==> r.value < |b.types|
    ensures r.Some? ==> !b.types[r.value].IsMod()
    ensures r.Some? && typedefs ==> !b.types[r.value].Typedef?
    decreases fuel
  {
    var t := b.types[id];
    if !(if typedefs then t.IsModOrTypedef() else t.IsMod()) then Some(id)
    else if fuel == 0 then None
    else
      LinkInRange(b, id);
      SkipWithin(b, t.typeId, typedefs, fuel - 1)
  }

  /**
   * A table the queries can walk: every followed reference is in range and every
   * modifier/typedef chain ends. A chain that never ends is a cycle, on which the
   * source's `loop` never returns; |types| links are enough for any chain that
   * visits each id at most once.
   */
  predicate Valid(b: Btf) {
    && RefsInRange(b)
    && forall id | 0 <= id < |b.types| :: SkipWithin(b, id, true, |b.types|).Some?
  }

  /** Stripping only modifiers stops no later than stripping modifiers and typedefs. */
  lemma {:induction false} ModsWalkEnds(b: Btf, id: nat, fuel: nat)
    requires RefsInRange(b) && id < |b.types|
    requires SkipWithin(b, id, true, fuel).Some?
    ensures SkipWithin(b, id, false, fuel).Some?
    decreases fuel
  {
    var t := b.types[id];
    if t.IsMod() {
      LinkInRange(b, id);
      ModsWalkEnds(b, t.typeId, fuel - 1);
    }
  }

  /** `skip_mods`: the first record on the chain from `id` that is not Volatile/Const/Restrict/TypeTag. */
  function SkipMods(b: Btf, id: nat): (r: nat)
    requires Valid(b) && id < |b.types|
    ensures r < |b.types| && !b.types[r].IsMod()
    ensures !b.types[id].IsMod() ==> r == id
  {
    ModsWalkEnds(b, id, |b.types|);
    SkipWithin(b, id, false, |b.types|).value
  }

  /** `skip_mods_and_typedefs`: the first record on the chain from `id` that is neither a modifier nor a typedef. */
  function SkipModsAndTypedefs(b: Btf, id: nat): (r: nat)
    requires Valid(b) && id < |b.types|
    ensures r < |b.types| && !b.types[r].IsModOrTypedef()
    ensures !b.types[id].IsModOrTypedef() ==> r == id
  {
    SkipWithin(b, id, true, |b.types|).value
  }

  /** A fuelled walk that succeeds gives the same answer with more fuel. */
  lemma {:induction false} SkipWithinMono(b: Btf, id: nat, typedefs: bool, f: nat, g: nat)
    requires RefsInRange(b) && id < |b.types| && f <= g
    requires SkipWithin(b, id, typedefs, f).Some?
    ensures SkipWithin(b, id, typedefs, g) == SkipWithin(b, id, typedefs, f)
    decreases f
  {
    var t := b.types[id];
    if (if typedefs then t.IsModOrTypedef() else t.IsMod()) {
      LinkInRange(b, id);
      SkipWithinMono(b, t.typeId, typedefs, f - 1, g - 1);
    }
  }

  /** Following one modifier (or typedef) link does not change where the walk ends. */
  lemma SkipThroughLink(b: Btf, id: nat)
    requires Valid(b) && id < |b.types| && b.types[id].IsModOrTypedef()
    ensures b.types[id].typeId < |b.types|
    ensures SkipModsAndTypedefs(b, id) == SkipModsAndTypedefs(b, b.types[id].typeId)
    ensures b.types[id].IsMod() ==> SkipMods(b, id) == SkipMods(b, b.types[id].typeId)
  {
    var n := |b.types|;
    var x := b.types[id].typeId;
    LinkInRange(b, id);
    assert SkipWithin(b, id, true, n).Some?;
    assert SkipWithin(b, id, true, n) == SkipWithin(b, x, true, n - 1);
    SkipWithinMono(b, x, true, n - 1, n);
    if b.types[id].IsMod() {
      ModsWalkEnds(b, id, n);
      SkipWithinMono(b, x, false, n - 1, n);
    }
  }

  /** Both walks are idempotent: their results are fixed points. */
  lemma SkipIdempotent(b: Btf, id: nat)
    requires Valid(b) && id < |b.types|
    ensures SkipMods(b, SkipMods(b, id)) == SkipMods(b, id)
    ensures SkipModsAndTypedefs(b, SkipModsAndTypedefs(b, id)) == SkipModsAndTypedefs(b, id)
  {
  }

  /** Stripping modifiers first does not change where `skip_mods_and_typedefs` ends. */
  lemma {:induction false} SkipModsThenTypedefs(b: Btf, id: nat, fuel: nat)
    requires Valid(b) && id < |b.types|
    requires SkipWithin(b, id, false, fuel).Some?
    ensures SkipModsAndTypedefs(b, SkipMods(b, id)) == SkipModsAndTypedefs(b, id)
    decreases fuel
  {
    var t := b.types[id];
    if t.IsMod() {
      SkipThroughLink(b, id);
      SkipModsThenTypedefs(b, t.typeId, fuel - 1);
    }
  }

  /**
   * When the modifier-only walk reaches a struct or union, the walk that also
   * strips typedefs reaches the same record (the composite is not a typedef).
   */
  lemma SkipModsToComposite(b: Btf, id: nat)
    requires Valid(b) && id < |b.types|
    requires b.types[SkipMods(b, id)].IsComposite()
    ensures SkipModsAndTypedefs(b, id) == SkipMods(b, id)
  {
    ModsWalkEnds(b, id, |b.types|);
    SkipModsThenTypedefs(b, id, |b.types|);
  }

  // ---------------------------------------------------------------------------
  // get_size_of
  // ---------------------------------------------------------------------------

  /**
   * `get_size_of` allowed `fuel` nested recursive calls; None when the chain of
   * modifiers, typedefs, tags and array elements is longer than the fuel.
   */
  function SizeWithin(b: Btf, id: nat, fuel: nat): Option<u32>
    requires RefsInRange(b) && id < |b.types|
    decreases fuel
  {
    var t := b.types[id];
    assert RefsBelow(t, |b.types|);
    match t
    case Void => Some(0)
    case Int(_, bits, _, _) => Some(Add32(bits, 7) / 8)
    case Ptr(_) => Some(b.ptrSz)
    case Array(n, _, v) =>
      if fuel == 0 then None
      else
        var s :- SizeWithin(b, v, fuel - 1);
        Some(Mul32(n, s))
    case FuncProto(_, _) => Some(0)
    case Struct(_, sz, _) => Some(sz)
    case Union(_, sz, _) => Some(sz)
    case Enum(_, sz, _) => Some(sz)
    case Fwd(_, _) => Some(0)
    case Func(_, _, _) => Some(0)
    case Var(_, _, _) => Some(0)
    case Datasec(_, sz, _) => Some(sz)
    case Float(_, sz) => Some(sz)
    case Enum64(_, sz, _) => Some(sz)
    case Typedef(_, x) => if fuel == 0 then None else SizeWithin(b, x, fuel - 1)
    case Volatile(x) => if fuel == 0 then None else SizeWithin(b, x, fuel - 1)
    case Const(x) => if fuel == 0 then None else SizeWithin(b, x, fuel - 1)
    case Restrict(x) => if fuel == 0 then None else SizeWithin(b, x, fuel - 1)
    case DeclTag(_, x, _) => if fuel == 0 then None else SizeWithin(b, x, fuel - 1)
    case TypeTag(_, x) => if fuel == 0 then None else SizeWithin(b, x, fuel - 1)
  }

  /** The links `get_size_of` follows to another id without changing the answer. */
  predicate SizeLink(t: BtfType) {
    t.IsModOrTypedef() || t.DeclTag?
  }

  /**
   * `get_size_of(id)` returns: the recursion through links and array elements
   * ends (it does whenever those links are acyclic, since |types| nested calls
   * then suffice).
   */
  predicate SizeDefined(b: Btf, id: nat) {
    RefsInRange(b) && id < |b.types| && SizeWithin(b, id, |b.types|).Some?
  }

  lemma {:induction false} SizeWithinMono(b: Btf, id: nat, f: nat, g: nat)
    requires RefsInRange(b) && id < |b.types| && f <= g
    requires SizeWithin(b, id, f).Some?
    ensures SizeWithin(b, id, g) == SizeWithin(b, id, f)
    decreases f
  {
    var t := b.types[id];
    assert RefsBelow(t, |b.types|);
    if t.Array? {
      SizeWithinMono(b, t.valTypeId, f - 1, g - 1);
    } else if SizeLink(t) {
      SizeWithinMono(b, t.typeId, f - 1, g - 1);
    }
  }

  /** `get_size_of`: the byte size of the type `id` denotes, in `u32` arithmetic. */
  function GetSizeOf(b: Btf, id: nat): (r: u32)
    requires SizeDefined(b, id)
    ensures (|| b.types[id].Void? || b.types[id].Fwd? || b.types[id].FuncProto?
             || b.types[id].Func? || b.types[id].Var?) ==> r == 0
    ensures b.types[id].Int? ==> r == (b.types[id].bits + 7) % TWO_32 / 8
    ensures b.types[id].Ptr? ==> r == b.ptrSz
    ensures (|| b.types[id].Struct? || b.types[id].Union? || b.types[id].Enum?
             || b.types[id].Datasec? || b.types[id].Float? || b.types[id].Enum64?) ==> r == b.types[id].sz
  {
    SizeWithin(b, id, |b.types|).value
  }

  /**
   * Modifiers, typedefs and both kinds of tag are transparent to `get_size_of`,
   * and an array's size is its element count times its element's size (wrapping).
   */
  lemma SizeOfStep(b: Btf, id: nat)
    requires SizeDefined(b, id)
    ensures SizeLink(b.types[id]) ==>
      SizeDefined(b, b.types[id].typeId) && GetSizeOf(b, id) == GetSizeOf(b, b.types[id].typeId)
    ensures b.types[id].Array? ==>
      SizeDefined(b, b.types[id].valTypeId)
      && GetSizeOf(b, id) == (b.types[id].nelems * GetSizeOf(b, b.types[id].valTypeId)) % TWO_32
  {
    var t := b.types[id];
    var n := |b.types|;
    assert RefsBelow(t, n);
    if SizeLink(t) {
      SizeWithinMono(b, t.typeId, n - 1, n);
    } else if t.Array? {
      SizeWithinMono(b, t.valTypeId, n - 1, n);
    }
  }

  /** `get_size_of(id) == get_size_of(skip_mods_and_typedefs(id))`. */
  lemma {:induction false} SizeSeesThrough(b: Btf, id: nat, fuel: nat)
    requires Valid(b) && SizeDefined(b, id)
    requires SkipWithin(b, id, true, fuel).Some?
    ensures SizeDefined(b, SkipModsAndTypedefs(b, id))
    ensures GetSizeOf(b, SkipModsAndTypedefs(b, id)) == GetSizeOf(b, id)
    decreases fuel
  {
    var t := b.types[id];
    if t.IsModOrTypedef() {
      SizeOfStep(b, id);
      SkipThroughLink(b, id);
      SizeSeesThrough(b, t.typeId, fuel - 1);
    }
  }

  // ---------------------------------------------------------------------------
  // get_align_of
  // ---------------------------------------------------------------------------

  predicate MembersBelow(ms: seq<Member>, n: nat) {
    forall k | 0 <= k < |ms| :: ms[k].typeId < n
  }

  /** `get_align_of` allowed `fuel` nested struct/union levels and links. */
  function AlignWithin(b: Btf, id: nat, fuel: nat): Option<u32>
    requires RefsInRange(b) && id < |b.types|
    decreases fuel, 0, 0
  {
    var t := b.types[id];
    assert RefsBelow(t, |b.types|);
    match t
    case Void => Some(0)
    case Int(_, bits, _, _) => Some(Min(b.ptrSz, Add32(bits, 7) / 8))
    case Ptr(_) => Some(b.ptrSz)
    case Array(_, _, v) => if fuel == 0 then None else AlignWithin(b, v, fuel - 1)
    case FuncProto(_, _) => Some(0)
    case Struct(_, _, ms) => if fuel == 0 then None else MembersAlignWithin(b, ms, fuel - 1)
    case Union(_, _, ms) => if fuel == 0 then None else MembersAlignWithin(b, ms, fuel - 1)
    case Enum(_, sz, _) => Some(Min(b.ptrSz, sz))
    case Fwd(_, _) => Some(0)
    case Func(_, _, _) => Some(0)
    case Var(_, _, _) => Some(0)
    case Datasec(_, _, _) => Some(0)
    case Float(_, sz) => Some(Min(b.ptrSz, sz))
    case DeclTag(_, _, _) => Some(0)
    case Enum64(_, sz, _) => Some(Min(b.ptrSz, sz))
    case Typedef(_, x) => if fuel == 0 then None else AlignWithin(b, x, fuel - 1)
    case Volatile(x) => if fuel == 0 then None else AlignWithin(b, x, fuel - 1)
    case Const(x) => if fuel == 0 then None else AlignWithin(b, x, fuel - 1)
    case Restrict(x) => if fuel == 0 then None else AlignWithin(b, x, fuel - 1)
    case TypeTag(_, x) => if fuel == 0 then None else AlignWithin(b, x, fuel - 1)
  }

  /**
   * The struct/union loop of `get_align_of`: start at 1 and take the max with
   * every member's alignment, in order. The result is at least 1, at least
   * every member's alignment, and is 1 or one of them.
   */
  function MembersAlignWithin(b: Btf, ms: seq<Member>, fuel: nat): (r: Option<u32>)
    requires RefsInRange(b) && MembersBelow(ms, |b.types|)
    ensures r.Some? ==> r.value >= 1
    decreases fuel, 1, |ms|
  {
    if |ms| == 0 then Some(1)
    else
      var init := ms[..|ms| - 1];
      assert MembersBelow(init, |b.types|) by {
        assert forall k | 0 <= k < |init| :: init[k] == ms[k];
      }
      match MembersAlignWithin(b, init, fuel)
      case None => None
      case Some(a) =>
        match AlignWithin(b, ms[|ms| - 1].typeId, fuel)
        case None => None
        case Some(m) => Some(Max(a, m))
  }

  /**
   * The member loop is defined exactly when every member's alignment is, and
   * then gives their maximum, or 1 when that is larger.
   */
  lemma {:induction false} MembersAlignSpec(b: Btf, ms: seq<Member>, fuel: nat)
    requires RefsInRange(b) && MembersBelow(ms, |b.types|)
    ensures var r := MembersAlignWithin(b, ms, fuel);
      && (r.Some? <==> forall k | 0 <= k < |ms| :: AlignWithin(b, ms[k].typeId, fuel).Some?)
      && (r.Some? ==> forall k | 0 <= k < |ms| :: AlignWithin(b, ms[k].typeId, fuel).value <= r.value)
      && (r.Some? ==> r.value == 1 || exists k | 0 <= k < |ms| :: AlignWithin(b, ms[k].typeId, fuel).value == r.value)
    decreases |ms|
  {
    if |ms| > 0 {
      var init := ms[..|ms| - 1];
      assert forall k | 0 <= k < |init| :: init[k] == ms[k];
      MembersAlignSpec(b, init, fuel);
    }
  }

  /** `get_align_of(id)` returns: every recursion it makes ends. */
  predicate AlignDefined(b: Btf, id: nat) {
    RefsInRange(b) && id < |b.types| && AlignWithin(b, id, |b.types|).Some?
  }

  lemma {:induction false} AlignWithinMono(b: Btf, id: nat, f: nat, g: nat)
    requires RefsInRange(b) && id < |b.types| && f <= g
    requires AlignWithin(b, id, f).Some?
    ensures AlignWithin(b, id, g) == AlignWithin(b, id, f)
    decreases f, 0, 0
  {
    var t := b.types[id];
    assert RefsBelow(t, |b.types|);
    if t.Array? {
      AlignWithinMono(b, t.valTypeId, f - 1, g - 1);
    } else if t.IsComposite() {
      MembersAlignWithinMono(b, t.members, f - 1, g - 1);
    } else if t.IsModOrTypedef() {
      AlignWithinMono(b, t.typeId, f - 1, g - 1);
    }
  }

  lemma {:induction false} MembersAlignWithinMono(b: Btf, ms: seq<Member>, f: nat, g: nat)
    requires RefsInRange(b) && MembersBelow(ms, |b.types|) && f <= g
    requires MembersAlignWithin(b, ms, f).Some?
    ensures MembersAlignWithin(b, ms, g) == MembersAlignWithin(b, ms, f)
    decreases f, 1, |ms|
  {
    if |ms| > 0 {
      MembersAlignWithinMono(b, ms[..|ms| - 1], f, g);
      AlignWithinMono(b, ms[|ms| - 1].typeId, f, g);
    }
  }

  /** `get_align_of`: the alignment of the type `id` denotes. */
  function GetAlignOf(b: Btf, id: nat): (r: u32)
    requires AlignDefined(b, id)
    ensures (|| b.types[id].Void? || b.types[id].FuncProto? || b.types[id].Fwd? || b.types[id].Func?
             || b.types[id].Var? || b.types[id].Datasec? || b.types[id].DeclTag?) ==> r == 0
    ensures b.types[id].Int? ==> r == Min(b.ptrSz, (b.types[id].bits + 7) % TWO_32 / 8)
    ensures b.types[id].Ptr? ==> r == b.ptrSz
    ensures b.types[id].Enum? || b.types[id].Float? || b.types[id].Enum64? ==> r == Min(b.ptrSz, b.types[id].sz)
    ensures b.types[id].IsComposite() ==> r >= 1
  {
    AlignWithin(b, id, |b.types|).value
  }

  /**
   * A struct or union is aligned to the largest alignment of its members, and
   * to 1 when it has none (or all of them are 0).
   */
  lemma AlignOfComposite(b: Btf, id: nat)
    requires AlignDefined(b, id) && b.types[id].IsComposite()
    ensures forall k | 0 <= k < |b.types[id].members| ::
      AlignDefined(b, b.types[id].members[k].typeId)
      && GetAlignOf(b, b.types[id].members[k].typeId) <= GetAlignOf(b, id)
    ensures GetAlignOf(b, id) == 1
      || exists k | 0 <= k < |b.types[id].members| ::
           GetAlignOf(b, b.types[id].members[k].typeId) == GetAlignOf(b, id)
  {
    var n := |b.types|;
    var ms := b.types[id].members;
    assert RefsBelow(b.types[id], n);
    MembersAlignSpec(b, ms, n - 1);
    forall k | 0 <= k < |ms|
      ensures AlignWithin(b, ms[k].typeId, n) == AlignWithin(b, ms[k].typeId, n - 1)
    {
      AlignWithinMono(b, ms[k].typeId, n - 1, n);
    }
  }

  /**
   * Modifiers, typedefs and type tags are transparent to `get_align_of`, and an
   * array is aligned like its element.
   */
  lemma AlignOfStep(b: Btf, id: nat)
    requires AlignDefined(b, id)
    ensures b.types[id].IsModOrTypedef() ==>
      AlignDefined(b, b.types[id].typeId) && GetAlignOf(b, id) == GetAlignOf(b, b.types[id].typeId)
    ensures b.types[id].Array? ==>
      AlignDefined(b, b.types[id].valTypeId) && GetAlignOf(b, id) == GetAlignOf(b, b.types[id].valTypeId)
  {
    var t := b.types[id];
    var n := |b.types|;
    assert RefsBelow(t, n);
    if t.IsModOrTypedef() {
      AlignWithinMono(b, t.typeId, n - 1, n);
    } else if t.Array? {
      AlignWithinMono(b, t.valTypeId, n - 1, n);
    }
  }

  /** For the scalar kinds the alignment never exceeds the size nor the pointer size. */
  lemma ScalarAlignBelowSize(b: Btf, id: nat)
    requires SizeDefined(b, id) && AlignDefined(b, id)
    requires b.types[id].Int? || b.types[id].Enum? || b.types[id].Float? || b.types[id].Enum64?
    ensures GetAlignOf(b, id) <= GetSizeOf(b, id)
    ensures GetAlignOf(b, id) <= b.ptrSz
  {
  }
}

=== FILE: types_loader.dfy ===
/**
 * Decoding the type section into the table of src/types.rs: one record per
 * `load_type` call, each followed by its kind-specific trailing data, walked
 * back to back from the start of the section.
 */
module TypesLoader {
  import opened Wrappers
  import opened Words
  import opened Records
  import opened Wire
  import opened Types
  import K = Kinds
  import SectionWalk

  /** `size_of::<btf_type>()`: name offset, info word, and the type/size word. */
  const COMMON: nat := 12

  /** The info word of the record at the start of `d`. */
  function InfoOf(d: seq<byte>, e: Endian): u32
    requires |d| >= COMMON
  {
    ReadU32(d, 4, e).value
  }

  /** `BTF_FUNC_STATIC`, `BTF_FUNC_GLOBAL`, `BTF_FUNC_EXTERN`; any other linkage is kept as unknown. */
  function FuncKindOf(vlen: nat): FuncKind {
    if vlen == 0 then FuncStatic
    else if vlen == 1 then FuncGlobal
    else if vlen == 2 then FuncExtern
    else FuncUnknown
  }

  /** `BTF_VAR_STATIC`, `BTF_VAR_GLOBAL_ALLOCATED`, `BTF_VAR_GLOBAL_EXTERNAL`; anything else is an error. */
  function VarKindOf(k: nat): (r: Result<VarKind, LoadError>)
    ensures r.Ok? <==> k <= 2
  {
    if k == 0 then Ok(Static)
    else if k == 1 then Ok(GlobalAlloc)
    else if k == 2 then Ok(GlobalExtern)
    else Err(UnknownVarKind(k))
  }

  /**
   * `type_size`: the bytes a record occupies in the section, 12 for the
   * common part plus the kind's fixed extra word(s) or its `vlen` entries.
   */
  function TypeSize(t: BtfType): (r: nat)
    ensures t.Void? <==> r == 0
    ensures !t.Void? ==> r >= COMMON
  {
    match t
    case Void => 0
    case Ptr(_) => COMMON
    case Fwd(_, _) => COMMON
    case Typedef(_, _) => COMMON
    case Volatile(_) => COMMON
    case Const(_) => COMMON
    case Restrict(_) => COMMON
    case Func(_, _, _) => COMMON
    case Float(_, _) => COMMON
    case TypeTag(_, _) => COMMON
    case Int(_, _, _, _) => COMMON + 4
    case Var(_, _, _) => COMMON + 4
    case DeclTag(_, _, _) => COMMON + 4
    case Array(_, _, _) => COMMON + 12
    case Struct(_, _, ms) => COMMON + |ms| * 12
    case Union(_, _, ms) => COMMON + |ms| * 12
    case Enum(_, _, vs) => COMMON + |vs| * 8
    case Enum64(_, _, vs) => COMMON + |vs| * 12
    case FuncProto(_, ps) => COMMON + |ps| * 8
    case Datasec(_, _, vs) => COMMON + |vs| * 12
  }

  /** The trailing entries of a record with `n` of them, in order. */
  function Entries(s: Shape, extra: seq<byte>, strs: seq<byte>, n: nat, e: Endian): (r: Result<seq<Entry>, LoadError>)
    ensures r.Ok? ==> |r.value| == n && COMMON + EntryOff(s, n) <= COMMON + |extra|
    ensures r.Ok? ==> forall k | 0 <= k < n :: Fits(s, r.value[k])
  {
    LoadEntries(s, extra, strs, n, e)
  }

  /**
   * `load_type`: dispatch on the kind in bits 24..28 of the info word. Each
   * kind reads its fields in the program's order, so the first failing read
   * decides the error (an Int's name is looked up before its encoding is
   * checked; an Enum's values before its name).
   */
  function LoadType(d: seq<byte>, strs: seq<byte>, e: Endian): (r: Result<BtfType, LoadError>)
    ensures |d| < COMMON ==> r == Err(Truncated(0))
    ensures r.Ok? ==> |d| >= COMMON && !r.value.Void? && TypeSize(r.value) <= |d|
  {
    if |d| < COMMON then Err(Truncated(0))
    else
      var info := InfoOf(d, e);
      var kind := GetKind(info);
      match K.FromCode(kind)
      case None => Err(UnknownKind(kind))
      case Some(k) =>
        if k == K.Void then Err(UnknownKind(kind))
        else LoadBody(k, ReadU32(d, 0, e).value, info, ReadU32(d, 8, e).value, d[COMMON..], strs, e)
  }

  /**
   * The kind of a decoded record is the one its info word names; a code that
   * names no kind, or names Void, is rejected; a `Fwd` is a union exactly when
   * the kind flag is set.
   */
  lemma LoadTypeDispatch(d: seq<byte>, strs: seq<byte>, e: Endian)
    ensures var r := LoadType(d, strs, e);
      r.Ok? ==> K.Code(r.value.Kind()) == GetKind(InfoOf(d, e))
    ensures |d| >= COMMON && K.FromCode(GetKind(InfoOf(d, e))) in {None, Some(K.Void)} ==>
      LoadType(d, strs, e) == Err(UnknownKind(GetKind(InfoOf(d, e))))
    ensures var r := LoadType(d, strs, e);
      r.Ok? && r.value.Fwd? ==> (r.value.fwdKind == FwdUnion <==> GetKindFlag(InfoOf(d, e)))
  {
  }

  /** The kinds whose record is followed by `vlen` entries. */
  predicate HasEntries(k: K.BtfKind) {
    k.Struct? || k.Union? || k.Enum? || k.Enum64? || k.FuncProto? || k.Datasec?
  }

  /**
   * The kind-specific part of `load_type`, given the three words of `btf_type`
   * and the bytes after them: one arm per kind, here grouped into the kinds
   * with trailing entries and the rest.
   */
  function LoadBody(k: K.BtfKind, nameOff: u32, info: u32, typeId: u32, extra: seq<byte>, strs: seq<byte>, e: Endian)
    : (r: Result<BtfType, LoadError>)
    requires k != K.Void
    ensures r.Ok? ==> r.value.Kind() == k && TypeSize(r.value) <= COMMON + |extra|
    ensures r.Ok? && r.value.Fwd? ==> (r.value.fwdKind == FwdUnion <==> GetKindFlag(info))
  {
    if HasEntries(k) then LoadEntriesBody(k, nameOff, info, typeId, extra, strs, e)
    else LoadFixedBody(k, nameOff, info, typeId, extra, strs, e)
  }

  /** The arms of `load_type` for the kinds with `vlen` trailing entries. */
  function LoadEntriesBody(k: K.BtfKind, nameOff: u32, info: u32, typeId: u32, extra: seq<byte>, strs: seq<byte>, e: Endian)
    : (r: Result<BtfType, LoadError>)
    requires HasEntries(k)
    ensures r.Ok? ==> r.value.Kind() == k && TypeSize(r.value) <= COMMON + |extra|
  {
    if k.Struct? then LoadComposite(true, nameOff, info, typeId, extra, strs, e)
    else if k.Union? then LoadComposite(false, nameOff, info, typeId, extra, strs, e)
    else if k.Enum? then LoadEnum(nameOff, info, typeId, extra, strs, e)
    else if k.Enum64? then LoadEnum64(nameOff, info, typeId, extra, strs, e)
    else if k.FuncProto? then LoadFuncProto(info, typeId, extra, strs, e)
    else LoadDatasec(nameOff, info, typeId, extra, strs, e)
  }

  /** The arms of `load_type` for the kinds with a fixed-size record. */
  function LoadFixedBody(k: K.BtfKind, nameOff: u32, info: u32, typeId: u32, extra: seq<byte>, strs: seq<byte>, e: Endian)
    : (r: Result<BtfType, LoadError>)
    requires k != K.Void && !HasEntries(k)
    ensures r.Ok? ==> r.value.Kind() == k && TypeSize(r.value) <= COMMON + |extra|
    ensures r.Ok? && r.value.Fwd? ==> (r.value.fwdKind == FwdUnion <==> GetKindFlag(info))
  {
    if k.Int? then LoadInt(nameOff, extra, strs, e)
    else if k.Ptr? then Ok(BtfType.Ptr(typeId))
    else if k.Array? then LoadArray(extra, e)
    else if k.Fwd? then
      var name :- GetBtfStr(strs, nameOff);
      Ok(BtfType.Fwd(name, if GetKindFlag(info) then FwdUnion else FwdStruct))
    else if k.Typedef? then
      var name :- GetBtfStr(strs, nameOff);
      Ok(BtfType.Typedef(name, typeId))
    else if k.Volatile? then Ok(BtfType.Volatile(typeId))
    else if k.Const? then Ok(BtfType.Const(typeId))
    else if k.Restrict? then Ok(BtfType.Restrict(typeId))
    else if k.Func? then
      var name :- GetBtfStr(strs, nameOff);
      Ok(BtfType.Func(name, typeId, FuncKindOf(GetVlen(info))))
    else if k.Var? then LoadVar(nameOff, typeId, extra, strs, e)
    else if k.Float? then
      var name :- GetBtfStr(strs, nameOff);
      Ok(BtfType.Float(name, typeId))
    else if k.DeclTag? then LoadDeclTag(nameOff, typeId, extra, strs, e)
    else
      var name :- GetBtfStr(strs, nameOff);
      Ok(BtfType.TypeTag(name, typeId))
  }

  /** `load_int`: the extra word is read first, then the name, then the encoding is checked. */
  function LoadInt(nameOff: u32, extra: seq<byte>, strs: seq<byte>, e: Endian): (r: Result<BtfType, LoadError>)
    ensures r.Ok? ==> r.value.Kind() == K.Int && r.value.Int? && |extra| >= 4
    ensures r.Ok? ==> var ii := DecodeIntInfo(ReadU32(extra, 0, e).value);
      r.value.bits == ii.bits && r.value.offset == ii.offset && IntEncodingCode(r.value.encoding) == ii.enc
    ensures r.Ok? ==> TypeSize(r.value) <= COMMON + |extra|
  {
    var w :- ReadU32(extra, 0, e);
    var name :- GetBtfStr(strs, nameOff);
    var ii := DecodeIntInfo(w);
    var enc :- IntEncodingOf(ii.enc);
    IntEncodingRoundTrip(enc, ii.enc);
    Ok(BtfType.Int(name, ii.bits, ii.offset, enc))
  }

  /** `load_array`: `btf_array` is `val_type_id`, `idx_type_id`, `nelems`, in that order. */
  function LoadArray(extra: seq<byte>, e: Endian): (r: Result<BtfType, LoadError>)
    ensures r.Ok? <==> |extra| >= 12
    ensures r.Ok? ==> (&& r.value.Array? && r.value.Kind() == K.Array && r.value.valTypeId == ReadU32(extra, 0, e).value
                       && r.value.idxTypeId == ReadU32(extra, 4, e).value
                       && r.value.nelems == ReadU32(extra, 8, e).value)
    ensures r.Ok? ==> TypeSize(r.value) <= COMMON + |extra|
  {
    if |extra| < 12 then Err(Truncated(0))
    else Ok(BtfType.Array(ReadU32(extra, 8, e).value, ReadU32(extra, 4, e).value, ReadU32(extra, 0, e).value))
  }

  /** `load_struct` / `load_union`: the name, then `vlen` members split by the kind flag. */
  function LoadComposite(isStruct: bool, nameOff: u32, info: u32, typeId: u32, extra: seq<byte>, strs: seq<byte>, e: Endian)
    : (r: Result<BtfType, LoadError>)
    ensures r.Ok? ==> (if isStruct then r.value.Struct? && r.value.Kind() == K.Struct
                        else r.value.Union? && r.value.Kind() == K.Union)
    ensures r.Ok? ==> r.value.sz == typeId && |r.value.members| == GetVlen(info)
    ensures r.Ok? ==> var es := LoadEntries(MemberRecords(GetKindFlag(info)), extra, strs, GetVlen(info), e);
      es.Ok? && r.value.members == MembersOf(es.value)
    ensures r.Ok? ==> TypeSize(r.value) == COMMON + EntryOff(MemberRecords(GetKindFlag(info)), GetVlen(info)) <= COMMON + |extra|
  {
    var name :- GetBtfStr(strs, nameOff);
    var es :- LoadEntries(MemberRecords(GetKindFlag(info)), extra, strs, GetVlen(info), e);
    if isStruct then Ok(BtfType.Struct(name, typeId, MembersOf(es)))
    else Ok(BtfType.Union(name, typeId, MembersOf(es)))
  }

  /** `load_enum`: the `vlen` values, then the name. */
  function LoadEnum(nameOff: u32, info: u32, typeId: u32, extra: seq<byte>, strs: seq<byte>, e: Endian)
    : (r: Result<BtfType, LoadError>)
    ensures r.Ok? ==> r.value.Kind() == K.Enum && r.value.Enum? && r.value.sz == typeId
    ensures r.Ok? ==> var es := LoadEntries(EnumRecords, extra, strs, GetVlen(info), e);
      es.Ok? && r.value.values == EnumValuesOf(es.value)
    ensures r.Ok? ==> TypeSize(r.value) == COMMON + EntryOff(EnumRecords, GetVlen(info)) <= COMMON + |extra|
  {
    var les := LoadEntries(EnumRecords, extra, strs, GetVlen(info), e);
    if les.Err? then Err(les.error)
    else
      var es := les.value;
      assert |es| == GetVlen(info) && 8 * |es| <= |extra|;
      var name :- GetBtfStr(strs, nameOff);
      Ok(BtfType.Enum(name, typeId, EnumValuesOf(es)))
  }

  /** `load_enum64`: the `vlen` values (decoded as the program does), then the name. */
  function LoadEnum64(nameOff: u32, info: u32, typeId: u32, extra: seq<byte>, strs: seq<byte>, e: Endian)
    : (r: Result<BtfType, LoadError>)
    ensures r.Ok? ==> r.value.Kind() == K.Enum64 && r.value.Enum64? && r.value.sz == typeId
    ensures r.Ok? ==> var es := LoadEntries(Enum64Records, extra, strs, GetVlen(info), e);
      es.Ok? && r.value.values64 == Enum64ValuesOf(es.value)
    ensures r.Ok? ==> TypeSize(r.value) == COMMON + EntryOff(Enum64Records, GetVlen(info)) <= COMMON + |extra|
  {
    var les := LoadEntries(Enum64Records, extra, strs, GetVlen(info), e);
    if les.Err? then Err(les.error)
    else
      var es := les.value;
      assert |es| == GetVlen(info) && 12 * |es| <= |extra|;
      var name :- GetBtfStr(strs, nameOff);
      Ok(BtfType.Enum64(name, typeId, Enum64ValuesOf(es)))
  }

  /** `load_func_proto`: the `vlen` parameters; a prototype has no name. */
  function LoadFuncProto(info: u32, typeId: u32, extra: seq<byte>, strs: seq<byte>, e: Endian)
    : (r: Result<BtfType, LoadError>)
    ensures r.Ok? ==> r.value.Kind() == K.FuncProto && r.value.FuncProto? && r.value.resTypeId == typeId
    ensures r.Ok? ==> var es := LoadEntries(ParamRecords, extra, strs, GetVlen(info), e);
      es.Ok? && r.value.params == ParamsOf(es.value)
    ensures r.Ok? ==> TypeSize(r.value) == COMMON + EntryOff(ParamRecords, GetVlen(info)) <= COMMON + |extra|
  {
    var les := LoadEntries(ParamRecords, extra, strs, GetVlen(info), e);
    if les.Err? then Err(les.error)
    else
      var es := les.value;
      assert |es| == GetVlen(info) && 8 * |es| <= |extra|;
      Ok(BtfType.FuncProto(typeId, ParamsOf(es)))
  }

  /** `load_var`: the linkage word, then the name, then the linkage is checked. */
  function LoadVar(nameOff: u32, typeId: u32, extra: seq<byte>, strs: seq<byte>, e: Endian)
    : (r: Result<BtfType, LoadError>)
    ensures r.Ok? ==> r.value.Kind() == K.Var && r.value.Var? && r.value.typeId == typeId && |extra| >= 4
    ensures r.Ok? ==> ReadU32(extra, 0, e).value <= 2
    ensures r.Ok? ==> TypeSize(r.value) <= COMMON + |extra|
  {
    var w :- ReadU32(extra, 0, e);
    var name :- GetBtfStr(strs, nameOff);
    var vk :- VarKindOf(w);
    Ok(BtfType.Var(name, typeId, vk))
  }

  /** `load_datasec`: the `vlen` variables, then the name. */
  function LoadDatasec(nameOff: u32, info: u32, typeId: u32, extra: seq<byte>, strs: seq<byte>, e: Endian)
    : (r: Result<BtfType, LoadError>)
    ensures r.Ok? ==> r.value.Kind() == K.Datasec && r.value.Datasec? && r.value.sz == typeId
    ensures r.Ok? ==> var es := LoadEntries(DatasecVarRecords, extra, strs, GetVlen(info), e);
      es.Ok? && r.value.vars == DatasecVarsOf(es.value)
    ensures r.Ok? ==> TypeSize(r.value) == COMMON + EntryOff(DatasecVarRecords, GetVlen(info)) <= COMMON + |extra|
  {
    var es :- LoadEntries(DatasecVarRecords, extra, strs, GetVlen(info), e);
    var name :- GetBtfStr(strs, nameOff);
    Ok(BtfType.Datasec(name, typeId, DatasecVarsOf(es)))
  }

  /** `load_decl_tag`: the component index, then the name. */
  function LoadDeclTag(nameOff: u32, typeId: u32, extra: seq<byte>, strs: seq<byte>, e: Endian)
    : (r: Result<BtfType, LoadError>)
    ensures r.Ok? ==> r.value.Kind() == K.DeclTag && r.value.DeclTag? && r.value.typeId == typeId && |extra| >= 4
    ensures r.Ok? ==> r.value.compIdx == ReadU32(extra, 0, e).value
    ensures r.Ok? ==> TypeSize(r.value) <= COMMON + |extra|
  {
    var w :- ReadU32(extra, 0, e);
    var name :- GetBtfStr(strs, nameOff);
    Ok(BtfType.DeclTag(name, typeId, w))
  }

  /** The body decoders read nothing past the record's own `TypeSize` bytes. */
  lemma LoadBodyPrefix(k: K.BtfKind, nameOff: u32, info: u32, typeId: u32, extra: seq<byte>, strs: seq<byte>, e: Endian, m: nat,
                        short: seq<byte>)
    requires k != K.Void
    requires LoadBody(k, nameOff, info, typeId, extra, strs, e).Ok?
    requires TypeSize(LoadBody(k, nameOff, info, typeId, extra, strs, e).value) == COMMON + m
    requires m <= |extra| && short == extra[..m]
    ensures LoadBody(k, nameOff, info, typeId, short, strs, e) == LoadBody(k, nameOff, info, typeId, extra, strs, e)
  {
    if HasEntries(k) {
      EntriesBodyPrefix(k, nameOff, info, typeId, extra, strs, e, m);
    } else {
      FixedBodyPrefix(k, nameOff, info, typeId, extra, strs, e, m);
    }
  }

  /** The entry loops read only the bytes of their `vlen` entries. */
  lemma EntriesBodyPrefix(k: K.BtfKind, nameOff: u32, info: u32, typeId: u32, extra: seq<byte>, strs: seq<byte>, e: Endian, m: nat)
    requires HasEntries(k)
    requires LoadEntriesBody(k, nameOff, info, typeId, extra, strs, e).Ok?
    requires TypeSize(LoadEntriesBody(k, nameOff, info, typeId, extra, strs, e).value) == COMMON + m
    requires m <= |extra|
    ensures LoadEntriesBody(k, nameOff, info, typeId, extra[..m], strs, e)
         == LoadEntriesBody(k, nameOff, info, typeId, extra, strs, e)
  {
    if k.Struct? || k.Union? {
      CompositePrefix(k.Struct?, nameOff, info, typeId, extra, strs, e, m);
    } else if k.Enum? {
      EnumPrefix(nameOff, info, typeId, extra, strs, e, m);
    } else if k.Enum64? {
      Enum64Prefix(nameOff, info, typeId, extra, strs, e, m);
    } else if k.FuncProto? {
      FuncProtoPrefix(info, typeId, extra, strs, e, m);
    } else {
      DatasecPrefix(nameOff, info, typeId, extra, strs, e, m);
    }
  }

  lemma CompositePrefix(isStruct: bool, nameOff: u32, info: u32, typeId: u32, extra: seq<byte>, strs: seq<byte>, e: Endian, m: nat)
    requires LoadComposite(isStruct, nameOff, info, typeId, extra, strs, e).Ok?
    requires TypeSize(LoadComposite(isStruct, nameOff, info, typeId, extra, strs, e).value) == COMMON + m
    requires m <= |extra|
    ensures LoadComposite(isStruct, nameOff, info, typeId, extra[..m], strs, e)
         == LoadComposite(isStruct, nameOff, info, typeId, extra, strs, e)
  {
    LoadEntriesPrefix(MemberRecords(GetKindFlag(info)), extra, m, strs, GetVlen(info), e);
  }

  lemma EnumPrefix(nameOff: u32, info: u32, typeId: u32, extra: seq<byte>, strs: seq<byte>, e: Endian, m: nat)
    requires LoadEnum(nameOff, info, typeId, extra, strs, e).Ok?
    requires TypeSize(LoadEnum(nameOff, info, typeId, extra, strs, e).value) == COMMON + m
    requires m <= |extra|
    ensures LoadEnum(nameOff, info, typeId, extra[..m], strs, e) == LoadEnum(nameOff, info, typeId, extra, strs, e)
  {
    LoadEntriesPrefix(EnumRecords, extra, m, strs, GetVlen(info), e);
  }

  lemma Enum64Prefix(nameOff: u32, info: u32, typeId: u32, extra: seq<byte>, strs: seq<byte>, e: Endian, m: nat)
    requires LoadEnum64(nameOff, info, typeId, extra, strs, e).Ok?
    requires TypeSize(LoadEnum64(nameOff, info, typeId, extra, strs, e).value) == COMMON + m
    requires m <= |extra|
    ensures LoadEnum64(nameOff, info, typeId, extra[..m], strs, e) == LoadEnum64(nameOff, info, typeId, extra, strs, e)
  {
    LoadEntriesPrefix(Enum64Records, extra, m, strs, GetVlen(info), e);
  }

  lemma FuncProtoPrefix(info: u32, typeId: u32, extra: seq<byte>, strs: seq<byte>, e: Endian, m: nat)
    requires LoadFuncProto(info, typeId, extra, strs, e).Ok?
    requires TypeSize(LoadFuncProto(info, typeId, extra, strs, e).value) == COMMON + m
    requires m <= |extra|
    ensures LoadFuncProto(info, typeId, extra[..m], strs, e) == LoadFuncProto(info, typeId, extra, strs, e)
  {
    LoadEntriesPrefix(ParamRecords, extra, m, strs, GetVlen(info), e);
  }

  lemma DatasecPrefix(nameOff: u32, info: u32, typeId: u32, extra: seq<byte>, strs: seq<byte>, e: Endian, m: nat)
    requires LoadDatasec(nameOff, info, typeId, extra, strs, e).Ok?
    requires TypeSize(LoadDatasec(nameOff, info, typeId, extra, strs, e).value) == COMMON + m
    requires m <= |extra|
    ensures LoadDatasec(nameOff, info, typeId, extra[..m], strs, e) == LoadDatasec(nameOff, info, typeId, extra, strs, e)
  {
    LoadEntriesPrefix(DatasecVarRecords, extra, m, strs, GetVlen(info), e);
  }

  /** The fixed-size arms read only their extra words. */
  lemma FixedBodyPrefix(k: K.BtfKind, nameOff: u32, info: u32, typeId: u32, extra: seq<byte>, strs: seq<byte>, e: Endian, m: nat)
    requires k != K.Void && !HasEntries(k)
    requires LoadFixedBody(k, nameOff, info, typeId, extra, strs, e).Ok?
    requires TypeSize(LoadFixedBody(k, nameOff, info, typeId, extra, strs, e).value) == COMMON + m
    requires m <= |extra|
    ensures LoadFixedBody(k, nameOff, info, typeId, extra[..m], strs, e)
         == LoadFixedBody(k, nameOff, info, typeId, extra, strs, e)
  {
    if k.Int? || k.Var? || k.DeclTag? {
      ReadU32Prefix(extra, m, 0, e);
    } else if k.Array? {
      ReadU32Prefix(extra, m, 0, e);
      ReadU32Prefix(extra, m, 4, e);
      ReadU32Prefix(extra, m, 8, e);
    }
  }

  /**
   * A record is decoded from exactly its `TypeSize` bytes: cutting the input
   * right after them does not change the result, which is why the section
   * walk may advance by `type_size` alone.
   */
  lemma LoadTypeReadsOwnBytes(d: seq<byte>, strs: seq<byte>, e: Endian)
    requires LoadType(d, strs, e).Ok?
    ensures LoadType(d[..TypeSize(LoadType(d, strs, e).value)], strs, e) == LoadType(d, strs, e)
  {
    LoadTypeDispatch(d, strs, e);
    var t := LoadType(d, strs, e).value;
    var n := TypeSize(t);
    var d' := d[..n];
    ReadU32Prefix(d, n, 0, e);
    ReadU32Prefix(d, n, 4, e);
    ReadU32Prefix(d, n, 8, e);
    var info := InfoOf(d, e);
    var k := K.FromCode(GetKind(info)).value;
    var w0, w2 := ReadU32(d, 0, e).value, ReadU32(d, 8, e).value;
    LoadTypeOfBody(d, strs, e, k, w0, info, w2);
    LoadTypeOfBody(d', strs, e, k, w0, info, w2);
    LoadBodyPrefix(k, w0, info, w2, d[COMMON..], strs, e, n - COMMON, d'[COMMON..]);
  }

  /** A record whose info word names a kind other than Void is decoded by that kind's body loader. */
  lemma LoadTypeOfBody(d: seq<byte>, strs: seq<byte>, e: Endian, k: K.BtfKind, w0: u32, info: u32, w2: u32)
    requires |d| >= COMMON && info == InfoOf(d, e) && K.FromCode(GetKind(info)) == Some(k) && k != K.Void
    requires w0 == ReadU32(d, 0, e).value && w2 == ReadU32(d, 8, e).value
    ensures LoadType(d, strs, e) == LoadBody(k, w0, info, w2, d[COMMON..], strs, e)
  {
  }

  /** `load_type` against a fixed string section and byte order, as the walk's record decoder. */
  function Decoder(strs: seq<byte>, e: Endian): seq<byte> -> Result<BtfType, LoadError> {
    d => LoadType(d, strs, e)
  }

  /** `load_type` consumes at least the 12 common bytes and never more than it is given. */
  lemma LoadTypeAdvances(strs: seq<byte>, e: Endian)
    ensures SectionWalk.Advances(Decoder(strs, e), TypeSize)
  {
  }

  /** Where the type section starts: `hdr_len + type_off`, a `u32` sum. */
  function TypeSectionStart(h: Header): u32 {
    Add32(h.hdrLen, h.typeOff)
  }

  /** Where the string section starts: `hdr_len + str_off`, a `u32` sum. */
  function StrSectionStart(h: Header): u32 {
    Add32(h.hdrLen, h.strOff)
  }

  /** Without wrap-around the sections start `hdr_len + off` bytes in. */
  lemma SectionStartsNoWrap(h: Header)
    requires h.hdrLen + h.typeOff < TWO_32 && h.hdrLen + h.strOff < TWO_32
    ensures TypeSectionStart(h) == h.hdrLen + h.typeOff && StrSectionStart(h) == h.hdrLen + h.strOff
  {
  }

  /** After a prefix of `hdr_len` bytes, the sections are cut out of what follows at their offsets. */
  lemma SectionsAfter(h: Header, hd: seq<byte>, body: seq<byte>)
    requires |hd| == h.hdrLen && h.hdrLen + |body| < TWO_32
    requires h.typeOff + h.typeLen <= |body| && h.strOff + h.strLen <= |body|
    ensures Slice(hd + body, TypeSectionStart(h), h.typeLen) == Ok(body[h.typeOff..h.typeOff + h.typeLen])
    ensures Slice(hd + body, StrSectionStart(h), h.strLen) == Ok(body[h.strOff..h.strOff + h.strLen])
  {
    SectionStartsNoWrap(h);
    SliceAfter(hd, body, h.typeOff, h.typeLen);
    SliceAfter(hd, body, h.strOff, h.strLen);
  }

  /** Slicing past a prefix is slicing what follows it. */
  lemma SliceAfter(hd: seq<byte>, body: seq<byte>, off: nat, len: nat)
    requires off + len <= |body|
    ensures Slice(hd + body, |hd| + off, len) == Ok(body[off..off + len])
  {
    var d := hd + body;
    assert d[|hd| + off..|hd| + off + len] == body[off..off + len] by {
      assert d[|hd|..] == body;
    }
  }

  /**
   * The section offsets count from the end of the whole header: in a `.BTF`
   * section laid out as the 24 header bytes, the rest of a `hdr_len`-byte
   * header and then the body, each section is cut out of the body at its
   * offset.
   */
  lemma SectionsFollowHeader(h: Header, pad: seq<byte>, body: seq<byte>, e: Endian)
    requires h.hdrLen == HEADER_SIZE + |pad| && h.hdrLen + |body| < TWO_32
    requires h.typeOff + h.typeLen <= |body| && h.strOff + h.strLen <= |body|
    ensures var data := EncodeHeader(h, e) + pad + body;
      && ReadHeader(data, e) == Ok(h)
      && Slice(data, TypeSectionStart(h), h.typeLen) == Ok(body[h.typeOff..h.typeOff + h.typeLen])
      && Slice(data, StrSectionStart(h), h.strLen) == Ok(body[h.strOff..h.strOff + h.strLen])
  {
    var hd := EncodeHeader(h, e) + pad;
    HeaderRoundTrip(h, pad + body, e);
    assert hd + body == EncodeHeader(h, e) + (pad + body);
    SectionsAfter(h, hd, body);
  }

  /**
   * `Btf::load` on the bytes of the `.BTF` section: header checks, then the
   * sections it locates.
   */
  function LoadBtf(data: seq<byte>, e: Endian, is64: bool): (r: Result<Btf, LoadError>)
    ensures |data| < HEADER_SIZE ==> r == Err(Truncated(0))
    ensures r.Ok? ==> ReadHeader(data, e).Ok? && CheckHeader(ReadHeader(data, e).value).Ok?
    ensures ReadHeader(data, e).Ok? && CheckHeader(ReadHeader(data, e).value).Err? ==>
      r == Err(CheckHeader(ReadHeader(data, e).value).error)
    ensures ReadHeader(data, e).Ok? && CheckHeader(ReadHeader(data, e).value).Ok? ==>
      var h := ReadHeader(data, e).value;
      r == LoadSections(data, StrSectionStart(h), h.strLen, TypeSectionStart(h), h.typeLen, e, is64)
  {
    var h :- ReadHeader(data, e);
    if CheckHeader(h).Err? then Err(CheckHeader(h).error)
    else LoadSections(data, StrSectionStart(h), h.strLen, TypeSectionStart(h), h.typeLen, e, is64)
  }

  /**
   * The part of `Btf::load` after the header checks: the string section, then
   * the walk over the type section. Id 0 is Void and the section's records
   * follow it in order.
   */
  function LoadSections(data: seq<byte>, strStart: nat, strLen: nat, typeStart: nat, typeLen: nat, e: Endian, is64: bool)
    : (r: Result<Btf, LoadError>)
    ensures strStart + strLen > |data| ==> r == Err(SliceOutOfRange(strStart, strStart + strLen))
    ensures r.Ok? ==> strStart + strLen <= |data| && typeStart + typeLen <= |data|
    ensures r.Ok? ==> |r.value.types| >= 1 && r.value.types[0].Void?
    ensures r.Ok? ==> r.value.ptrSz == (if is64 then 8 else 4)
    ensures r.Ok? ==> (LoadTypes(data[strStart..strStart + strLen], data[typeStart..typeStart + typeLen], e)
                       == Ok(r.value.types[1..]))
    ensures strStart + strLen <= |data| && typeStart + typeLen > |data| ==>
      r == Err(SliceOutOfRange(typeStart, typeStart + typeLen))
    ensures strStart + strLen <= |data| && typeStart + typeLen <= |data| ==>
      var lt := LoadTypes(data[strStart..strStart + strLen], data[typeStart..typeStart + typeLen], e);
      && (lt.Ok? ==> r == Ok(Btf([BtfType.Void] + lt.value, if is64 then 8 else 4)))
      && (lt.Err? ==> r == Err(lt.error))
  {
    match Slice(data, strStart, strLen)
    case Err(err) => Err(err)
    case Ok(strs) =>
      match Slice(data, typeStart, typeLen)
      case Err(err) => Err(err)
      case Ok(section) =>
        match LoadTypes(strs, section, e)
        case Err(err) => Err(err)
        case Ok(ts) =>
          assert ([BtfType.Void] + ts)[1..] == ts;
          Ok(Btf([BtfType.Void] + ts, if is64 then 8 else 4))
  }

  /**
   * The walk over the type section. The records cover the section exactly and
   * none is Void; type id i (i >= 1) is the record `load_type` decodes where
   * the records of ids 1..i-1 end, and by `SectionWalk.WalkFromUnique` no
   * other split of the section exists. A failure is the error of a record
   * that starts inside the section.
   */
  function LoadTypes(strs: seq<byte>, section: seq<byte>, e: Endian): (r: Result<seq<BtfType>, LoadError>)
    ensures r.Ok? ==> SectionWalk.SumOf(TypeSize, r.value) == |section|
    ensures r.Ok? ==> forall i | 0 <= i < |r.value| :: !r.value[i].Void?
    ensures r.Ok? ==> SectionWalk.RecordsFrom(Decoder(strs, e), TypeSize, section, 0, r.value)
    ensures r.Err? ==> exists at | 0 <= at < |section| :: LoadType(section[at..], strs, e) == Err(r.error)
    ensures forall ts | Splits(strs, section, e, ts) :: r == Ok(ts)
    ensures r.Ok? <==> exists ts :: Splits(strs, section, e, ts)
    ensures r.Ok? ==> Splits(strs, section, e, r.value)
  {
    LoadTypeAdvances(strs, e);
    WalkSplits(strs, section, e);
    SectionWalk.WalkFrom(Decoder(strs, e), TypeSize, section, 0)
  }

  /** The records `ts` cover the type section back to back, each decoded where the previous one ends. */
  predicate Splits(strs: seq<byte>, section: seq<byte>, e: Endian, ts: seq<BtfType>) {
    SectionWalk.RecordsFrom(Decoder(strs, e), TypeSize, section, 0, ts)
  }

  /** The walk over a section finds the one split it has, and succeeds only on a split. */
  lemma WalkSplits(strs: seq<byte>, section: seq<byte>, e: Endian)
    requires SectionWalk.Advances(Decoder(strs, e), TypeSize)
    ensures forall ts | Splits(strs, section, e, ts) :: SectionWalk.WalkFrom(Decoder(strs, e), TypeSize, section, 0) == Ok(ts)
    ensures SectionWalk.WalkFrom(Decoder(strs, e), TypeSize, section, 0).Ok? ==>
      Splits(strs, section, e, SectionWalk.WalkFrom(Decoder(strs, e), TypeSize, section, 0).value)
  {
    forall ts | Splits(strs, section, e, ts)
      ensures SectionWalk.WalkFrom(Decoder(strs, e), TypeSize, section, 0) == Ok(ts)
    {
      SectionWalk.WalkFromUnique(Decoder(strs, e), TypeSize, section, 0, ts);
    }
  }

  /**
   * The bytes of a well-formed `.BTF` section: a header that reads and
   * checks, both sections inside the data, and a type section that splits
   * into the records `ts`.
   */
  predicate LaidOut(data: seq<byte>, e: Endian, ts: seq<BtfType>) {
    && ReadHeader(data, e).Ok? && CheckHeader(ReadHeader(data, e).value).Ok?
    && var h := ReadHeader(data, e).value;
       SectionsLaidOut(data, StrSectionStart(h), h.strLen, TypeSectionStart(h), h.typeLen, e, ts)
  }

  /** Both sections lie inside the data and the type section splits into the records `ts`. */
  predicate SectionsLaidOut(data: seq<byte>, strStart: nat, strLen: nat, typeStart: nat, typeLen: nat, e: Endian,
                            ts: seq<BtfType>) {
    && strStart + strLen <= |data| && typeStart + typeLen <= |data|
    && Splits(data[strStart..strStart + strLen], data[typeStart..typeStart + typeLen], e, ts)
  }

  /** A well-formed `.BTF` section loads: Void, then the records of its type section. */
  lemma LoadBtfLoads(data: seq<byte>, e: Endian, is64: bool, ts: seq<BtfType>)
    requires LaidOut(data, e, ts)
    ensures LoadBtf(data, e, is64) == Ok(Btf([BtfType.Void] + ts, if is64 then 8 else 4))
  {
    var h := ReadHeader(data, e).value;
    HeaderChecked(data, e, is64);
    SectionsLoad(data, StrSectionStart(h), h.strLen, TypeSectionStart(h), h.typeLen, e, is64, ts);
  }

  /** Sections that load are laid out as the records after Void. */
  lemma SectionsLoaded(data: seq<byte>, strStart: nat, strLen: nat, typeStart: nat, typeLen: nat, e: Endian, is64: bool)
    requires LoadSections(data, strStart, strLen, typeStart, typeLen, e, is64).Ok?
    ensures SectionsLaidOut(data, strStart, strLen, typeStart, typeLen, e,
                            LoadSections(data, strStart, strLen, typeStart, typeLen, e, is64).value.types[1..])
  {
  }

  /** Past a header that reads and checks, the load is the load of the sections it locates. */
  lemma HeaderChecked(data: seq<byte>, e: Endian, is64: bool)
    requires ReadHeader(data, e).Ok? && CheckHeader(ReadHeader(data, e).value).Ok?
    ensures var h := ReadHeader(data, e).value;
      LoadBtf(data, e, is64) == LoadSections(data, StrSectionStart(h), h.strLen, TypeSectionStart(h), h.typeLen, e, is64)
  {
  }

  /** Sections inside the data whose type section splits into `ts` load as Void, then `ts`. */
  lemma SectionsLoad(data: seq<byte>, strStart: nat, strLen: nat, typeStart: nat, typeLen: nat, e: Endian, is64: bool,
                     ts: seq<BtfType>)
    requires SectionsLaidOut(data, strStart, strLen, typeStart, typeLen, e, ts)
    ensures LoadSections(data, strStart, strLen, typeStart, typeLen, e, is64) == Ok(Btf([BtfType.Void] + ts, if is64 then 8 else 4))
  {
    assert LoadTypes(data[strStart..strStart + strLen], data[typeStart..typeStart + typeLen], e) == Ok(ts);
  }

  /** `Btf::load` succeeds exactly on a well-formed `.BTF` section, and then gives Void and its records. */
  lemma LoadBtfOk(data: seq<byte>, e: Endian, is64: bool)
    ensures LoadBtf(data, e, is64).Ok? <==> exists ts :: LaidOut(data, e, ts)
    ensures LoadBtf(data, e, is64).Ok? ==> LaidOut(data, e, LoadBtf(data, e, is64).value.types[1..])
  {
    var r := LoadBtf(data, e, is64);
    if r.Ok? {
      var h := ReadHeader(data, e).value;
      HeaderChecked(data, e, is64);
      SectionsLoaded(data, StrSectionStart(h), h.strLen, TypeSectionStart(h), h.typeLen, e, is64);
      assert LaidOut(data, e, r.value.types[1..]);
    } else {
      forall ts | LaidOut(data, e, ts) ensures false {
        LoadBtfLoads(data, e, is64, ts);
      }
    }
  }
}

=== FILE: walk.dfy ===
/**
 * The record walk shared by every loader: starting at an offset, decode a
 * record, advance by its encoded size, and stop at the end of the section;
 * the first failing record ends the walk with its error. The record decoder
 * and the size table are parameters, so the same walk serves the current
 * loader and the two older ones.
 */
module SectionWalk {
  import opened Wrappers
  import opened Words

  /** A decoder that never succeeds on fewer bytes than the record it returns, and records are never empty. */
  ghost predicate Advances<T, E>(load: seq<byte> -> Result<T, E>, size: T -> nat) {
    forall d :: load(d).Ok? ==> 0 < size(load(d).value) <= |d|
  }

  /** Total bytes of a run of records. */
  function SumOf<T>(size: T -> nat, ts: seq<T>): nat {
    if |ts| == 0 then 0 else size(ts[0]) + SumOf(size, ts[1..])
  }

  /** The decoder, run at byte `at` of the section, yields `t`, which ends inside the section. */
  predicate RecordAt<T(==), E(==)>(load: seq<byte> -> Result<T, E>, size: T -> nat, data: seq<byte>, at: nat, t: T) {
    at + size(t) <= |data| && load(data[at..]) == Ok(t)
  }

  /**
   * `ts` is a parse of the section from `off` to its end: each record is what
   * the decoder yields where the previous one ends, and the last one ends
   * exactly at the end of the section.
   */
  predicate RecordsFrom<T(==), E(==)>(load: seq<byte> -> Result<T, E>, size: T -> nat, data: seq<byte>, off: nat, ts: seq<T>)
    decreases |ts|
  {
    if |ts| == 0 then off == |data|
    else RecordAt(load, size, data, off, ts[0]) && RecordsFrom(load, size, data, off + size(ts[0]), ts[1..])
  }

  /** The `while off < len { t = load_type(&data[off..])?; off += type_size(&t) }` loop. */
  function WalkFrom<T(==), E(==)>(load: seq<byte> -> Result<T, E>, size: T -> nat, data: seq<byte>, off: nat)
    : (r: Result<seq<T>, E>)
    requires off <= |data| && Advances(load, size)
    ensures r.Ok? ==> off + SumOf(size, r.value) == |data|
    ensures r.Ok? ==> RecordsFrom(load, size, data, off, r.value)
    ensures r.Ok? ==> forall i | 0 <= i < |r.value| :: size(r.value[i]) > 0
    ensures r.Err? ==> exists at | off <= at < |data| :: load(data[at..]) == Err(r.error)
    decreases |data| - off
  {
    if off == |data| then Ok([])
    else
      match load(data[off..])
      case Err(err) => Err(err)
      case Ok(t) =>
        match WalkFrom(load, size, data, off + size(t))
        case Err(err) => Err(err)
        case Ok(rest) =>
          var ts := [t] + rest;
          assert ts[0] == t && ts[1..] == rest;
          Ok(ts)
  }

  /**
   * The walk is the only parse of the section: any run of records that the
   * decoder yields back to back up to the end is what the walk returns.
   */
  lemma {:induction false} WalkFromUnique<T, E>(load: seq<byte> -> Result<T, E>, size: T -> nat, data: seq<byte>, off: nat, ts: seq<T>)
    requires off <= |data| && Advances(load, size) && RecordsFrom(load, size, data, off, ts)
    ensures WalkFrom(load, size, data, off) == Ok(ts)
    decreases |ts|
  {
    if |ts| > 0 {
      var t := ts[0];
      assert load(data[off..]) == Ok(t);
      WalkFromUnique(load, size, data, off + size(t), ts[1..]);
      assert WalkFrom(load, size, data, off) == Ok([t] + ts[1..]);
      assert [t] + ts[1..] == ts;
    }
  }

  /** Record i of a parse starts where records 0..i-1 end. */
  lemma {:induction false} RecordsFromAt<T, E>(load: seq<byte> -> Result<T, E>, size: T -> nat, data: seq<byte>, off: nat, ts: seq<T>, i: nat)
    requires RecordsFrom(load, size, data, off, ts) && i < |ts|
    ensures RecordAt(load, size, data, off + SumOf(size, ts[..i]), ts[i])
    decreases i
  {
    if i > 0 {
      RecordsFromAt(load, size, data, off + size(ts[0]), ts[1..], i - 1);
      assert ts[..i][0] == ts[0] && ts[..i][1..] == ts[1..][..i - 1];
    } else {
      assert ts[..i] == [];
    }
  }
}

=== FILE: wire.dfy ===
/**
 * The on-disk encoding shared by the three loaders (src/types.rs, src/btf.rs,
 * src/lib.rs): fixed-size little- or big-endian words read out of a byte slice,
 * the NUL-terminated string table, and the bit fields packed into a record's
 * `info` word, a member's `offset` word and an int's extra word.
 */
module Wire {
  import opened Wrappers
  import opened Words
  import opened Records

  /** Byte order of the object file the section comes from. */
  datatype Endian = Little | Big

  /**
   * Why loading stops. `Truncated` is a failed `pread_with` (the slice is too
   * short for the structure); `StrOffsetOutOfRange` and `SliceOutOfRange` are
   * index panics in the program, which abort it rather than return.
   */
  datatype LoadError =
    | Truncated(at: nat)
    | StrOffsetOutOfRange(off: nat)
    | UnterminatedStr(off: nat)
    | UnknownIntEncoding(enc: nat)
    | UnknownVarKind(kind: nat)
    | UnknownKind(kind: nat)
    | BadMagic(magic: nat)
    | BadVersion(version: nat)
    | SliceOutOfRange(start: nat, end: nat)

  // ---------------------------------------------------------------------------
  // Words
  // ---------------------------------------------------------------------------

  /** The word whose bytes in memory order are b0 b1 b2 b3. */
  function U32Of(b0: byte, b1: byte, b2: byte, b3: byte, e: Endian): u32 {
    match e
    case Little => b0 + 0x100 * b1 + 0x1_0000 * b2 + 0x100_0000 * b3
    case Big => b3 + 0x100 * b2 + 0x1_0000 * b1 + 0x100_0000 * b0
  }

  /** The four bytes of `x` in memory order. */
  function EncodeU32(x: u32, e: Endian): (r: seq<byte>)
    ensures |r| == 4
  {
    var t1 := x / 0x100;
    var t2 := t1 / 0x100;
    var lo := [x % 0x100, t1 % 0x100, t2 % 0x100, t2 / 0x100];
    match e
    case Little => lo
    case Big => [lo[3], lo[2], lo[1], lo[0]]
  }

  /** `pread_with::<u32>(off, endian)`: fails when fewer than four bytes remain. */
  function ReadU32(d: seq<byte>, off: nat, e: Endian): (r: Result<u32, LoadError>)
    ensures r.Ok? <==> off + 4 <= |d|
    ensures r.Err? ==> r.error == Truncated(off)
  {
    if off + 4 > |d| then Err(Truncated(off))
    else Ok(U32Of(d[off], d[off + 1], d[off + 2], d[off + 3], e))
  }

  /** Reading the bytes `EncodeU32` wrote gives the word back. */
  lemma ReadEncodedU32(d: seq<byte>, off: nat, x: u32, e: Endian)
    requires off + 4 <= |d| && d[off..off + 4] == EncodeU32(x, e)
    ensures ReadU32(d, off, e) == Ok(x)
  {
    var t1 := x / 0x100;
    var t2 := t1 / 0x100;
    assert x == x % 0x100 + 0x100 * t1;
    assert t1 == t1 % 0x100 + 0x100 * t2;
    assert t2 == t2 % 0x100 + 0x100 * (t2 / 0x100);
    assert d[off] == d[off..off + 4][0];
    assert d[off + 1] == d[off..off + 4][1];
    assert d[off + 2] == d[off..off + 4][2];
    assert d[off + 3] == d[off..off + 4][3];
  }

  /** A word read from bytes is written back as the same bytes: the two are inverse. */
  lemma EncodeReadU32(d: seq<byte>, off: nat, e: Endian)
    requires off + 4 <= |d|
    ensures EncodeU32(ReadU32(d, off, e).value, e) == d[off..off + 4]
  {
    var x := ReadU32(d, off, e).value;
    var b0, b1, b2, b3 := d[off], d[off + 1], d[off + 2], d[off + 3];
    var lo0: nat, lo1: nat, lo2: nat, lo3: nat :=
      if e.Little? then b0 else b3, if e.Little? then b1 else b2,
      if e.Little? then b2 else b1, if e.Little? then b3 else b0;
    var t2 := lo2 + 0x100 * lo3;
    var t1 := lo1 + 0x100 * t2;
    assert x == lo0 + 0x100 * t1;
    assert x % 0x100 == lo0 && x / 0x100 == t1;
    assert t1 % 0x100 == lo1 && t1 / 0x100 == t2;
    assert t2 % 0x100 == lo2 && t2 / 0x100 == lo3;
  }

  /** A read inside a prefix sees the same bytes as in the whole slice. */
  lemma ReadU32Prefix(d: seq<byte>, n: nat, off: nat, e: Endian)
    requires off + 4 <= n <= |d|
    ensures ReadU32(d[..n], off, e) == ReadU32(d, off, e)
  {
  }

  // ---------------------------------------------------------------------------
  // String table
  // ---------------------------------------------------------------------------

  /** The first NUL at or after `i`, if any. */
  function NulFrom(strs: seq<byte>, i: nat): (r: Option<nat>)
    ensures r.Some? ==> i <= r.value < |strs| && strs[r.value] == 0
    ensures r.Some? ==> forall k | i <= k < r.value :: strs[k] != 0
    ensures r.None? ==> forall k | i <= k < |strs| :: strs[k] != 0
    decreases |strs| - i
  {
    if i >= |strs| then None
    else if strs[i] == 0 then Some(i)
    else NulFrom(strs, i + 1)
  }

  /**
   * `get_btf_str`: the bytes from `off` up to (not including) the next NUL.
   * An offset past the table is an index panic; a string with no NUL before
   * the end of the table is reported as unterminated (the program would read
   * past the table).
   */
  function GetBtfStr(strs: seq<byte>, off: nat): (r: Result<Str, LoadError>)
    ensures r.Ok? ==> off + |r.value| < |strs| && strs[off..off + |r.value|] == r.value
    ensures r.Ok? ==> strs[off + |r.value|] == 0 && 0 !in r.value
    ensures r.Err? <==> off >= |strs| || forall k | off <= k < |strs| :: strs[k] != 0
    ensures r.Err? ==> r.error == (if off >= |strs| then StrOffsetOutOfRange(off) else UnterminatedStr(off))
  {
    if off >= |strs| then Err(StrOffsetOutOfRange(off))
    else
      match NulFrom(strs, off)
      case None => Err(UnterminatedStr(off))
      case Some(j) =>
        assert forall c | c in strs[off..j] :: c != 0;
        Ok(strs[off..j])
  }

  /** A NUL-free name stored at `|pre|`, followed by its terminator, is read back exactly. */
  lemma {:induction false} StrTableRoundTrip(pre: seq<byte>, s: Str, post: seq<byte>)
    requires 0 !in s
    ensures GetBtfStr(pre + s + [0] + post, |pre|) == Ok(s)
  {
    var strs := pre + s + [0] + post;
    assert strs[|pre| + |s|] == 0;
    forall k | |pre| <= k < |pre| + |s|
      ensures strs[k] != 0
    {
      assert strs[k] == s[k - |pre|];
    }
    var r := GetBtfStr(strs, |pre|);
    assert r.Ok?;
    assert |r.value| == |s|;
    assert strs[|pre|..|pre| + |s|] == s;
  }

  // ---------------------------------------------------------------------------
  // The info word of a type record
  // ---------------------------------------------------------------------------

  /** `get_vlen`: bits 0..15, the number of trailing entries. */
  function GetVlen(info: u32): (r: u16) {
    info % TWO_16
  }

  /** `get_kind` of src/types.rs: bits 24..28 (`(info >> 24) & 0x1f`). */
  function GetKind(info: u32): (r: nat)
    ensures r < 32
  {
    info / TWO_24 % 32
  }

  /** `get_kind_flag`: bit 31. */
  function GetKindFlag(info: u32): bool {
    info / TWO_31 == 1
  }

  /** Bits 16..23 and 29..30, which no decoder looks at. */
  function InfoUnused(info: u32): nat {
    info / TWO_16 % TWO_8 * TWO_16 + info / 0x2000_0000 % 4 * 0x2000_0000
  }

  /** The info word a writer would emit for the three fields. */
  function EncodeInfo(vlen: u16, kind: nat, flag: bool): u32
    requires kind < 32
  {
    vlen + kind * TWO_24 + (if flag then TWO_31 else 0)
  }

  /** Decoding an encoded info word gives back the three fields. */
  lemma InfoRoundTrip(vlen: u16, kind: nat, flag: bool)
    requires kind < 32
    ensures GetVlen(EncodeInfo(vlen, kind, flag)) == vlen
    ensures GetKind(EncodeInfo(vlen, kind, flag)) == kind
    ensures GetKindFlag(EncodeInfo(vlen, kind, flag)) == flag
    ensures InfoUnused(EncodeInfo(vlen, kind, flag)) == 0
  {
  }

  /** Every info word is its three fields plus the bits no decoder reads. */
  lemma InfoDecomposes(info: u32)
    ensures info == EncodeInfo(GetVlen(info), GetKind(info), GetKindFlag(info)) + InfoUnused(info)
  {
  }

  // ---------------------------------------------------------------------------
  // Member offsets
  // ---------------------------------------------------------------------------

  /** A member's position: bit size (0 when not a bitfield) and bit offset. */
  datatype MemberPos = MemberPos(bitSize: u8, bitOffset: u32)

  /**
   * The member-offset split of `load_members`: with the kind flag set, the top
   * 8 bits are the bitfield size and the low 24 bits the bit offset; otherwise
   * the whole word is the bit offset and the size is 0.
   */
  function DecodeMemberOffset(offset: u32, kindFlag: bool): (r: MemberPos)
    ensures !kindFlag ==> r == MemberPos(0, offset)
    ensures kindFlag ==> r.bitOffset < TWO_24 && r.bitSize * TWO_24 + r.bitOffset == offset
  {
    if kindFlag then MemberPos(offset / TWO_24, offset % TWO_24) else MemberPos(0, offset)
  }

  /** The offset word for a bitfield member. */
  function EncodeBitfieldOffset(p: MemberPos): u32
    requires p.bitOffset < TWO_24
  {
    p.bitSize * TWO_24 + p.bitOffset
  }

  /** With the kind flag set, decoding inverts encoding and encoding inverts decoding. */
  lemma MemberOffsetRoundTrip(p: MemberPos, offset: u32)
    requires p.bitOffset < TWO_24
    ensures DecodeMemberOffset(EncodeBitfieldOffset(p), true) == p
    ensures EncodeBitfieldOffset(DecodeMemberOffset(offset, true)) == offset
  {
  }

  // ---------------------------------------------------------------------------
  // The extra word of an Int record
  // ---------------------------------------------------------------------------

  datatype IntInfo = IntInfo(enc: nat, offset: u32, bits: u32)

  /** `load_int`'s extraction: `enc = (info>>24)&0xf`, `off = (info>>16)&0xff`, `bits = info&0xff`. */
  function DecodeIntInfo(info: u32): (r: IntInfo)
    ensures r.enc < 16 && r.offset < 0x100 && r.bits < 0x100
  {
    IntInfo(info / TWO_24 % 16, info / TWO_16 % 0x100, info % 0x100)
  }

  function EncodeIntInfo(i: IntInfo): u32
    requires i.enc < 16 && i.offset < 0x100 && i.bits < 0x100
  {
    i.enc * TWO_24 + i.offset * TWO_16 + i.bits
  }

  /** Decoding an encoded int word gives back its three fields. */
  lemma IntInfoRoundTrip(i: IntInfo)
    requires i.enc < 16 && i.offset < 0x100 && i.bits < 0x100
    ensures DecodeIntInfo(EncodeIntInfo(i)) == i
  {
    var x := EncodeIntInfo(i);
    assert x % 0x100 == i.bits;
    assert x / TWO_16 == i.enc * 0x100 + i.offset;
    assert x / TWO_24 == i.enc;
  }

  /** A word is determined by its three int fields up to bits 8..15 and 28..31, which are ignored. */
  lemma IntInfoDecomposes(info: u32)
    ensures info == EncodeIntInfo(DecodeIntInfo(info)) + info / TWO_8 % TWO_8 * TWO_8
                    + info / 0x1000_0000 * 0x1000_0000
  {
    var hi := info / TWO_16;
    assert info == hi * TWO_16 + info % TWO_16;
    assert info % TWO_16 == info / TWO_8 % TWO_8 * TWO_8 + info % 0x100;
    assert hi == hi / 0x100 * 0x100 + hi % 0x100;
    assert hi / 0x100 == info / TWO_24;
    assert info / TWO_24 == info / 0x1000_0000 * 16 + info / TWO_24 % 16;
  }

  /** The encoding code `load_int` accepts: exactly 0, 1 (signed), 2 (char) and 4 (bool). */
  function IntEncodingOf(enc: nat): (r: Result<IntEncoding, LoadError>)
    ensures r.Ok? <==> enc in {0, 1, 2, 4}
    ensures r.Err? ==> r.error == UnknownIntEncoding(enc)
  {
    if enc == 0 then Ok(NoEncoding)
    else if enc == 1 then Ok(Signed)
    else if enc == 2 then Ok(Char)
    else if enc == 4 then Ok(Bool)
    else Err(UnknownIntEncoding(enc))
  }

  /** `BTF_INT_SIGNED`, `BTF_INT_CHAR`, `BTF_INT_BOOL`, or 0. */
  function IntEncodingCode(x: IntEncoding): nat {
    match x
    case NoEncoding => 0
    case Signed => 1
    case Char => 2
    case Bool => 4
  }

  /** Decoding and the encoding codes are inverse on the accepted codes. */
  lemma IntEncodingRoundTrip(x: IntEncoding, enc: nat)
    ensures IntEncodingOf(IntEncodingCode(x)) == Ok(x)
    ensures IntEncodingOf(enc).Ok? ==> IntEncodingCode(IntEncodingOf(enc).value) == enc
  {
  }

  // ---------------------------------------------------------------------------
  // Enum64 values
  // ---------------------------------------------------------------------------

  /**
   * The value `load_enum64` stores: `i64::from(lo) + i64::from(hi) << 32`,
   * which Rust parses as `(lo + hi) << 32` (shift binds looser than `+`).
   */
  function Enum64ValueAsWritten(lo: u32, hi: u32): (r: int)
    ensures r % TWO_32 == 0
  {
    AsI64((lo + hi) * TWO_32 % TWO_64)
  }

  /** The 64-bit value the two halves encode: `lo | hi << 32` read as `i64`. */
  function Enum64ValueOf(lo: u32, hi: u32): (r: int)
    ensures -(TWO_63 as int) <= r < TWO_63 as int
  {
    AsI64(lo + hi * TWO_32)
  }

  /** The halves a writer stores for an `i64` value. */
  function Enum64Halves(v: int): (r: (u32, u32))
    requires -(TWO_63 as int) <= v < TWO_63 as int
  {
    var bits := if v >= 0 then v else v + TWO_64;
    (bits % TWO_32, bits / TWO_32)
  }

  /** The intended decoding recovers every `i64` from its halves. */
  lemma Enum64RoundTrip(v: int)
    requires -(TWO_63 as int) <= v < TWO_63 as int
    ensures Enum64ValueOf(Enum64Halves(v).0, Enum64Halves(v).1) == v
  {
  }

  /**
   * What the program stores is not the encoded value: the low half is added to
   * the high half instead of being kept below bit 32, so an enumerator with
   * value 1 is read as 2^32.
   */
  lemma Enum64AsWrittenDiffers()
    ensures Enum64Halves(1) == (1, 0)
    ensures Enum64ValueOf(1, 0) == 1
    ensures Enum64ValueAsWritten(1, 0) == TWO_32
  {
  }

  // ---------------------------------------------------------------------------
  // The entries that follow a record
  // ---------------------------------------------------------------------------

  /**
   * The kinds of trailing entry: `btf_member` (12 bytes; how its offset word is
   * split depends on the record's kind flag), `btf_enum` (8), `btf_enum64` (12),
   * `btf_param` (8) and `btf_datasec_var` (12).
   */
  datatype Shape = MemberRecords(kindFlag: bool) | EnumRecords | Enum64Records | ParamRecords | DatasecVarRecords

  function EntrySize(s: Shape): nat {
    match s
    case MemberRecords(_) => 12
    case EnumRecords => 8
    case Enum64Records => 12
    case ParamRecords => 8
    case DatasecVarRecords => 12
  }

  /** Where entry k starts: entries are packed back to back from offset 0. */
  function EntryOff(s: Shape, k: nat): nat {
    if EntrySize(s) == 8 then 8 * k else 12 * k
  }

  /** Entry k + 1 starts right after entry k; earlier entries end before later ones start. */
  lemma EntryOffStep(s: Shape, k: nat, n: nat)
    ensures EntryOff(s, k + 1) == EntryOff(s, k) + EntrySize(s)
    ensures k < n ==> EntryOff(s, k) + EntrySize(s) <= EntryOff(s, n)
  {
    match s
    case MemberRecords(_) =>
    case EnumRecords =>
    case Enum64Records =>
    case ParamRecords =>
    case DatasecVarRecords =>
  }

  datatype Entry =
    | MemberEntry(member: Member)
    | EnumEntry(value: EnumValue)
    | Enum64Entry(value64: Enum64Value)
    | ParamEntry(param: FuncParam)
    | VarEntry(dvar: DatasecVar)

  /** The decoded entry is of the kind the shape describes. */
  predicate Fits(s: Shape, x: Entry) {
    match s
    case MemberRecords(_) => x.MemberEntry?
    case EnumRecords => x.EnumEntry?
    case Enum64Records => x.Enum64Entry?
    case ParamRecords => x.ParamEntry?
    case DatasecVarRecords => x.VarEntry?
  }

  /**
   * One iteration of the loaders' loops: `pread_with` of the whole entry at
   * `off`, then the lookup of its name (datasec variables have none). An
   * `i32` enumerator value is the word read as two's complement.
   */
  function DecodeEntry(s: Shape, d: seq<byte>, off: nat, strs: seq<byte>, e: Endian): (r: Result<Entry, LoadError>)
    ensures r.Ok? ==> Fits(s, r.value) && off + EntrySize(s) <= |d|
    ensures off + EntrySize(s) > |d| ==> r == Err(Truncated(off))
  {
    if off + EntrySize(s) > |d| then Err(Truncated(off))
    else
      var w0 := ReadU32(d, off, e).value;
      var w1 := ReadU32(d, off + 4, e).value;
      match s
      case EnumRecords =>
        var name :- GetBtfStr(strs, w0);
        Ok(EnumEntry(EnumValue(name, AsI32(w1))))
      case ParamRecords =>
        var name :- GetBtfStr(strs, w0);
        Ok(ParamEntry(FuncParam(name, w1)))
      case MemberRecords(flag) =>
        var w2 := ReadU32(d, off + 8, e).value;
        var name :- GetBtfStr(strs, w0);
        var pos := DecodeMemberOffset(w2, flag);
        Ok(MemberEntry(Member(name, w1, pos.bitOffset, pos.bitSize)))
      case Enum64Records =>
        var w2 := ReadU32(d, off + 8, e).value;
        var name :- GetBtfStr(strs, w0);
        Ok(Enum64Entry(Enum64Value(name, Enum64ValueAsWritten(w1, w2))))
      case DatasecVarRecords =>
        var w2 := ReadU32(d, off + 8, e).value;
        Ok(VarEntry(DatasecVar(w0, w1, w2)))
  }

  /** The result of decoding each of the first `n` entries on its own. */
  function Decodes(s: Shape, d: seq<byte>, strs: seq<byte>, n: nat, e: Endian): (r: seq<Result<Entry, LoadError>>)
    ensures |r| == n
    ensures forall k | 0 <= k < n :: r[k] == DecodeEntry(s, d, EntryOff(s, k), strs, e)
  {
    seq(n, k requires 0 <= k < n => DecodeEntry(s, d, EntryOff(s, k), strs, e))
  }

  /**
   * The `for _ in 0..vlen` loops: `n` consecutive entries from the start of
   * `d`, stopping at the first entry that fails, whose error is the result.
   */
  function LoadEntries(s: Shape, d: seq<byte>, strs: seq<byte>, n: nat, e: Endian): (r: Result<seq<Entry>, LoadError>)
    ensures r.Ok? ==> |r.value| == n && EntryOff(s, n) <= |d|
    ensures r.Ok? ==> forall k | 0 <= k < n :: Fits(s, r.value[k])
  {
    var rs := Decodes(s, d, strs, n, e);
    CollectSpec(rs);
    if n == 0 then Collect(rs)
    else
      EntryOffStep(s, n - 1, n);
      Collect(rs)
  }

  /**
   * The loop succeeds exactly when every entry decodes on its own, then
   * yields those entries in order; otherwise it reports the first failure.
   */
  lemma LoadEntriesSpec(s: Shape, d: seq<byte>, strs: seq<byte>, n: nat, e: Endian)
    ensures var r := LoadEntries(s, d, strs, n, e);
      && (r.Ok? <==> forall k | 0 <= k < n :: DecodeEntry(s, d, EntryOff(s, k), strs, e).Ok?)
      && (r.Ok? ==> forall k | 0 <= k < n :: DecodeEntry(s, d, EntryOff(s, k), strs, e) == Ok(r.value[k]))
      && (r.Err? ==> exists k | 0 <= k < n ::
            && (forall j | 0 <= j < k :: DecodeEntry(s, d, EntryOff(s, j), strs, e).Ok?)
            && DecodeEntry(s, d, EntryOff(s, k), strs, e) == Err(r.error))
  {
    CollectSpec(Decodes(s, d, strs, n, e));
  }

  /** An entry decoded inside a prefix of the bytes decodes the same. */
  lemma DecodeEntryPrefix(s: Shape, d: seq<byte>, m: nat, off: nat, strs: seq<byte>, e: Endian)
    requires off + EntrySize(s) <= m <= |d|
    ensures DecodeEntry(s, d[..m], off, strs, e) == DecodeEntry(s, d, off, strs, e)
  {
    ReadU32Prefix(d, m, off, e);
    ReadU32Prefix(d, m, off + 4, e);
    if EntrySize(s) == 12 {
      ReadU32Prefix(d, m, off + 8, e);
    }
  }

  /** The loops read only the `EntryOff(s, n)` bytes their entries occupy. */
  lemma LoadEntriesPrefix(s: Shape, d: seq<byte>, m: nat, strs: seq<byte>, n: nat, e: Endian)
    requires EntryOff(s, n) <= m <= |d|
    ensures LoadEntries(s, d[..m], strs, n, e) == LoadEntries(s, d, strs, n, e)
  {
    forall k | 0 <= k < n
      ensures DecodeEntry(s, d[..m], EntryOff(s, k), strs, e) == DecodeEntry(s, d, EntryOff(s, k), strs, e)
    {
      EntryOffStep(s, k, n);
      DecodeEntryPrefix(s, d, m, EntryOff(s, k), strs, e);
    }
    assert Decodes(s, d[..m], strs, n, e) == Decodes(s, d, strs, n, e);
  }

  function MembersOf(es: seq<Entry>): (r: seq<Member>)
    requires forall k | 0 <= k < |es| :: es[k].MemberEntry?
    ensures |r| == |es| && forall k | 0 <= k < |es| :: r[k] == es[k].member
  {
    seq(|es|, k requires 0 <= k < |es| => es[k].member)
  }

  function EnumValuesOf(es: seq<Entry>): (r: seq<EnumValue>)
    requires forall k | 0 <= k < |es| :: es[k].EnumEntry?
    ensures |r| == |es| && forall k | 0 <= k < |es| :: r[k] == es[k].value
  {
    seq(|es|, k requires 0 <= k < |es| => es[k].value)
  }

  function Enum64ValuesOf(es: seq<Entry>): (r: seq<Enum64Value>)
    requires forall k | 0 <= k < |es| :: es[k].Enum64Entry?
    ensures |r| == |es| && forall k | 0 <= k < |es| :: r[k] == es[k].value64
  {
    seq(|es|, k requires 0 <= k < |es| => es[k].value64)
  }

  function ParamsOf(es: seq<Entry>): (r: seq<FuncParam>)
    requires forall k | 0 <= k < |es| :: es[k].ParamEntry?
    ensures |r| == |es| && forall k | 0 <= k < |es| :: r[k] == es[k].param
  {
    seq(|es|, k requires 0 <= k < |es| => es[k].param)
  }

  function DatasecVarsOf(es: seq<Entry>): (r: seq<DatasecVar>)
    requires forall k | 0 <= k < |es| :: es[k].VarEntry?
    ensures |r| == |es| && forall k | 0 <= k < |es| :: r[k] == es[k].dvar
  {
    seq(|es|, k requires 0 <= k < |es| => es[k].dvar)
  }

  // ---------------------------------------------------------------------------
  // The section header
  // ---------------------------------------------------------------------------

  const BTF_MAGIC: nat := 0xeB9F
  const BTF_VERSION: nat := 1
  /** `size_of::<btf_header>()`. */
  const HEADER_SIZE: nat := 24

  /** `btf_header`: offsets of the two sections are relative to the end of the header. */
  datatype Header = Header(magic: u16, version: u8, flags: u8, hdrLen: u32,
                           typeOff: u32, typeLen: u32, strOff: u32, strLen: u32)

  function U16Of(b0: byte, b1: byte, e: Endian): u16 {
    match e
    case Little => b0 + 0x100 * b1
    case Big => b1 + 0x100 * b0
  }

  function EncodeU16(x: u16, e: Endian): (r: seq<byte>)
    ensures |r| == 2
  {
    match e
    case Little => [x % 0x100, x / 0x100]
    case Big => [x / 0x100, x % 0x100]
  }

  /** `pread_with::<btf_header>(0, endian)`: the 24 header bytes, field by field. */
  function ReadHeader(d: seq<byte>, e: Endian): (r: Result<Header, LoadError>)
    ensures r.Ok? <==> |d| >= HEADER_SIZE
  {
    if |d| < HEADER_SIZE then Err(Truncated(0))
    else
      Ok(Header(U16Of(d[0], d[1], e), d[2], d[3], ReadU32(d, 4, e).value, ReadU32(d, 8, e).value,
                ReadU32(d, 12, e).value, ReadU32(d, 16, e).value, ReadU32(d, 20, e).value))
  }

  /** The 24 bytes a writer emits for a header. */
  function EncodeHeader(h: Header, e: Endian): (r: seq<byte>)
    ensures |r| == HEADER_SIZE
  {
    EncodeU16(h.magic, e) + [h.version, h.flags] + EncodeU32(h.hdrLen, e) + EncodeU32(h.typeOff, e)
      + EncodeU32(h.typeLen, e) + EncodeU32(h.strOff, e) + EncodeU32(h.strLen, e)
  }

  /** A header is read back from its encoding, whatever follows it. */
  lemma HeaderRoundTrip(h: Header, rest: seq<byte>, e: Endian)
    ensures ReadHeader(EncodeHeader(h, e) + rest, e) == Ok(h)
  {
    var d := EncodeHeader(h, e) + rest;
    assert d[4..8] == EncodeU32(h.hdrLen, e);
    assert d[8..12] == EncodeU32(h.typeOff, e);
    assert d[12..16] == EncodeU32(h.typeLen, e);
    assert d[16..20] == EncodeU32(h.strOff, e);
    assert d[20..24] == EncodeU32(h.strLen, e);
    ReadEncodedU32(d, 4, h.hdrLen, e);
    ReadEncodedU32(d, 8, h.typeOff, e);
    ReadEncodedU32(d, 12, h.typeLen, e);
    ReadEncodedU32(d, 16, h.strOff, e);
    ReadEncodedU32(d, 20, h.strLen, e);
    assert U16Of(d[0], d[1], e) == h.magic;
  }

  /** The magic and version checks every loader makes before anything else. */
  function CheckHeader(h: Header): (r: Result<(), LoadError>)
    ensures r.Ok? <==> h.magic == BTF_MAGIC && h.version == BTF_VERSION
    ensures h.magic != BTF_MAGIC ==> r == Err(BadMagic(h.magic))
  {
    if h.magic != BTF_MAGIC then Err(BadMagic(h.magic))
    else if h.version != BTF_VERSION then Err(BadVersion(h.version))
    else Ok(())
  }

  /** `&data[start..start + len]`: an out-of-range slice is an index panic. */
  function Slice(data: seq<byte>, start: nat, len: nat): (r: Result<seq<byte>, LoadError>)
    ensures r.Ok? <==> start + len <= |data|
    ensures r.Ok? ==> r.value == data[start..start + len]
  {
    if start + len > |data| then Err(SliceOutOfRange(start, start + len))
    else Ok(data[start..start + len])
  }
}

=== FILE: words.dfy ===
/**
 * Fixed-width machine words as bounded naturals and the wrap-around arithmetic
 * of Rust's `u32` in a release build. Bit-field extraction (`x >> n & mask`)
 * is written as division and remainder by powers of two.
 */
module Words {

  const TWO_8: nat := 0x100
  const TWO_16: nat := 0x1_0000
  const TWO_24: nat := 0x100_0000
  const TWO_31: nat := 0x8000_0000
  const TWO_32: nat := 0x1_0000_0000
  const TWO_63: nat := 0x8000_0000_0000_0000
  const TWO_64: nat := 0x1_0000_0000_0000_0000

  type byte = x: nat | x < 0x100
  type u8 = x: nat | x < 0x100
  type u16 = x: nat | x < 0x1_0000
  type u32 = x: nat | x < 0x1_0000_0000
  type u64 = x: nat | x < 0x1_0000_0000_0000_0000
  /** `usize` on a 64-bit host. */
  type usize = x: nat | x < 0x1_0000_0000_0000_0000

  /** `a + b` on `u32` with wrap-around. */
  function Add32(a: u32, b: u32): u32 {
    (a + b) % TWO_32
  }

  /** `a * b` on `u32` with wrap-around. */
  function Mul32(a: u32, b: u32): u32 {
    (a * b) % TWO_32
  }

  /** `std::cmp::min` on words. */
  function Min(a: nat, b: nat): nat {
    if a <= b then a else b
  }

  /** `std::cmp::max` on words. */
  function Max(a: nat, b: nat): nat {
    if a >= b then a else b
  }

  /** `x as u32` for an unsigned source: keeps the low 32 bits. */
  function AsU32(x: nat): u32 {
    x % TWO_32
  }

  /** Reinterprets a 32-bit pattern as `i32` (two's complement). */
  function AsI32(x: u32): (r: int)
    ensures -(TWO_31 as int) <= r < TWO_31 as int
  {
    if x < TWO_31 then x else x - TWO_32
  }

  /** Reinterprets a 64-bit pattern as `i64` (two's complement). */
  function AsI64(x: u64): (r: int)
    ensures -(TWO_63 as int) <= r < TWO_63 as int
  {
    if x < TWO_63 then x else x - TWO_64
  }

  /** Adding a multiple of 2^32 does not change the low 32 bits. */
  lemma ModMultiple32(x: nat, q: nat)
    ensures (x + q * TWO_32) % TWO_32 == x % TWO_32
  {
  }

  lemma ModMulLeft32(a: nat, b: nat)
    ensures (a % TWO_32 * b) % TWO_32 == (a * b) % TWO_32
  {
    var q := a / TWO_32;
    var r := a % TWO_32;
    assert a * b == r * b + (q * b) * TWO_32 by {
      assert a == q * TWO_32 + r;
      assert a * b == (q * TWO_32 + r) * b;
    }
    ModMultiple32(r * b, q * b);
  }

  /** The u32 sum of two wrapped values is the wrapped true sum. */
  lemma Add32Wraps(a: nat, b: nat)
    ensures Add32(a % TWO_32, b % TWO_32) == (a + b) % TWO_32
  {
  }

  /** The u32 product of two wrapped values is the wrapped true product. */
  lemma Mul32Wraps(a: nat, b: nat)
    ensures Mul32(a % TWO_32, b % TWO_32) == (a * b) % TWO_32
  {
    ModMulLeft32(a, b % TWO_32);
    ModMulLeft32(b, a);
    assert a * (b % TWO_32) == b % TWO_32 * a;
    assert b * a == a * b;
  }
}

=== FILE: wrappers.dfy ===
/** Failure-compatible Option and Result, used for every fallible operation of the model. */
module Wrappers {

  datatype Option<+T> = None | Some(value: T) {
    predicate IsFailure() {
      None?
    }

    function PropagateFailure<U>(): Option<U>
      requires None?
    {
      None
    }

    function Extract(): T
      requires Some?
    {
      value
    }
  }

  /** Rust's `Result<T, E>`: `Ok` carries the value, `Err` the error. */
  datatype Result<+T, +E> = Ok(value: T) | Err(error: E) {
    predicate IsFailure() {
      Err?
    }

    function PropagateFailure<U>(): Result<U, E>
      requires Err?
    {
      Err(error)
    }

    function Extract(): T
      requires Ok?
    {
      value
    }
  }

  /**
   * `collect::<Result<Vec<T>, E>>()` over results computed in order: all the
   * values when every result is `Ok`, else the error of the first `Err`.
   */
  function Collect<T, E>(rs: seq<Result<T, E>>): (r: Result<seq<T>, E>)
    ensures r.Ok? ==> |r.value| == |rs|
  {
    if |rs| == 0 then Ok([])
    else
      match Collect(rs[..|rs| - 1])
      case Err(err) => Err(err)
      case Ok(prev) =>
        match rs[|rs| - 1]
        case Err(err) => Err(err)
        case Ok(x) => Ok(prev + [x])
  }

  /** `Collect` succeeds exactly when every result is `Ok`, and otherwise reports the first error. */
  lemma {:induction false} CollectSpec<T, E>(rs: seq<Result<T, E>>)
    ensures Collect(rs).Ok? <==> forall k | 0 <= k < |rs| :: rs[k].Ok?
    ensures Collect(rs).Ok? ==> forall k | 0 <= k < |rs| :: rs[k] == Ok(Collect(rs).value[k])
    ensures Collect(rs).Err? ==> exists k | 0 <= k < |rs| ::
      (forall j | 0 <= j < k :: rs[j].Ok?) && rs[k] == Err(Collect(rs).error)
  {
    if |rs| > 0 {
      var init := rs[..|rs| - 1];
      CollectSpec(init);
      var r := Collect(rs);
      if Collect(init).Err? {
        var k :| 0 <= k < |init| && (forall j | 0 <= j < k :: init[j].Ok?) && init[k] == Err(Collect(init).error);
        assert r.error == Collect(init).error;
        assert forall j | 0 <= j < k :: rs[j] == init[j];
        assert rs[k] == init[k];
        assert (forall j | 0 <= j < k :: rs[j].Ok?) && rs[k] == Err(r.error);
      } else if rs[|rs| - 1].Err? {
        var k := |rs| - 1;
        assert forall j | 0 <= j < k :: rs[j] == init[j];
        assert (forall j | 0 <= j < k :: rs[j].Ok?) && rs[k] == Err(r.error);
      } else {
        forall k | 0 <= k < |rs|
          ensures rs[k] == Ok(r.value[k])
        {
          if k < |rs| - 1 {
            assert rs[k] == init[k];
          }
        }
      }
    }
  }
}
